=== FILE: README.md ===
# Inline caches, deoptimizer translations, the frame tree and the app-cache error event

A Dafny model of four pieces of sequential logic from a Chromium-based
browser tree:

- **V8 inline caches** (`src/v8/src/ic.cc`). The decisions that pick a
  call site's next stub and state:
  - the keyed-store stub kind (`GetStubKind`) and the elements-kind widening
    (`ComputeTransitionedMap`);
  - the choice between monomorphic, polymorphic and generic keyed element
    stubs, bounded by `kMaxKeyedPolymorphism`;
  - `IC::PatchCache` over a call-site target and a global stub cache, with
    the cache a map from (name, map) to a code id;
  - `IC::StateFrom`, the type-information count delta, and the `Clear`
    rules;
  - the type-feedback lattices of the compare, unary and binary operator ICs.
- **The V8 deoptimizer** (`src/v8/src/deoptimizer.cc`):
  - the variable-length integer code of the translation buffer;
  - the translation writers and their operand table;
  - the two command interpreters `DoTranslateCommand` and
    `DoOsrTranslateCommand` (output frames are sequences of cells, with side
    lists of deferred heap numbers and arguments objects);
  - frame-description address arithmetic;
  - the deoptimization entry tables;
  - the frame-list logic: the JS frame index, the partition of optimized
    functions, and the placement of heap numbers for the debugger.
- **The frame tree** (`src/content/browser/frame_host/frame_tree_node.cc`).
  Nodes sit in a store keyed by id, with parent links and an ordered child
  list. Modelled: id allocation, `AddChild`, `RemoveChild`,
  `ResetForNewProcess` and `IsDescendantOf`, plus the invariant these keep:
  parents and children link both ways, and the parent chain ends.
- **The application-cache error event**
  (`src/third_party/WebKit/Source/core/events/ApplicationCacheErrorEvent.cpp`):
  the reason-name table and the two constructors that fill the event's
  fields.

Modules follow the source:

| Module | Covers |
|---|---|
| `Outcomes` | shared `Option` and `Result` types |
| `Arch` | pointer size, Smi range, the 32-bit casts |
| `IcTypes`, `IcKeyed`, `IcPatch`, `IcFeedback` | the inline caches |
| `TranslationCodec`, `Translation` | the translation byte and record codes |
| `Frames` | frame descriptions |
| `DeoptTranslate`, `DeoptTranslateProperties` | the translation interpreter |
| `DeoptOsr`, `DeoptOsrProperties` | the OSR interpreter |
| `DeoptEntries` | the entry tables |
| `DeoptLists` | the frame and function lists |
| `FrameTreeNodes` | the frame tree |
| `AppCacheErrorEvent` | the error event |

Heap facts are fields of abstract datatypes: Smi or heap number, JSArray,
elements kind, map identity and code kind. A heap number is a `real`.

Facts the code uses but defines in headers that are not part of this model
are parameters:

- `IcKeyed.Env` carries the elements-kind lattice, `kMaxKeyedPolymorphism`,
  the factory's string map and the maps `GetElementsTransitionMap` returns.
- `DeoptEntries.Config` carries the entry counts, the entry size and the page
  size.
- `Arch` picks the pointer size and the Smi width.

Opcodes are numbered in the order their cases appear in
`Translation::StringFor`. The BinaryOpIC types are ordered as their names
are listed in ic.cc (lines 2106-2112).

An `ASSERT`, `CHECK` or `UNREACHABLE` in the source becomes an `Err`
outcome, except where "Left out" names it as a precondition or as a case
the model does not fail on.

## Model

| member | source | states |
|---|---|---|
| Arch.PointerSize | src/v8/src/deoptimizer.cc:251 | A tagged word is 4 bytes on 32-bit targets and 8 on 64-bit ones. |
| Arch.SmiMaxValue | src/v8/src/deoptimizer.cc:1031 | The largest small integer is 2^30-1 with 31-bit Smis and 2^31-1 with 32-bit Smis, the negation of the smallest minus one. |
| Arch.Int32Wrap | src/v8/src/deoptimizer.cc:1335 | The int32 cast lands in the int32 range, differs from its argument by a multiple of 2^32, and keeps every int32. |
| Arch.Uint32Wrap | src/v8/src/deoptimizer.cc:1049-1050 | The uint32 cast lands in the uint32 range, differs from its argument by a multiple of 2^32, and keeps every uint32. |
| Arch.UintptrWrap | src/v8/src/deoptimizer.cc:1030 | The unsigned word cast lands in the word range and keeps every value already in it. |
| IcTypes.GetStubKind | src/v8/src/ic.cc:1654-1717 | The kind grows exactly when the receiver is a JSArray with a Smi length at or below the index. A Smi value never transitions. A double-elements receiver never gets a SMI_TO_* kind, and an object-elements receiver never transitions. HOLEY transitions occur for holey receivers only, and the other transitions for packed receivers only. |
| IcTypes.ComputeTransitionedMap | src/v8/src/ic.cc:1625-1651 | Each transition gives a map of its target kind: *_TO_OBJECT gives object elements and *_TO_DOUBLE gives double elements, with the holeyness of the stub kind. A non-transitioning kind keeps the receiver's own map. |
| IcTypes.GetNoTransitionStubKind | src/v8/src/ic.cc:1559 | Dropping the transition keeps the grow flag and leaves a kind with no transition. |
| IcTypes.StoreReachesGeneralizedKind | src/v8/src/ic.cc:1625-1717 | A store into a fast receiver lands on the least general fast kind that holds both the old elements and the stored value, keeping holeyness. |
| IcTypes.NonFastStoreKeepsMap | src/v8/src/ic.cc:1654-1717 | A store into a receiver whose elements are not fast never changes its map. |
| IcTypes.TransitionIffKindChanges | src/v8/src/ic.cc:1654-1717 | The stub kind transitions if and only if the generalized kind differs from the receiver's kind. |
| IcTypes.FastKindOfOwn | src/v8/src/ic.cc:1625-1651 | A fast kind is recovered from its contents and its holeyness. |
| IcKeyed.AddOneReceiverMapIfMissing | src/v8/src/ic.cc:1110-1121 | Returns false and keeps the list if and only if the map is already in it; otherwise it appends exactly that map at the end. The list stays duplicate-free. |
| IcKeyed.DistinctMaps | src/v8/src/ic.cc:1124-1157 | Holds each embedded map once: no duplicates, and the same set of maps. |
| IcKeyed.GetReceiverMapsForStub | src/v8/src/ic.cc:1124-1157 | Succeeds exactly for monomorphic, polymorphic and megamorphic stubs. The maps come from the stub, without duplicates, and a monomorphic stub gives at most one. |
| IcKeyed.LoadElementStub | src/v8/src/ic.cc:1160-1222 | A non-NORMAL target goes generic. An uninitialized site goes monomorphic on the receiver's map. A polymorphic stub holds 2 to kMaxKeyedPolymorphism distinct maps: the maps seen so far, then the receiver's map. |
| IcKeyed.LoadGoesGeneric | src/v8/src/ic.cc:1182-1221 | Outside the transitioned-receiver shortcut, a site with maps goes generic if and only if the receiver's map was already seen or one more map exceeds the bound. Otherwise the stub is polymorphic over the seen maps plus the receiver's map. |
| IcKeyed.StoreElementStub | src/v8/src/ic.cc:1537-1622 | A non-NORMAL target goes generic. A monomorphic stub never transitions and keeps the grow mode. A polymorphic stub holds at most kMaxKeyedPolymorphism distinct maps, including the receiver's, and grows if either the stub kind or the old target allowed growth. Strictness is kept. In the transitioned-receiver shortcut of a monomorphic site, the stub fails (the source's ASSERT) exactly when the transitioned map is the receiver's own map. |
| IcKeyed.StorePolymorphicHoldsTransitionedMap | src/v8/src/ic.cc:1595-1601 | A transitioning store that goes polymorphic includes the transitioned map. |
| IcKeyed.StoreSameMapsGoGeneric | src/v8/src/ic.cc:1575-1609 | At a monomorphic or polymorphic site with maps, outside the transitioned-receiver shortcut, a store goes generic when neither the receiver's map nor its transitioned map is new. |
| IcKeyed.StoreGoesGeneric | src/v8/src/ic.cc:1575-1621 | At a monomorphic or polymorphic site with maps, a non-transitioning store goes generic if and only if the receiver's map was already seen or one more map exceeds kMaxKeyedPolymorphism. Otherwise the stub is polymorphic over the seen maps plus the receiver's map, growing if the stub kind or the old target allowed it. |
| IcKeyed.NewStoreMaps | src/v8/src/ic.cc:1593-1601 | The maps a transitioning store adds: the receiver's map and the transitioned map, each only if not yet seen, without duplicates. |
| IcKeyed.TransitioningStoreGoesGeneric | src/v8/src/ic.cc:1575-1621 | Outside the transitioned-receiver shortcut, a transitioning store goes generic if and only if it adds no new map or the seen maps plus the new ones exceed kMaxKeyedPolymorphism. Otherwise the stub is polymorphic over the seen maps followed by the new ones. |
| IcPatch.StateFrom | src/v8/src/ic.cc:207-244 | Only a monomorphic target's state can change. It changes to MONOMORPHIC_PROTOTYPE_FAILURE only for non-keyed, non-call ICs whose prototype stub is invalid, and to UNINITIALIZED only for the builtins object. |
| IcPatch.UpdateMegamorphicCache | src/v8/src/ic.cc:1016-1020 | The (name, map) entry becomes the code's id; every other entry is unchanged. |
| IcPatch.PatchCache | src/v8/src/ic.cc:938-985 | Fails only in the GENERIC state. Uninitialized states install the code. MONOMORPHIC with the same code changes nothing. MEGAMORPHIC keeps the target. POLYMORPHIC installs the generic stub. DEBUG_STUB changes nothing. Any change caches the new code under the receiver's map. |
| IcPatch.MonomorphicToMegamorphic | src/v8/src/ic.cc:949-964 | Leaving MONOMORPHIC installs the megamorphic stub. The new code is cached under the receiver's map, and the old target under its own first map. No other cache entry changes. |
| IcPatch.MegamorphicOnlyUpdatesCache | src/v8/src/ic.cc:965-968 | In MEGAMORPHIC the target stays, and only the receiver's cache entry changes. |
| IcPatch.ComputeTypeInfoCountDelta | src/v8/src/ic.cc:279-286 | The delta is the change in the has-type-information indicator between the old and new state. |
| IcPatch.DeltaSumTelescopes | src/v8/src/ic.cc:279-322 | Over any sequence of patches the deltas add up to the last indicator minus the first, so the running count never goes negative. |
| IcPatch.Clear | src/v8/src/ic.cc:325-405 | Debug-break targets are kept. Uninitialized targets are kept, except compare ICs. Unary, binary and to-boolean ICs are never reset. A compare IC is reset exactly when its handler holds a known map. A plain function is the one unexpected kind. |
| IcPatch.ClearIdempotent | src/v8/src/ic.cc:325-405 | Clearing a site that was just reset leaves it as it is. |
| IcFeedback.CompareAtMostTransitive | src/v8/src/ic.cc:2391-2485 | The order the compare states move up in is transitive. |
| IcFeedback.CompareInputState | src/v8/src/ic.cc:2391-2425 | An input's new state is never UNINITIALIZED or KNOWN_OBJECT, and never below the previous state. |
| IcFeedback.CompareInputStateStable | src/v8/src/ic.cc:2391-2425 | Seeing the same input again keeps its state. |
| IcFeedback.TargetState | src/v8/src/ic.cc:2428-2485 | STRING, OBJECT and GENERIC go to GENERIC, and SMI goes only to NUMBER or GENERIC. A state an operator can reach leads to another one it can reach, and the state never moves down. |
| IcFeedback.OrderedCompareFromUninitialized | src/v8/src/ic.cc:2428-2485 | From UNINITIALIZED an ordered comparison never reaches SYMBOL, OBJECT or KNOWN_OBJECT. An equality comparison of two objects with one map reaches KNOWN_OBJECT. |
| IcFeedback.CompareRun | src/v8/src/ic.cc:2488-2524 | A run of misses moves every state up, stays in the states the operator can reach, and never records KNOWN_OBJECT for an input. |
| IcFeedback.UnaryGetTypeInfo | src/v8/src/ic.cc:2066-2077 | An operand's type is never UNINITIALIZED. |
| IcFeedback.ComputeNewType | src/v8/src/ic.cc:2079-2096 | The first observation is taken as it is. After that the type rises strictly, and to at least the observed type, in the order UNINITIALIZED < SMI < NUMBER < GENERIC. |
| IcFeedback.UnaryToState | src/v8/src/ic.cc:2052-2064 | The IC is uninitialized if and only if the type is, and generic if and only if the type is. |
| IcFeedback.TypeInfoFromValue | src/v8/src/ic.cc:2191-2215 | A value's type is never UNINITIALIZED, and is STRING if and only if the value is a string. |
| IcFeedback.NoInt32With32BitSmis | src/v8/src/ic.cc:2191-2215 | With 32-bit Smis no value is typed INT32. |
| IcFeedback.BinaryInputState | src/v8/src/ic.cc:2218-2227 | The type never goes down. A STRING type stays STRING if and only if the new input is a string, and otherwise goes GENERIC. Any other type becomes the larger of the old type and the input's type. |
| IcFeedback.BinaryInputStateStable | src/v8/src/ic.cc:2218-2227 | Seeing the same input again keeps its type. |
| IcFeedback.BinaryToState | src/v8/src/ic.cc:2118-2134 | The IC is uninitialized if and only if the type is, and generic if and only if the type is. |
| IcFeedback.BinaryOpPatch | src/v8/src/ic.cc:2230-2270 | Both input types only move up. Only ADD keeps a STRING input. The result type is UNINITIALIZED, INT32 or NUMBER. |
| TranslationCodec.PayloadRoundTrip | src/v8/src/deoptimizer.cc:1714-1743 | The payload's bit 0 is set if and only if the value is negative. The rest of the payload is the magnitude, and the payload reads back as the value. |
| TranslationCodec.ChunksFlags | src/v8/src/deoptimizer.cc:1720-1725 | Every byte of a written number but the last has its low bit set; the last has it clear. |
| TranslationCodec.ChunksLength | src/v8/src/deoptimizer.cc:1720-1725 | A payload below 128^k takes at most k bytes. |
| TranslationCodec.ReadChunksOfChunks | src/v8/src/deoptimizer.cc:1729-1738 | The reader reads the written bytes, wherever they sit in a buffer, as the payload, and stops right after them. |
| TranslationCodec.AddAsWritten | src/v8/src/deoptimizer.cc:1714-1726 | The writer as written, with a 32-bit payload, writes 1 to 5 bytes for any int32. |
| TranslationCodec.NextAsWritten | src/v8/src/deoptimizer.cc:1729-1743 | The reader as written succeeds exactly when a terminated group is present. It yields an int32 other than the most negative, and moves forward within the buffer. |
| TranslationCodec.NextAsWrittenOfAddAsWritten | src/v8/src/deoptimizer.cc:1714-1743 | The code as written round-trips every int32 except the most negative, consuming exactly the written bytes. |
| TranslationCodec.AddAsWrittenAgrees | src/v8/src/deoptimizer.cc:1714-1726 | Away from the most negative int32, the written and corrected writers give the same bytes, and the payload fits 32 bits. |
| TranslationCodec.AddAsWrittenLosesInt32Min | src/v8/src/deoptimizer.cc:1717 | The most negative int32 is written as the single byte 2 and read back as 0; the corrected pair reads it back. |
| TranslationCodec.Next | src/v8/src/deoptimizer.cc:1729-1743 | The corrected reader succeeds exactly when a terminated group is present, and moves forward within the buffer. |
| TranslationCodec.Add | src/v8/src/deoptimizer.cc:1714-1726 | The corrected writer writes at least one byte, and the corrected reader reads the value back from them, consuming exactly those bytes. |
| TranslationCodec.AddLength | src/v8/src/deoptimizer.cc:1714-1726 | The corrected writer writes at most 5 bytes for every int32, the most negative included. |
| TranslationCodec.NextOfAdd | src/v8/src/deoptimizer.cc:1714-1743 | Round trip: an integer written anywhere in a buffer reads back as itself, and the read consumes exactly the written bytes. |
| TranslationCodec.EncodeWordsAppend | src/v8/src/deoptimizer.cc:1714-1726 | Writing two runs of integers one after the other writes their codes one after the other. |
| TranslationCodec.DecodeWordsAt | src/v8/src/deoptimizer.cc:1729-1743 | The tail of a buffer that holds the code of a sequence of integers reads back as that sequence. |
| TranslationCodec.DecodeEncodeWords | src/v8/src/deoptimizer.cc:1714-1743 | Round trip of a whole buffer: the integers read are the integers written. |
| Translation.OpcodeOfValue | src/v8/src/deoptimizer.cc:964-965 | The cast succeeds exactly for numbers below the opcode count, and names the opcode with that number. |
| Translation.OpcodeValueRoundTrip | src/v8/src/deoptimizer.cc:964-965 | An opcode's number casts back to the opcode. |
| Translation.NumberOfOperandsFor | src/v8/src/deoptimizer.cc:1865-1892 | The table as written: at most three operands, and none exactly for DUPLICATE. |
| Translation.OperandCount | src/v8/src/deoptimizer.cc:1791-1793 | The corrected table agrees with the written one except for COMPILED_STUB_FRAME, which has no operand. |
| Translation.WriterOperandCounts | src/v8/src/deoptimizer.cc:1755-1892 | Every writer emits as many operands as the corrected table says. Every writer but BeginCompiledStubFrame emits as many as the written table says; that one emits one fewer. |
| Translation.SerializeIsEncodeWords | src/v8/src/deoptimizer.cc:1755-1862 | The buffer the writers fill holds the integer code of their opcodes and operands. |
| Translation.ReadRecordOfWriter | src/v8/src/deoptimizer.cc:1755-1892 | A writer's integers, whatever follows them, read back as that writer's record, consuming exactly its integers. |
| Translation.ReadRecordsOfWords | src/v8/src/deoptimizer.cc:1755-1892 | The integers of a run of writers read back as their records, in order. |
| Translation.DecodeTranslationOfSerialize | src/v8/src/deoptimizer.cc:1714-1892 | Round trip of a translation: the bytes the writers leave decode to their integers, and with the corrected table to their records. |
| Translation.CompiledStubFrameMisread | src/v8/src/deoptimizer.cc:1880 | A compiled stub frame followed by a register store cannot be read with the written table, and reads correctly with the corrected one. |
| Translation.MisreadWords | src/v8/src/deoptimizer.cc:1880 | With the written table, the compiled stub frame takes the next opcode as its operand and the register operand is left over. |
| Translation.CorrectedWords | src/v8/src/deoptimizer.cc:1791-1793 | With the corrected table, the same integers read as the two records written. |
| Frames.ComputeParametersCount | src/v8/src/deoptimizer.cc:1673-1688 | STUB frames count -1. JS frames count their function's formal parameters. Adaptor frames count the small integer in their first slot, and fail when it holds none. Other frame types are unexpected. |
| Frames.FrameFixedSize | src/v8/src/deoptimizer.cc:1652-1655 | A frame's fixed size is known exactly when its parameter count is. |
| Frames.GetOffsetFromSlotIndex | src/v8/src/deoptimizer.cc:1658-1670 | The offset is known exactly when the parameter count is, and is a uint32. |
| Frames.LocalSlotOffset | src/v8/src/deoptimizer.cc:1661-1664 | Local slot s lies s + 1 words below the fixed part, word-aligned and inside the frame. |
| Frames.ParameterSlotOffset | src/v8/src/deoptimizer.cc:1665-1669 | The receiver and the parameters lie word-aligned in the argument area at the bottom of the frame. |
| Frames.SlotOffsetsDistinct | src/v8/src/deoptimizer.cc:1658-1670 | Distinct valid slot indexes name distinct offsets. |
| Frames.ComputeIncomingArgumentSize | src/v8/src/deoptimizer.cc:1529-1538 | The size is a uint32, and 0 for a stub's marker function. |
| Frames.ComputeFixedSize | src/v8/src/deoptimizer.cc:1521-1526 | The fixed part is a uint32: the fixed frame words alone for a stub, and the receiver plus formal parameters plus the fixed frame words for a function whose argument area fits. |
| Frames.ComputeInputFrameSize | src/v8/src/deoptimizer.cc:1500-1518 | The input frame size is a uint32. |
| Frames.FixedSizesAgree | src/v8/src/deoptimizer.cc:1521-1526 | The deoptimizer's fixed size for a function equals the fixed size of a JS frame for that function. |
| Frames.InputFrameSizeBreakdown | src/v8/src/deoptimizer.cc:1500-1518 | When the argument area fits, the input frame is the fixed part plus the fp-to-sp distance. |
| DeoptTranslate.IteratorNext | src/v8/src/deoptimizer.cc:1729-1743 | Succeeds exactly while integers remain, yields the next one, and moves on by one. |
| DeoptTranslate.IteratorSkip | src/v8/src/deoptimizer.cc:968 | Skipping n integers succeeds exactly when n remain, and moves the position on by n. |
| DeoptTranslate.SkipDuplicatesBy | src/v8/src/deoptimizer.cc:964-970 | With any operand table, the loop stops on an opcode other than DUPLICATE, or on a number that names no opcode. It moves forward within the words. |
| DeoptTranslate.SkipDuplicates | src/v8/src/deoptimizer.cc:964-970 | The same loop with the corrected operand table; it stops on an opcode other than DUPLICATE and moves forward within the words. |
| DeoptTranslate.DeferNumber | src/v8/src/deoptimizer.cc:1569-1573 | The slot gets the placeholder, and one heap-number record with the slot's address and the value is appended. Nothing else changes. |
| DeoptTranslate.StoreInt32 | src/v8/src/deoptimizer.cc:1001-1026 | Changes only the addressed slot and possibly appends one heap number. |
| DeoptTranslate.StoreUint32 | src/v8/src/deoptimizer.cc:1028-1054 | Changes only the addressed slot and possibly appends one heap number. |
| DeoptTranslate.InputSlot | src/v8/src/deoptimizer.cc:1073-1090 | A slot read from an input frame free of placeholders is never the placeholder. |
| DeoptTranslate.InputRegister | src/v8/src/deoptimizer.cc:984-999 | A register read from an input frame free of placeholders is never the placeholder. |
| DeoptTranslate.ArgumentValues | src/v8/src/deoptimizer.cc:1184-1212 | The arguments object gets one value per argument; with unknown values every value is the hole. |
| DeoptTranslate.StoreValue | src/v8/src/deoptimizer.cc:984-1182 | A single-operand command only writes the addressed slot and appends records. |
| DeoptTranslate.StoreArguments | src/v8/src/deoptimizer.cc:1184-1212 | The arguments command only writes the addressed slot and appends records. |
| DeoptTranslate.Dispatch | src/v8/src/deoptimizer.cc:972-1213 | The switch only writes the addressed slot and appends records. |
| DeoptTranslate.WriteSlotEffect | src/v8/src/deoptimizer.cc:984-999 | Writing a non-placeholder cell to the addressed slot is a command effect. |
| DeoptTranslate.DeferNumberEffect | src/v8/src/deoptimizer.cc:1056-1071 | Deferring a number is a command effect. |
| DeoptTranslate.DoTranslateCommand | src/v8/src/deoptimizer.cc:956-1214 | On success, only the addressed output slot changes, and deferred records are only appended. |
| DeoptTranslateProperties.DuplicateSkipsCommand | src/v8/src/deoptimizer.cc:964-970 | After a DUPLICATE marker the next command, operands included, is consumed without effect. The result is that of the command after it. |
| DeoptTranslateProperties.SkipDuplicatesOverMarker | src/v8/src/deoptimizer.cc:964-970 | The duplicate loop skips a marker and the command after it. |
| DeoptTranslateProperties.SkipDuplicatesAgree | src/v8/src/deoptimizer.cc:964-970 | When no DUPLICATE marker is followed by COMPILED_STUB_FRAME, the loop with the source's table (NumberOfOperandsFor) and the corrected loop give the same result. |
| DeoptTranslateProperties.DuplicatedStubFrameOverskips | src/v8/src/deoptimizer.cc:968 | For the words of MarkDuplicate, BeginCompiledStubFrame, StoreRegister(3), the source's loop consumes the register command's opcode and returns CONSTRUCT_STUB_FRAME; the corrected loop returns REGISTER. |
| DeoptTranslateProperties.SkipDuplicatesStops | src/v8/src/deoptimizer.cc:964-970 | The loop stops at the first opcode that is not DUPLICATE, just after it. |
| DeoptTranslateProperties.CommandOpcodeAt | src/v8/src/deoptimizer.cc:964-972 | A command read where its writer wrote it enters the switch with that writer's opcode. |
| DeoptTranslateProperties.StoreCommandReadsOperand | src/v8/src/deoptimizer.cc:984-1182 | A single-operand store reads exactly its one operand and stores the value it names. |
| DeoptTranslateProperties.StoreInt32Outcome | src/v8/src/deoptimizer.cc:1012-1025 | An int32 becomes a Smi exactly when it is a valid Smi. Otherwise the slot gets the placeholder, and exactly one heap number of the same value is recorded at the slot's address. |
| DeoptTranslateProperties.StoreUint32Outcome | src/v8/src/deoptimizer.cc:1040-1053 | A uint32 becomes a Smi exactly when it is at most Smi::kMaxValue. Otherwise the slot gets the placeholder, and exactly one heap number of the same value is recorded. |
| DeoptTranslateProperties.Int32RegisterCommand | src/v8/src/deoptimizer.cc:1001-1026 | INT32_REGISTER consumes its operand and stores the register's value as a Smi exactly when it fits. Otherwise the slot gets the placeholder plus one heap-number record at the slot's address. |
| DeoptTranslateProperties.Uint32RegisterCommand | src/v8/src/deoptimizer.cc:1028-1054 | UINT32_REGISTER stores a Smi exactly when the value is at most Smi::kMaxValue. Otherwise the slot gets the placeholder plus one heap-number record. |
| DeoptTranslateProperties.DoubleRegisterCommand | src/v8/src/deoptimizer.cc:1056-1071 | DOUBLE_REGISTER always stores the placeholder and records the register's value at the slot's address. |
| DeoptTranslateProperties.ArgumentsObjectCommand | src/v8/src/deoptimizer.cc:1184-1212 | ARGUMENTS_OBJECT with unknown values consumes three operands and stores the arguments marker. It records one arguments object of length minus one at the slot's address, and that many holes. |
| DeoptTranslateProperties.UnknownArguments | src/v8/src/deoptimizer.cc:1184-1212 | The arguments store with unknown values succeeds and records the object and its holes. |
| DeoptTranslateProperties.HolesAvailable | src/v8/src/deoptimizer.cc:1199-1211 | Unknown argument values always succeed: one hole per argument. |
| DeoptTranslateProperties.FrameRecordIsUnreachable | src/v8/src/deoptimizer.cc:973-982 | A frame-describing record where a command is expected is unreachable. |
| DeoptTranslateProperties.CountAtAppend | src/v8/src/deoptimizer.cc:1569-1573 | Appending a record adds one to the count at its own address only. |
| DeoptTranslateProperties.DoTranslateCommandKeepsAccounting | src/v8/src/deoptimizer.cc:1001-1168 | Invariant: a command that writes a slot without a placeholder, from inputs without one, keeps each output placeholder matched by exactly one heap-number record at its address. |
| DeoptOsr.Truncate | src/v8/src/deoptimizer.cc:1225 | The C++ cast rounds toward zero on both signs. |
| DeoptOsr.FastD2I | src/v8/src/deoptimizer.cc:1233 | The result is an int32. |
| DeoptOsr.FastD2UI | src/v8/src/deoptimizer.cc:1259 | The result is a uint32. |
| DeoptOsr.ObjectToInt32 | src/v8/src/deoptimizer.cc:1217-1238 | Always succeeds on a Smi. Fails on a non-number. Succeeds on a heap number only with an int32 equal to it. |
| DeoptOsr.ObjectToUint32 | src/v8/src/deoptimizer.cc:1241-1264 | Succeeds on a Smi exactly when it is non-negative. Fails on a non-number. Succeeds on a heap number only with a uint32 equal to it. |
| DeoptOsr.TruncateExact | src/v8/src/deoptimizer.cc:1225-1231 | The truncation equals the number exactly when the number is an integer. |
| DeoptOsr.HeapNumberToInt32 | src/v8/src/deoptimizer.cc:1217-1238 | A heap number converts exactly when it is an integer in the int32 range, and converts to itself. |
| DeoptOsr.HeapNumberToUint32 | src/v8/src/deoptimizer.cc:1241-1264 | A heap number converts exactly when it is an integer in the uint32 range, and converts to itself. |
| DeoptOsr.SmiToUint32 | src/v8/src/deoptimizer.cc:1241-1264 | A non-negative valid Smi converts unchanged. |
| DeoptOsr.SetRegister | src/v8/src/deoptimizer.cc:1318 | Succeeds exactly for an existing register, changes only that register, and keeps the frame's shape. |
| DeoptOsr.SetDoubleRegister | src/v8/src/deoptimizer.cc:1350 | Succeeds exactly for an existing double register, changes only that one, and keeps the frame's shape. |
| DeoptOsr.SetSlot | src/v8/src/deoptimizer.cc:1366 | Succeeds exactly for a word of the frame, sets it, and keeps the registers and shape. |
| DeoptOsr.StoreDoubleRegister | src/v8/src/deoptimizer.cc:1338-1352 | On success the frame keeps its shape and exactly one operand is consumed. |
| DeoptOsr.OsrStore | src/v8/src/deoptimizer.cc:1296-1449 | On success the frame keeps its shape and the iterator moves forward within the words. |
| DeoptOsr.DoOsrTranslateCommand | src/v8/src/deoptimizer.cc:1267-1453 | On success the frame keeps its shape, the iterator moves forward, and the input offset stays or moves down one word. |
| DeoptOsrProperties.OsrDuplicateKeepsOffset | src/v8/src/deoptimizer.cc:1277-1282 | After a DUPLICATE marker the next command is carried out as without it, but the input offset does not move. |
| DeoptOsrProperties.OsrStoreConsumes | src/v8/src/deoptimizer.cc:1296-1449 | The switch consumes the table's operand count, plus one for UINT32_REGISTER when it falls through. |
| DeoptOsrProperties.OsrCommandStep | src/v8/src/deoptimizer.cc:1267-1453 | A command read where its writer wrote it consumes the writer's integers, one more for the falling-through UINT32_REGISTER, and moves the input offset down one word. |
| DeoptOsrProperties.OsrCommandConsumesItsOperands | src/v8/src/deoptimizer.cc:1267-1453 | In the corrected interpreter a successful command consumes exactly what its writer wrote, and moves the input offset down one word. |
| DeoptOsrProperties.OsrUint32RegisterOverreads | src/v8/src/deoptimizer.cc:1323-1338 | As written, a successful UINT32_REGISTER consumes one integer more than its writer wrote. |
| DeoptOsrProperties.OsrInt32Register | src/v8/src/deoptimizer.cc:1308-1321 | An input that converts to an int32 lands in the named register, and nothing else of the frame changes. |
| DeoptOsrProperties.OsrUint32Register | src/v8/src/deoptimizer.cc:1323-1336 | Corrected: an input that converts to a uint32 lands in the named register as the int32 with the same bits. The double registers are untouched. |
| DeoptOsrProperties.Uint32FallThroughMisreads | src/v8/src/deoptimizer.cc:1323-1352 | As written, UINT32_REGISTER 2 followed by REGISTER 3 also stores into double register 7, the next opcode, and leaves the iterator on that command's operand. The corrected switch stops on the next opcode. |
| DeoptEntries.NewDeoptimizerData | src/v8/src/deoptimizer.cc:41-45 | A new deoptimizer data holds both chunks with the fresh entry count -1, which is a well-formed state. |
| DeoptEntries.EnsureCodeForDeoptimizationEntry | src/v8/src/deoptimizer.cc:1576-1614 | The requested entry exists afterwards, within the maximum. The count doubles from the minimum (a fresh table, count -1, gets at least the minimum once asked for id -1 or more), and is unchanged when the entry already existed. The other table and the chunks are untouched. |
| DeoptEntries.GetDeoptimizationEntry | src/v8/src/deoptimizer.cc:637-656 | An id at or past the maximum gives NULL and changes nothing. A missing chunk faults. Otherwise the entry's address is returned, and in ensure mode the entry is generated. |
| DeoptEntries.GetDeoptimizationIdAsWritten | src/v8/src/deoptimizer.cc:659-676 | As written, a missing chunk faults, because its start is read before the NULL test. |
| DeoptEntries.GetDeoptimizationId | src/v8/src/deoptimizer.cc:659-676 | A missing chunk gives kNotDeoptimizationEntry. Otherwise this is the id of the entry the address falls in. |
| DeoptEntries.IdInTable | src/v8/src/deoptimizer.cc:670-675 | An address outside [start, start + max * entry size) gives kNotDeoptimizationEntry. Inside, the id of the entry that holds it. |
| DeoptEntries.GetDeoptimizationIdAgrees | src/v8/src/deoptimizer.cc:659-676 | Where the chunk is present, the written and corrected lookups agree. |
| DeoptEntries.NullChunkFaults | src/v8/src/deoptimizer.cc:667-668 | With no eager chunk, the written lookup faults on every address; the corrected one answers kNotDeoptimizationEntry. |
| DeoptEntries.IdOfEntryAddress | src/v8/src/deoptimizer.cc:637-676 | The id of an entry's address is the entry's id. |
| DeoptEntries.EntryIdRoundTrip | src/v8/src/deoptimizer.cc:637-676 | Round trip: for every id below the maximum, looking up the entry's address gives back the id, in both the written and the corrected lookup. |
| DeoptEntries.GetMaxDeoptTableSize | src/v8/src/deoptimizer.cc:150-157 | The reserved size is a whole number of pages, at least the entries plus the epilogue, and less than one page more. |
| DeoptEntries.EntriesFitTable | src/v8/src/deoptimizer.cc:150-157 | Every entry lies inside the reserved table. |
| DeoptLists.JSFramePosition | src/v8/src/deoptimizer.cc:170-183 | The k-th JS frame is a JS frame with exactly k JS frames before it. |
| DeoptLists.JSFramePositionUnique | src/v8/src/deoptimizer.cc:170-183 | At most one position has that property. |
| DeoptLists.JSFrameCountMonotone | src/v8/src/deoptimizer.cc:170-183 | Longer prefixes hold no fewer JS frames. |
| DeoptLists.ConvertJSFrameIndexToFrameIndex | src/v8/src/deoptimizer.cc:170-183 | Index 0 gives 0; any other index gives the position of that JS frame. |
| DeoptLists.FirstJSFrameShortcut | src/v8/src/deoptimizer.cc:171 | The index-0 shortcut is right if and only if the outermost frame is a JS frame. |
| DeoptLists.FirstJSFrameAfterAdaptor | src/v8/src/deoptimizer.cc:171 | Behind an adaptor frame the first JS frame is at 1, not 0. |
| DeoptLists.PartitionOptimizedFunctions | src/v8/src/deoptimizer.cc:340-375 | The context keeps exactly the rejected functions, in order. Each code appears once in the partitions, exactly when some taken function has it. Its list holds those functions, latest first. |
| DeoptLists.PartitionStepKeeps | src/v8/src/deoptimizer.cc:345-373 | One step of the loop keeps the partition invariant. |
| DeoptLists.TakenOrRejected | src/v8/src/deoptimizer.cc:340-375 | A function is kept in the context exactly when it is there and rejected, and listed under its code exactly when it is taken. |
| DeoptLists.ReverseContents | src/v8/src/deoptimizer.cc:360-361 | Linking to the front keeps the same elements. |
| DeoptLists.PartitionPlacesTaken | src/v8/src/deoptimizer.cc:340-375 | Every taken function lands in the list of its own code. |
| DeoptLists.InspectedFrameOf | src/v8/src/deoptimizer.cc:248-258 | The parameter area ends where its frame ends and holds the parameters and the receiver. The expressions start at the frame's top. |
| DeoptLists.PlaceAsWritten | src/v8/src/deoptimizer.cc:910-951 | As written, a number goes to a parameter only when its slot is in the parameter area. |
| DeoptLists.MaterializeAsWritten | src/v8/src/deoptimizer.cc:903-952 | As written, each deferred number gives at most one placement. Every placement comes from some deferred number through PlaceAsWritten, and every number PlaceAsWritten places is materialized. |
| DeoptLists.Place | src/v8/src/deoptimizer.cc:910-951 | Corrected: every placement has an index inside its area. |
| DeoptLists.Materialize | src/v8/src/deoptimizer.cc:903-952 | Corrected: every placement is in bounds. |
| DeoptLists.PlaceParameter | src/v8/src/deoptimizer.cc:918-933 | The number in parameter i's slot is placed in parameter i. |
| DeoptLists.PlaceExpression | src/v8/src/deoptimizer.cc:934-950 | The number in expression i's slot, outside the parameter area, is placed in expression i. |
| DeoptLists.SlotIndexRoundTrip | src/v8/src/deoptimizer.cc:921-922 | The index arithmetic inverts the slot position. |
| DeoptLists.PlaceAgreesOffReceiver | src/v8/src/deoptimizer.cc:918-951 | Away from the receiver's slot, the written and corrected placements agree. |
| DeoptLists.ReceiverHeapNumberIndex | src/v8/src/deoptimizer.cc:918-933 | A heap number in the receiver's slot of a one-parameter frame is placed, as written, at parameter -1, out of bounds. The corrected placement drops it. |
| FrameTreeNodes.EmptyStoreWellFormed | src/content/browser/frame_host/frame_tree_node.cc:19 | The store before any node is constructed is well formed. |
| FrameTreeNodes.CreateNode | src/content/browser/frame_host/frame_tree_node.cc:21-41 | The node takes the counter's value, which then goes up by one. It has no parent, no children and an empty URL. Nothing else changes, and an issued id is new. |
| FrameTreeNodes.CreateNodeKeepsWellFormed | src/content/browser/frame_host/frame_tree_node.cc:37-38 | Constructing a node keeps the store well formed. |
| FrameTreeNodes.CreateNodes | src/content/browser/frame_host/frame_tree_node.cc:19-41 | Nodes constructed one after another get new, strictly increasing ids, and the store stays well formed. |
| FrameTreeNodes.AddChild | src/content/browser/frame_host/frame_tree_node.cc:54-70 | Fails exactly when the process id differs from the parent's. Otherwise the child is appended to the children and named the child's parent, in the parent's process. Nothing else changes. |
| FrameTreeNodes.AddChildKeepsWellFormed | src/content/browser/frame_host/frame_tree_node.cc:54-70 | Adding a freshly constructed child keeps the store well formed. |
| FrameTreeNodes.FirstIndex | src/content/browser/frame_host/frame_tree_node.cc:75-78 | The search finds the first occurrence. |
| FrameTreeNodes.RemoveChild | src/content/browser/frame_host/frame_tree_node.cc:72-88 | A node that is not a child changes nothing. Otherwise its first occurrence leaves the children, it loses its parent, and nothing else changes. |
| FrameTreeNodes.RemoveChildKeepsOrder | src/content/browser/frame_host/frame_tree_node.cc:83-86 | The remaining children keep their order. |
| FrameTreeNodes.RemoveChildKeepsWellFormed | src/content/browser/frame_host/frame_tree_node.cc:72-88 | Removing a child keeps the store well formed, and the child is gone from the list. |
| FrameTreeNodes.ResetForNewProcess | src/content/browser/frame_host/frame_tree_node.cc:90-106 | The node ends with no children and an empty URL, and keeps its parent and process. Each old child loses its parent link and keeps its own subtree. Every other node is unchanged. |
| FrameTreeNodes.ResetKeepsWellFormed | src/content/browser/frame_host/frame_tree_node.cc:90-106 | The reset keeps the store well formed, two-way links included, and afterwards no node names the reset node as its parent. |
| FrameTreeNodes.ResetDetachesOldChildren | src/content/browser/frame_host/frame_tree_node.cc:90-106 | After a reset an old child is a descendant of no node, so later children added to the reset node never bring it back. |
| FrameTreeNodes.Ancestor | src/content/browser/frame_host/frame_tree_node.cc:112 | The k-th ancestor sits at least k levels higher. |
| FrameTreeNodes.AncestorEnded | src/content/browser/frame_host/frame_tree_node.cc:112 | Once the parent chain ends, it stays ended. |
| FrameTreeNodes.IsDescendantOf | src/content/browser/frame_host/frame_tree_node.cc:108-118 | True if and only if the other node exists, has children, and is on the parent chain starting at this node's parent. |
| FrameTreeNodes.NeverOwnDescendant | src/content/browser/frame_host/frame_tree_node.cc:108-118 | In a well-formed store no node is its own descendant. |
| FrameTreeNodes.AddedChildIsDescendant | src/content/browser/frame_host/frame_tree_node.cc:54-70 | A child just added is a descendant of its new parent. |
| FrameTreeNodes.RemovedChildIsDetached | src/content/browser/frame_host/frame_tree_node.cc:72-88 | A removed child is a descendant of no node. |
| FrameTreeNodes.AddRemoveRoundTrip | src/content/browser/frame_host/frame_tree_node.cc:54-88 | Adding a fresh child and removing it again gives back the original children. |
| AppCacheErrorEvent.ErrorReasonToString | src/third_party/WebKit/Source/core/events/ApplicationCacheErrorEvent.cpp:10-41 | Every reason has a non-empty name, and the name reads back as that reason. |
| AppCacheErrorEvent.ErrorReasonToStringInjective | src/third_party/WebKit/Source/core/events/ApplicationCacheErrorEvent.cpp:12-38 | Two reasons have the same name if and only if they are the same reason. |
| AppCacheErrorEvent.ReasonNamedRoundTrip | src/third_party/WebKit/Source/core/events/ApplicationCacheErrorEvent.cpp:12-38 | A name that stands for a reason is that reason's name. |
| AppCacheErrorEvent.FromReason | src/third_party/WebKit/Source/core/events/ApplicationCacheErrorEvent.cpp:47-54 | An "error" event that neither bubbles nor can be cancelled. The reason is the reason's name; URL, status and message are as given. |
| AppCacheErrorEvent.FromInit | src/third_party/WebKit/Source/core/events/ApplicationCacheErrorEvent.cpp:56-68 | Status is 0 and the strings empty unless the dictionary has them. Each member present in the dictionary is taken verbatim. |
| AppCacheErrorEvent.FromInitOfEvent | src/third_party/WebKit/Source/core/events/ApplicationCacheErrorEvent.cpp:56-68 | An event rebuilt from a dictionary holding all its fields is the same event. |
| AppCacheErrorEvent.FromEmptyInit | src/third_party/WebKit/Source/core/events/ApplicationCacheErrorEvent.cpp:58 | An empty dictionary gives status 0 and empty strings. |

## Left out

- Translation iterator: the deoptimizer's `TranslationIterator` walks the decoded integer sequence rather than the bytes. The byte code and its round trip are proved separately (`TranslationCodec`, `Translation.DecodeTranslationOfSerialize`). A buffer whose tail does not decode is therefore outside the interpreters.
- `DOUBLE_STACK_SLOT` in the OSR interpreter: the bit pattern of the double is not modelled. The two words the source writes hold the number's lower and upper halves as `LowerHalf` and `UpperHalf` cells.
- DeoptOsr.FastD2I: NaN and infinities are not modelled, because heap numbers are `real`s. A value out of the int32 range gives INT32_MIN, the integer-indefinite value of the hardware conversion.
- DeoptOsr.FastD2UI: a value out of the uint32 range gives 0x80000000, for the same reason as FastD2I.
- Typed cells: input frame slots and registers hold a tagged value, a raw integer, a double or a half of a double. Where the source reinterprets a word of another kind (the Smi read at deoptimizer.cc:1680, the slot reads of `DoTranslateCommand` at 984-1090), the model answers `Malformed` or `None` instead of a reinterpreted value. This affects `DeoptTranslate.RawWord`, `DeoptTranslate.StoreValue` on `DOUBLE_STACK_SLOT`, and `Frames.ComputeParametersCount` on an adaptor frame whose first slot holds no Smi.
- DeoptTranslate.SkipDuplicates: the interpreter skips a duplicated command's operands by the corrected table (`OperandCount`), not by `NumberOfOperandsFor` as line 968 does. The two differ only for COMPILED_STUB_FRAME (see Findings). `SkipDuplicatesBy` with the source's table is the loop as written, and `SkipDuplicatesAgree` proves both agree away from a duplicated stub frame.
- DeoptEntries.GetDeoptimizationEntry: requires `id >= 0`, the source's ASSERT at deoptimizer.cc:641.
- DeoptEntries.EnsureCodeForDeoptimizationEntry: requires `maxEntryId` below kMaxNumberOfEntries. This stands for the ASSERT that the doubled count stays within the maximum (line 1591).
- DeoptEntries.GetDeoptimizationId: an address inside the table that is not an entry's start gives the entry it falls in, because the division rounds down. The source's ASSERT_EQ on the alignment (lines 673-674) is not a failure here. The same holds for GetDeoptimizationIdAsWritten and IdInTable.
- Header constants are parameters, not fixed values, because their definitions are not part of this model: kMaxNumberOfEntries, kMinNumberOfEntries, the entry size and the page size (`DeoptEntries.Config`).
- Inline-cache header facts are parameters for the same reason: the elements-kind lattice, kMaxKeyedPolymorphism, the string map and `GetElementsTransitionMap` (`IcKeyed.Env`).
- IcFeedback.ComputeNewType: requires the previous type not to be GENERIC, the source's ASSERT.
- IcFeedback.CompareInputState: requires the previous state not to be KNOWN_OBJECT, the source's ASSERT.
- IcFeedback.TargetState: requires SYMBOL and KNOWN_OBJECT to occur only for equality operators, the source's ASSERT. Reachability is stated as preserved, not assumed.
- DeoptLists.ConvertJSFrameIndexToFrameIndex: requires the index to name a JS frame. Otherwise the source reads past the end of the output frames.
- Frames.ComputeInputFrameSize: the DEBUG check that the size equals the fixed part plus the stack slots and outgoing arguments (deoptimizer.cc:1514) is not modelled, because the compiled code's stack slots and outgoing arguments are not part of this model.
- DeoptLists.PartitionOptimizedFunctions: the walk starts with no partitions and no code holding deoptimizing functions. This stands for the source's ASSERT that the partition list starts empty (deoptimizer.cc:349) and its ASSERT that a code with deoptimizing functions is already a partition (line 358); the model has no failure path for either.
- Stub-cache `Compute*` generators: a stub is named by what it is computed from. Code generation is foreign to the decision logic.
- IcPatch.StateFrom: `TryRemoveInvalidPrototypeDependentStub` inspects the heap, so its answer is a boolean parameter. The prototype-chain stub removal itself is not modelled.
- IcPatch.ComputeTypeInfoCountDelta: `PostPatching`'s heap updates (the type-feedback info objects) are not modelled; only the delta arithmetic is.
- IcFeedback.BinaryOpPatch: installing the stub and `PatchInlinedSmiCode` are code patching and are left out.
- Lookup, load and store bodies, runtime entry points, tracing and printing in ic.cc and deoptimizer.cc: these depend on the heap and object model.
- DeoptEntries.EnsureCodeForDeoptimizationEntry: the code emission (assembler, copy, instruction-cache flush) is not modelled; only the entry count.
- `DeoptimizerData` chunk allocation, stack-check patching, weak-handle callbacks and heap-object materialization: memory management.
- FrameTreeNodes.RemoveChild: the removed node is not destroyed. It stays in the store, detached, with its own subtree; observers and destruction are not modelled.
- FrameTreeNodes.ResetForNewProcess: the old children are not destroyed, and `FrameTree::RemoveFrame` is not called for them, because that callback is outside this file. Each old child stays in the store with its parent link cleared, as the root of its own subtree.
- FrameTreeNodes.AddChild: the render manager's `Init` of the child is foreign code; only the child's process id is set.
- FrameTreeNodes.CreateNode: the 64-bit id counter is an unbounded integer, so overflow is not modelled.
- The frame tree's `depth` field is a modelling aid that makes the parent chain's termination explicit; the source has no such field.
- The default `ApplicationCacheErrorEvent` constructor leaves the status uninitialized, so it has no defined value to model.
- Floating point: heap numbers are exact `real`s.

## Findings

| source | as written | input that shows it | evidently intended | confidence | as-written member | corrected member |
|---|---|---|---|---|---|---|
| src/v8/src/deoptimizer.cc:1714-1726 | `Add` negates the value in 32-bit arithmetic, so the most negative int32 has no positive magnitude | -2147483648 is written as the single byte 2 and read back as 0 | every int32 reads back as itself | not executed; high | TranslationCodec.AddAsWrittenLosesInt32Min | TranslationCodec.NextOfAdd |
| src/v8/src/deoptimizer.cc:1880 | `NumberOfOperandsFor(COMPILED_STUB_FRAME)` is 1, but `BeginCompiledStubFrame` (lines 1791-1793) writes no operand | `BeginCompiledStubFrame` then `StoreRegister(3)` writes integers [6, 7, 3]; the table reads 7 as the stub frame's operand and leaves 3 as a bad opcode | the table agrees with the writer: 0 operands | not executed; medium | Translation.CompiledStubFrameMisread | Translation.DecodeTranslationOfSerialize |
| src/v8/src/deoptimizer.cc:964-970 | the duplicate loop skips `NumberOfOperandsFor(opcode)` operands, which is 1 for COMPILED_STUB_FRAME although its writer writes none | MarkDuplicate, BeginCompiledStubFrame, StoreRegister(3) write [17, 6, 7, 3]; the loop consumes 7 as the stub frame's operand and dispatches on 3 (CONSTRUCT_STUB_FRAME) | a duplicated command is skipped by the number of operands its writer wrote | not executed; low (the code generator marks only value commands as duplicates) | DeoptTranslateProperties.DuplicatedStubFrameOverskips | DeoptTranslateProperties.DuplicateSkipsCommand |
| src/v8/src/deoptimizer.cc:1323-1338 | the OSR `UINT32_REGISTER` case has no `break` and runs on into `DOUBLE_REGISTER` | on a 64-bit target, `UINT32_REGISTER 2`, `REGISTER 3` (integers [9, 2, 7, 3]) with input Smi 5 also stores 5.0 in double register 7 and stops on the operand 3 | the case ends after setting the register | not executed; high | DeoptOsrProperties.Uint32FallThroughMisreads | DeoptOsrProperties.OsrCommandConsumesItsOperands |
| src/v8/src/deoptimizer.cc:667-668 | `GetDeoptimizationId` reads the chunk's start before testing the chunk for NULL | any address, when the eager chunk has not been allocated | the NULL test comes first and answers kNotDeoptimizationEntry | not executed; medium (the chunks are allocated when the deoptimizer data is created) | DeoptEntries.NullChunkFaults | DeoptEntries.EntryIdRoundTrip |
| src/v8/src/deoptimizer.cc:918-933 | the parameter area (lines 251-254) includes the receiver slot, and the index counts down from `parameters_count - 1` | a one-parameter frame with a heap number deferred at the receiver slot, address 1004 with the area at 1000-1008 on a 32-bit target: the number is set at parameter -1 | the receiver slot is not a parameter and is skipped | not executed; low (a receiver is rarely an unboxed double) | DeoptLists.ReceiverHeapNumberIndex | DeoptLists.PlaceParameter |

=== FILE: appcache_error_event.dfy ===
/** The application-cache error event (ApplicationCacheErrorEvent.cpp): the
    name of each error reason, and the two constructors that fill the
    event's reason, URL, status and message. */
module AppCacheErrorEvent {
  import opened Outcomes

  /** WebApplicationCacheHost::ErrorReason. */
  datatype ErrorReason =
    | ManifestError | SignatureError | ResourceError | ChangedError
    | AbortError | QuotaError | PolicyError | UnknownError

  /** errorReasonToString: each reason's fixed name. */
  function ErrorReasonToString(reason: ErrorReason): (s: string)
    ensures |s| > 0
    ensures ReasonNamed(s) == Some(reason)
  {
    match reason
    case ManifestError => "manifest"
    case SignatureError => "signature"
    case ResourceError => "resource"
    case ChangedError => "changed"
    case AbortError => "abort"
    case QuotaError => "quota"
    case PolicyError => "policy"
    case UnknownError => "unknown"
  }

  /** The reason a name stands for, if any: the inverse of the table. */
  function ReasonNamed(s: string): Option<ErrorReason> {
    if s == "manifest" then Some(ManifestError)
    else if s == "signature" then Some(SignatureError)
    else if s == "resource" then Some(ResourceError)
    else if s == "changed" then Some(ChangedError)
    else if s == "abort" then Some(AbortError)
    else if s == "quota" then Some(QuotaError)
    else if s == "policy" then Some(PolicyError)
    else if s == "unknown" then Some(UnknownError)
    else None
  }

  /** Distinct reasons have distinct names. */
  lemma ErrorReasonToStringInjective(a: ErrorReason, b: ErrorReason)
    ensures ErrorReasonToString(a) == ErrorReasonToString(b) <==> a == b
  {
    if ErrorReasonToString(a) == ErrorReasonToString(b) {
      assert ReasonNamed(ErrorReasonToString(a)) == Some(a);
    }
  }

  /** A name that stands for a reason is that reason's name. */
  lemma ReasonNamedRoundTrip(s: string)
    ensures ReasonNamed(s).Some? ==> ErrorReasonToString(ReasonNamed(s).value) == s
  {
  }

  /** The event's own fields, with the base Event's type and flags. */
  datatype ErrorEvent = ErrorEvent(eventType: string, bubbles: bool, cancelable: bool,
                                   reason: string, url: string, status: int, message: string)

  /** The dictionary the script-facing constructor reads; each member may
      be absent. */
  datatype ErrorEventInit = ErrorEventInit(bubbles: bool, cancelable: bool,
                                           reason: Option<string>, url: Option<string>,
                                           status: Option<int>, message: Option<string>)

  /** The constructor the application cache host calls: an "error" event
      that neither bubbles nor can be cancelled, with the reason's name and
      the other fields as given. */
  function FromReason(reason: ErrorReason, url: string, status: int, message: string): (e: ErrorEvent)
    ensures e.eventType == "error" && !e.bubbles && !e.cancelable
    ensures ReasonNamed(e.reason) == Some(reason)
    ensures e.url == url && e.status == status && e.message == message
  {
    ErrorEvent("error", false, false, ErrorReasonToString(reason), url, status, message)
  }

  function OrElse<T>(o: Option<T>, default: T): T {
    if o.Some? then o.value else default
  }

  /** The constructor from an initializer dictionary: status starts at 0
      and strings empty; each member present in the dictionary overwrites
      its field. */
  function FromInit(eventType: string, init: ErrorEventInit): (e: ErrorEvent)
    ensures e.eventType == eventType && e.bubbles == init.bubbles && e.cancelable == init.cancelable
    ensures init.status.None? ==> e.status == 0
    ensures init.status.Some? ==> e.status == init.status.value
    ensures init.reason.None? ==> e.reason == ""
    ensures init.reason.Some? ==> e.reason == init.reason.value
    ensures init.url.None? ==> e.url == ""
    ensures init.url.Some? ==> e.url == init.url.value
    ensures init.message.None? ==> e.message == ""
    ensures init.message.Some? ==> e.message == init.message.value
  {
    ErrorEvent(eventType, init.bubbles, init.cancelable, OrElse(init.reason, ""), OrElse(init.url, ""),
               OrElse(init.status, 0), OrElse(init.message, ""))
  }

  /** The dictionary that describes an event completely. */
  function InitOf(e: ErrorEvent): ErrorEventInit {
    ErrorEventInit(e.bubbles, e.cancelable, Some(e.reason), Some(e.url), Some(e.status), Some(e.message))
  }

  /** Re-creating an event from its full description gives it back, so the
      two constructors agree on every event the first one builds. */
  lemma FromInitOfEvent(e: ErrorEvent)
    ensures FromInit(e.eventType, InitOf(e)) == e
  {
  }

  /** An empty dictionary gives the default field values. */
  lemma FromEmptyInit(eventType: string, bubbles: bool, cancelable: bool)
    ensures FromInit(eventType, ErrorEventInit(bubbles, cancelable, None, None, None, None))
            == ErrorEvent(eventType, bubbles, cancelable, "", "", 0, "")
  {
  }
}

=== FILE: arch.dfy ===
/** Word sizes and small-integer (Smi) ranges of the two platform families
    the deoptimizer and the inline caches are built for, together with the
    explicit wrap-arounds of C++ integer conversions. */
module Arch {

  /** A 32-bit target (ia32, arm, mips) or a 64-bit target (x64). */
  datatype Arch = Arch32 | Arch64

  /** kPointerSize: bytes per tagged word. */
  function PointerSize(a: Arch): (p: nat)
    ensures p == 4 || p == 8
    ensures a.Arch32? <==> p == 4
  {
    if a.Arch32? then 4 else 8
  }

  /** kSmiValueSize: the number of payload bits of a small integer. */
  function SmiValueSize(a: Arch): (b: nat)
    ensures b == 31 || b == 32
    ensures a.Arch64? <==> b == 32
  {
    if a.Arch32? then 31 else 32
  }

  const Two31: int := 0x8000_0000
  const Two32: int := 0x1_0000_0000

  /** Smi::kMinValue and Smi::kMaxValue. */
  function SmiMinValue(a: Arch): (m: int)
    ensures m == -Two31 / 2 || m == -Two31
  {
    if a.Arch32? then -0x4000_0000 else -0x8000_0000
  }

  function SmiMaxValue(a: Arch): (m: int)
    ensures m == SmiMinValue(a) * -1 - 1
    ensures m == 0x3fff_ffff || m == 0x7fff_ffff
  {
    if a.Arch32? then 0x3fff_ffff else 0x7fff_ffff
  }

  /** Smi::IsValid: the value fits the small-integer payload. */
  predicate SmiIsValid(a: Arch, v: int) {
    SmiMinValue(a) <= v <= SmiMaxValue(a)
  }

  predicate IsInt32(v: int) {
    -Two31 <= v < Two31
  }

  predicate IsUint32(v: int) {
    0 <= v < Two32
  }

  /** static_cast<int32_t>: keeps the low 32 bits, read as two's complement. */
  function Int32Wrap(v: int): (r: int)
    ensures IsInt32(r)
    ensures (r - v) % Two32 == 0
    ensures IsInt32(v) ==> r == v
  {
    var m := v % Two32;
    if m < Two31 then m else m - Two32
  }

  /** static_cast<uint32_t>: keeps the low 32 bits. */
  function Uint32Wrap(v: int): (r: int)
    ensures IsUint32(r)
    ensures (r - v) % Two32 == 0
    ensures IsUint32(v) ==> r == v
  {
    v % Two32
  }

  /** 2 to the number of bits in an intptr_t. */
  function WordModulus(a: Arch): (m: nat)
    ensures m >= Two32
  {
    if a.Arch32? then Two32 else 0x1_0000_0000_0000_0000
  }

  /** static_cast<uintptr_t>: the word read as an unsigned number. */
  function UintptrWrap(a: Arch, v: int): (r: int)
    ensures 0 <= r < WordModulus(a)
    ensures 0 <= v < WordModulus(a) ==> r == v
  {
    v % WordModulus(a)
  }
}

=== FILE: deopt_entries.dfy ===
/** The deoptimization entry tables: one table of equally sized entries for
    eager and one for lazy bailouts, each in its own memory chunk. An entry's
    address is computed from its id and back (Deoptimizer::
    GetDeoptimizationEntry and GetDeoptimizationId), the chunk is sized by
    GetMaxDeoptTableSize, and EnsureCodeForDeoptimizationEntry grows the
    number of generated entries by doubling. The constants of deoptimizer.h
    and the platform's commit page size are parameters. */
module DeoptEntries {
  import opened Arch
  import opened Outcomes

  datatype BailoutType = EAGER | LAZY

  /** kMaxNumberOfEntries, kMinNumberOfEntries, table_entry_size_ and
      OS::CommitPageSize(). */
  datatype Config = Config(maxEntries: int, minEntries: int, entrySize: int, commitPageSize: int)

  /** kDeoptTableMaxEpilogueCodeSize: 2 KB. */
  const DeoptTableMaxEpilogueCodeSize: int := 2 * 1024

  /** `n` reaches `m` by doubling. */
  predicate DoublesTo(n: int, m: int)
    decreases m - n
  {
    n == m || (0 < n < m && DoublesTo(2 * n, m))
  }

  /** Positive sizes; the maximum is the minimum doubled some number of
      times; the whole table and its epilogue fit the `int` arithmetic of
      the source. */
  predicate ValidConfig(c: Config) {
    && c.entrySize > 0 && c.minEntries > 0 && c.commitPageSize > 0
    && DoublesTo(c.minEntries, c.maxEntries)
    && DeoptTableMaxEpilogueCodeSize + c.maxEntries * c.entrySize + c.commitPageSize < Two31
  }

  /** The two chunks (the area start of each, None for a NULL chunk) and the
      number of entries generated in each. */
  datatype Tables = Tables(eagerStart: Option<int>, lazyStart: Option<int>,
                           eagerEntries: int, lazyEntries: int)

  function TableStart(t: Tables, kind: BailoutType): Option<int> {
    if kind == EAGER then t.eagerStart else t.lazyStart
  }

  function EntryCount(t: Tables, kind: BailoutType): int {
    if kind == EAGER then t.eagerEntries else t.lazyEntries
  }

  /** Deoptimizer::kNotDeoptimizationEntry. */
  const NotDeoptimizationEntry: int := -1

  /** A NULL pointer dereference in the source. */
  datatype Fault = NullDereference

  /** An address or NULL. */
  datatype Address = Null | At(address: int)

  /** The entry count DeoptimizerData starts each table with: nothing has
      been generated yet. */
  const FreshEntryCount: int := -1

  /** The number of entries generated in a table is the fresh count -1
      (nothing generated yet) or a doubling of the minimum that does not
      exceed the maximum. */
  predicate WellFormedCount(c: Config, n: int) {
    n == FreshEntryCount || (c.minEntries <= n && DoublesTo(n, c.maxEntries))
  }

  /** The DeoptimizerData constructor's tables: both chunks as allocated
      and both counts fresh. */
  function NewDeoptimizerData(c: Config, eagerStart: int, lazyStart: int): (t: Tables)
    requires ValidConfig(c)
    ensures EntriesWellFormed(c, t)
    ensures TableStart(t, EAGER) == Some(eagerStart) && TableStart(t, LAZY) == Some(lazyStart)
    ensures EntryCount(t, EAGER) < 0 && EntryCount(t, LAZY) < 0
  {
    Tables(Some(eagerStart), Some(lazyStart), FreshEntryCount, FreshEntryCount)
  }

  predicate EntriesWellFormed(c: Config, t: Tables) {
    WellFormedCount(c, t.eagerEntries) && WellFormedCount(c, t.lazyEntries)
  }

  /** A doubling of the minimum that is not the maximum is below half of
      the maximum, so it can be doubled again. */
  lemma {:induction false} DoublesToBound(n: int, m: int)
    requires DoublesTo(n, m) && n != m
    ensures 0 < n && 2 * n <= m && DoublesTo(2 * n, m)
    decreases m - n
  {
    if 2 * n != m {
      DoublesToBound(2 * n, m);
    }
  }

  /** Deoptimizer::EnsureCodeForDeoptimizationEntry, without the code
      generation: when the table holds no entry `maxEntryId`, its entry
      count becomes the minimum (or its old count) doubled until it exceeds
      `maxEntryId`. */
  method EnsureCodeForDeoptimizationEntry(c: Config, t: Tables, kind: BailoutType, maxEntryId: int)
    returns (t2: Tables)
    requires ValidConfig(c) && EntriesWellFormed(c, t)
    requires maxEntryId < c.maxEntries
    ensures EntriesWellFormed(c, t2)
    ensures t2.eagerStart == t.eagerStart && t2.lazyStart == t.lazyStart
    ensures EntryCount(t2, if kind == EAGER then LAZY else EAGER) == EntryCount(t, if kind == EAGER then LAZY else EAGER)
    ensures maxEntryId < EntryCount(t2, kind) <= c.maxEntries
    ensures maxEntryId < EntryCount(t, kind) ==> t2 == t
    ensures maxEntryId >= EntryCount(t, kind) ==>
              EntryCount(t2, kind) == Max(EntryCount(t, kind), c.minEntries)
              || EntryCount(t2, kind) <= 2 * maxEntryId
    ensures EntryCount(t, kind) == FreshEntryCount && FreshEntryCount <= maxEntryId < c.minEntries ==> EntryCount(t2, kind) == c.minEntries
  {
    var entryCount := EntryCount(t, kind);
    if maxEntryId < entryCount {
      if entryCount != FreshEntryCount {
        DoublesBelowMax(entryCount, c.maxEntries);
      }
      return t;
    }
    entryCount := Max(entryCount, c.minEntries);
    var first := entryCount;
    while maxEntryId >= entryCount
      invariant c.minEntries <= entryCount && DoublesTo(entryCount, c.maxEntries)
      invariant entryCount == first || entryCount <= 2 * maxEntryId
      invariant maxEntryId < first ==> entryCount == first
      decreases c.maxEntries - entryCount
    {
      DoublesToBound(entryCount, c.maxEntries);
      entryCount := entryCount * 2;
    }
    DoublesBelowMax(entryCount, c.maxEntries);
    if kind == EAGER {
      t2 := t.(eagerEntries := entryCount);
    } else {
      t2 := t.(lazyEntries := entryCount);
    }
  }

  function Max(a: int, b: int): int {
    if a >= b then a else b
  }

  lemma {:induction false} DoublesBelowMax(n: int, m: int)
    requires DoublesTo(n, m)
    ensures n <= m
    decreases m - n
  {
    if n != m {
      DoublesBelowMax(2 * n, m);
    }
  }

  /** How Deoptimizer::GetDeoptimizationEntry is asked for an entry: with
      the entry's code generated first, or only its address computed. */
  datatype GetEntryMode = ENSURE_ENTRY_CODE | CALCULATE_ENTRY_ADDRESS

  /** The address of entry `id` in a table starting at `start`. */
  function EntryAddress(c: Config, start: int, id: int): int {
    start + id * c.entrySize
  }

  /** Deoptimizer::GetDeoptimizationEntry: NULL for an id past the maximum;
      otherwise (after generating code up to `id` when asked to) the entry's
      address in its table. The tables after the call are returned too. */
  method GetDeoptimizationEntry(c: Config, t: Tables, id: int, kind: BailoutType, mode: GetEntryMode)
    returns (t2: Tables, r: Result<Address, Fault>)
    requires ValidConfig(c) && EntriesWellFormed(c, t) && id >= 0
    ensures EntriesWellFormed(c, t2)
    ensures id >= c.maxEntries ==> t2 == t && r == Ok(Null)
    ensures id < c.maxEntries && TableStart(t, kind).None? ==> r == Err(NullDereference)
    ensures id < c.maxEntries && TableStart(t, kind).Some? ==>
              r == Ok(At(EntryAddress(c, TableStart(t, kind).value, id)))
    ensures mode == ENSURE_ENTRY_CODE && id < c.maxEntries ==> id < EntryCount(t2, kind)
    ensures mode == CALCULATE_ENTRY_ADDRESS ==> t2 == t
    ensures TableStart(t2, EAGER) == TableStart(t, EAGER) && TableStart(t2, LAZY) == TableStart(t, LAZY)
  {
    if id >= c.maxEntries {
      return t, Ok(Null);
    }
    t2 := t;
    if mode == ENSURE_ENTRY_CODE {
      t2 := EnsureCodeForDeoptimizationEntry(c, t, kind, id);
    }
    match TableStart(t2, kind)
    case None => r := Err(NullDereference);
    case Some(start) => r := Ok(At(EntryAddress(c, start, id)));
  }

  /** Deoptimizer::GetDeoptimizationId as written: the chunk's area start is
      read before the chunk is tested for NULL. */
  function GetDeoptimizationIdAsWritten(c: Config, t: Tables, addr: int, kind: BailoutType)
    : (r: Result<int, Fault>)
    requires ValidConfig(c)
    ensures TableStart(t, kind).None? ==> r == Err(NullDereference)
  {
    match TableStart(t, kind)
    case None => Err(NullDereference)
    case Some(start) => Ok(IdInTable(c, start, addr))
  }

  /** Deoptimizer::GetDeoptimizationId with the NULL test first, as the
      condition evidently intends. */
  function GetDeoptimizationId(c: Config, t: Tables, addr: int, kind: BailoutType): (r: int)
    requires ValidConfig(c)
    ensures TableStart(t, kind).None? ==> r == NotDeoptimizationEntry
  {
    match TableStart(t, kind)
    case None => NotDeoptimizationEntry
    case Some(start) => IdInTable(c, start, addr)
  }

  /** The id of the entry an address falls in, or kNotDeoptimizationEntry
      outside the table. */
  function IdInTable(c: Config, start: int, addr: int): (r: int)
    requires c.entrySize > 0
    ensures r == NotDeoptimizationEntry <==> addr < start || addr >= start + c.maxEntries * c.entrySize
    ensures r != NotDeoptimizationEntry ==>
              0 <= r && EntryAddress(c, start, r) <= addr < EntryAddress(c, start, r) + c.entrySize
  {
    if addr < start || addr >= start + c.maxEntries * c.entrySize then NotDeoptimizationEntry
    else
      var q := (addr - start) / c.entrySize;
      assert q * c.entrySize <= addr - start < q * c.entrySize + c.entrySize;
      q
  }

  /** Where the chunk is present, the written and corrected id lookups
      agree; where it is NULL, the written one dereferences it and the
      corrected one answers kNotDeoptimizationEntry. */
  lemma GetDeoptimizationIdAgrees(c: Config, t: Tables, addr: int, kind: BailoutType)
    requires ValidConfig(c)
    ensures TableStart(t, kind).Some? ==>
              GetDeoptimizationIdAsWritten(c, t, addr, kind) == Ok(GetDeoptimizationId(c, t, addr, kind))
    ensures TableStart(t, kind).None? ==>
              GetDeoptimizationIdAsWritten(c, t, addr, kind) == Err(NullDereference)
              && GetDeoptimizationId(c, t, addr, kind) == NotDeoptimizationEntry
  {
  }

  /** A missing eager chunk: the written lookup faults on every address. */
  lemma NullChunkFaults(c: Config, addr: int)
    requires ValidConfig(c)
    ensures GetDeoptimizationIdAsWritten(c, Tables(None, None, FreshEntryCount, FreshEntryCount), addr, EAGER) == Err(NullDereference)
    ensures GetDeoptimizationId(c, Tables(None, None, FreshEntryCount, FreshEntryCount), addr, EAGER) == NotDeoptimizationEntry
  {
  }

  /** The id of an entry's address is the entry's id. */
  lemma {:induction false} IdOfEntryAddress(c: Config, start: int, id: int)
    requires ValidConfig(c) && 0 <= id < c.maxEntries
    ensures IdInTable(c, start, EntryAddress(c, start, id)) == id
  {
    var e := c.entrySize;
    var addr := EntryAddress(c, start, id);
    MulStrict(id, c.maxEntries, e);
    var q := IdInTable(c, start, addr);
    assert q != NotDeoptimizationEntry;
    assert q * e <= id * e < q * e + e;
    DivUnique(q, id, e);
  }

  lemma MulStrict(a: int, b: int, e: int)
    requires 0 <= a < b && e > 0
    ensures a * e < b * e
  {
  }

  /** Two multiples of `e` less than `e` apart are equal. */
  lemma DivUnique(q: int, id: int, e: int)
    requires e > 0 && q * e <= id * e < q * e + e
    ensures q == id
  {
    if q < id {
      MulMono(q + 1, id, e);
    } else if id < q {
      MulMono(id + 1, q, e);
    }
  }

  /** Round trip: for every id below the maximum, the id of the entry
      GetDeoptimizationEntry gives is that id, in both modes and with the
      lookup as written. */
  method EntryIdRoundTrip(c: Config, t: Tables, id: int, kind: BailoutType, mode: GetEntryMode)
    returns (t2: Tables, address: int)
    requires ValidConfig(c) && EntriesWellFormed(c, t) && 0 <= id < c.maxEntries
    requires TableStart(t, kind).Some?
    ensures GetDeoptimizationId(c, t2, address, kind) == id
    ensures GetDeoptimizationIdAsWritten(c, t2, address, kind) == Ok(id)
  {
    var r;
    t2, r := GetDeoptimizationEntry(c, t, id, kind, mode);
    address := r.value.address;
    IdOfEntryAddress(c, TableStart(t, kind).value, id);
  }

  /** Deoptimizer::GetMaxDeoptTableSize: the entries and the epilogue,
      rounded up to whole commit pages. */
  function GetMaxDeoptTableSize(c: Config): (size: int)
    requires ValidConfig(c)
    ensures size % c.commitPageSize == 0
    ensures DeoptTableMaxEpilogueCodeSize + c.maxEntries * c.entrySize <= size
    ensures size < DeoptTableMaxEpilogueCodeSize + c.maxEntries * c.entrySize + c.commitPageSize
  {
    var entriesSize := c.maxEntries * c.entrySize;
    DoublesBelowMax(c.minEntries, c.maxEntries);
    var pageCount := (DeoptTableMaxEpilogueCodeSize + entriesSize - 1) / c.commitPageSize + 1;
    PageRounding(DeoptTableMaxEpilogueCodeSize + entriesSize, c.commitPageSize);
    c.commitPageSize * pageCount
  }

  /** Rounding a positive size up to whole pages with (n - 1) / p + 1. */
  lemma PageRounding(n: int, p: int)
    requires n >= 1 && p > 0
    ensures var size := p * ((n - 1) / p + 1);
            size % p == 0 && n <= size < n + p
  {
    var q := (n - 1) / p;
    assert q * p <= n - 1 < q * p + p;
    assert p * (q + 1) == q * p + p;
    MultipleMod(p, q + 1);
  }

  lemma MultipleMod(p: int, k: int)
    requires p > 0
    ensures (p * k) % p == 0
  {
    var m := p * k;
    assert m == k * p + 0;
    ModUnique(m, p, k, 0);
  }

  /** The remainder of `k * p + r` is `r` when `0 <= r < p`. */
  lemma ModUnique(m: int, p: int, k: int, r: int)
    requires p > 0 && 0 <= r < p && m == k * p + r
    ensures m % p == r
  {
    var q := m / p;
    assert m == q * p + m % p;
    if q < k {
      MulMono(q + 1, k, p);
    } else if k < q {
      MulMono(k + 1, q, p);
    }
  }

  /** Every entry lies inside the chunk GetMaxDeoptTableSize reserves. */
  lemma EntriesFitTable(c: Config, start: int, id: int)
    requires ValidConfig(c) && 0 <= id < c.maxEntries
    ensures start <= EntryAddress(c, start, id)
    ensures EntryAddress(c, start, id) + c.entrySize <= start + GetMaxDeoptTableSize(c)
  {
    MulStrict(id, c.maxEntries, c.entrySize);
    assert (id + 1) * c.entrySize <= c.maxEntries * c.entrySize by {
      MulMono(id + 1, c.maxEntries, c.entrySize);
    }
  }

  lemma MulMono(a: int, b: int, e: int)
    requires a <= b && e > 0
    ensures a * e <= b * e
  {
    assert b * e - a * e == (b - a) * e;
  }
}

=== FILE: deopt_lists.dfy ===
/** List logic of the deoptimizer: finding the output frame of a JavaScript
    frame (Deoptimizer::ConvertJSFrameIndexToFrameIndex), splitting a
    context's optimized-function list by a filter
    (PartitionOptimizedFunctions), and placing deferred heap numbers into
    the parameters and expressions of a frame shown to the debugger
    (MaterializeHeapNumbersForDebuggerInspectableFrame). */
module DeoptLists {
  import opened Arch
  import opened Outcomes
  import opened Frames
  import opened DeoptTranslate

  // ---------------------------------------------------------------------
  // ConvertJSFrameIndexToFrameIndex

  /** The number of JavaScript frames in `frames`. */
  function JSFrameCount(frames: seq<FrameType>): (n: nat)
    ensures n <= |frames|
  {
    if |frames| == 0 then 0
    else JSFrameCount(frames[..|frames| - 1]) + (if frames[|frames| - 1] == JAVA_SCRIPT then 1 else 0)
  }

  /** Reference definition: the position of the JavaScript frame with `k`
      JavaScript frames before it. */
  function JSFramePosition(frames: seq<FrameType>, k: nat): (p: nat)
    requires k < JSFrameCount(frames)
    ensures p < |frames| && frames[p] == JAVA_SCRIPT && JSFrameCount(frames[..p]) == k
  {
    var last := |frames| - 1;
    assert frames[..last][..last] == frames[..last];
    if JSFrameCount(frames[..last]) > k then
      var p := JSFramePosition(frames[..last], k);
      assert frames[..last][..p] == frames[..p];
      p
    else last
  }

  /** Counting the JavaScript frames of a longer prefix never gives less. */
  lemma {:induction false} JSFrameCountMonotone(frames: seq<FrameType>, a: nat, b: nat)
    requires a <= b <= |frames|
    ensures JSFrameCount(frames[..a]) <= JSFrameCount(frames[..b])
    decreases b - a
  {
    if a < b {
      JSFrameCountMonotone(frames, a, b - 1);
      assert frames[..b][..b - 1] == frames[..b - 1];
    }
  }

  /** Only one position has a given number of JavaScript frames before a
      JavaScript frame. */
  lemma JSFramePositionUnique(frames: seq<FrameType>, p: nat, q: nat, k: nat)
    requires p < |frames| && frames[p] == JAVA_SCRIPT && JSFrameCount(frames[..p]) == k
    requires q < |frames| && frames[q] == JAVA_SCRIPT && JSFrameCount(frames[..q]) == k
    ensures p == q
  {
    if p < q {
      assert frames[..p + 1][..p] == frames[..p];
      JSFrameCountMonotone(frames, p + 1, q);
    } else if q < p {
      assert frames[..q + 1][..q] == frames[..q];
      JSFrameCountMonotone(frames, q + 1, p);
    }
  }

  /** Deoptimizer::ConvertJSFrameIndexToFrameIndex: index 0 answers 0 at
      once; otherwise the output frames are walked, counting JavaScript
      frames down past `jsframeIndex`. The caller asks only for a
      JavaScript frame the output holds. */
  method ConvertJSFrameIndexToFrameIndex(output: seq<FrameType>, jsframeIndex: nat) returns (r: nat)
    requires jsframeIndex == 0 || jsframeIndex < JSFrameCount(output)
    ensures jsframeIndex == 0 ==> r == 0
    ensures jsframeIndex > 0 ==> r == JSFramePosition(output, jsframeIndex)
  {
    if jsframeIndex == 0 {
      return 0;
    }
    var frameIndex := 0;
    var remaining: int := jsframeIndex;
    while remaining >= 0
      invariant 0 <= frameIndex <= |output|
      invariant remaining == jsframeIndex - JSFrameCount(output[..frameIndex])
      invariant remaining >= -1
      invariant remaining == -1 ==> 0 < frameIndex && output[frameIndex - 1] == JAVA_SCRIPT
      decreases |output| - frameIndex, remaining + 1
    {
      assert output[..|output|] == output;
      assert frameIndex < |output|;
      assert output[..frameIndex + 1][..frameIndex] == output[..frameIndex];
      if output[frameIndex] == JAVA_SCRIPT {
        remaining := remaining - 1;
      }
      frameIndex := frameIndex + 1;
    }
    r := frameIndex - 1;
    assert output[..r + 1][..r] == output[..r];
    JSFramePositionUnique(output, r, JSFramePosition(output, jsframeIndex), jsframeIndex);
  }

  /** The shortcut for index 0 names the first JavaScript frame exactly when
      the output starts with one. */
  lemma FirstJSFrameShortcut(output: seq<FrameType>)
    requires 0 < JSFrameCount(output)
    ensures JSFramePosition(output, 0) == 0 <==> output[0] == JAVA_SCRIPT
  {
    if output[0] == JAVA_SCRIPT {
      assert output[..0] == [];
      JSFramePositionUnique(output, 0, JSFramePosition(output, 0), 0);
    }
  }

  /** An output that starts with an adaptor frame: the shortcut answers 0,
      which is not the position of its first JavaScript frame. */
  lemma FirstJSFrameAfterAdaptor()
    ensures JSFrameCount([ARGUMENTS_ADAPTOR, JAVA_SCRIPT]) == 1
    ensures JSFramePosition([ARGUMENTS_ADAPTOR, JAVA_SCRIPT], 0) == 1
  {
    var s := [ARGUMENTS_ADAPTOR, JAVA_SCRIPT];
    assert s[..1] == [ARGUMENTS_ADAPTOR] && s[..1][..0] == [];
    assert JSFrameCount(s[..1]) == 0;
    FirstJSFrameShortcut(s);
  }

  // ---------------------------------------------------------------------
  // PartitionOptimizedFunctions

  /** An optimized function and the code object it runs. */
  datatype JSFunction = JSFunction(id: int, code: int)

  /** The context's remaining optimized-function list, the code objects in
      the order first met, and each code object's deoptimizing-functions
      list (a linked list: the most recently linked function first). */
  datatype Partition = Partition(remainder: seq<JSFunction>, partitions: seq<int>,
                                 deoptimizing: map<int, seq<JSFunction>>)

  /** The functions the filter does not take, in their list order. */
  function Rejected(take: JSFunction -> bool, fs: seq<JSFunction>): seq<JSFunction> {
    if |fs| == 0 then []
    else Rejected(take, fs[..|fs| - 1]) + (if take(fs[|fs| - 1]) then [] else [fs[|fs| - 1]])
  }

  /** The functions the filter takes that run `code`, in their list order. */
  function TakenWith(take: JSFunction -> bool, fs: seq<JSFunction>, code: int): seq<JSFunction> {
    if |fs| == 0 then []
    else
      var f := fs[|fs| - 1];
      TakenWith(take, fs[..|fs| - 1], code) + (if take(f) && f.code == code then [f] else [])
  }

  function Reverse<T>(s: seq<T>): (r: seq<T>)
    ensures |r| == |s|
  {
    if |s| == 0 then [] else [s[|s| - 1]] + Reverse(s[..|s| - 1])
  }

  predicate NoDuplicates<T(==)>(s: seq<T>) {
    forall i, j :: 0 <= i < j < |s| ==> s[i] != s[j]
  }

  /** The partition after the first `i` functions of the list. */
  ghost predicate PartitionOfPrefix(take: JSFunction -> bool, fs: seq<JSFunction>, p: Partition) {
    && p.remainder == Rejected(take, fs)
    && NoDuplicates(p.partitions)
    && (forall c :: c in p.partitions <==> c in p.deoptimizing)
    && (forall c :: c in p.deoptimizing <==> TakenWith(take, fs, c) != [])
    && (forall c :: c in p.deoptimizing ==> p.deoptimizing[c] == Reverse(TakenWith(take, fs, c)))
  }

  /** One more function of the list. */
  function PartitionStep(take: JSFunction -> bool, p: Partition, f: JSFunction): Partition {
    if take(f) then
      if f.code !in p.deoptimizing then
        Partition(p.remainder, p.partitions + [f.code], p.deoptimizing[f.code := [f]])
      else
        Partition(p.remainder, p.partitions, p.deoptimizing[f.code := [f] + p.deoptimizing[f.code]])
    else Partition(p.remainder + [f], p.partitions, p.deoptimizing)
  }

  lemma PartitionStepKeeps(take: JSFunction -> bool, fs: seq<JSFunction>, p: Partition, f: JSFunction)
    requires PartitionOfPrefix(take, fs, p)
    ensures PartitionOfPrefix(take, fs + [f], PartitionStep(take, p, f))
  {
    var fs2 := fs + [f];
    assert fs2[..|fs2| - 1] == fs;
    var p2 := PartitionStep(take, p, f);
    forall c
      ensures c in p2.deoptimizing <==> TakenWith(take, fs2, c) != []
      ensures c in p2.deoptimizing ==> p2.deoptimizing[c] == Reverse(TakenWith(take, fs2, c))
    {
      var t := TakenWith(take, fs2, c);
      var t0 := TakenWith(take, fs, c);
      if take(f) && f.code == c {
        assert t == t0 + [f] && t[..|t| - 1] == t0;
        assert Reverse(t) == [f] + Reverse(t0);
        if c !in p.deoptimizing {
          assert t0 == [];
        }
      } else {
        assert t == t0;
      }
    }
  }

  /** PartitionOptimizedFunctions: walks the context's list once; a taken
      function is linked to the front of its code's list (and the code is
      recorded the first time), a rejected one stays in the context list. */
  function PartitionOptimizedFunctions(take: JSFunction -> bool, fs: seq<JSFunction>): (p: Partition)
    ensures p.remainder == Rejected(take, fs)
    ensures NoDuplicates(p.partitions)
    ensures forall c :: c in p.partitions <==> TakenWith(take, fs, c) != []
    ensures forall c :: c in p.deoptimizing <==> c in p.partitions
    ensures forall c :: c in p.deoptimizing ==> p.deoptimizing[c] == Reverse(TakenWith(take, fs, c))
  {
    if |fs| == 0 then Partition([], [], map[])
    else
      var init, f := fs[..|fs| - 1], fs[|fs| - 1];
      var p := PartitionOptimizedFunctions(take, init);
      PartitionStepKeeps(take, init, p, f);
      assert init + [f] == fs;
      PartitionStep(take, p, f)
  }

  /** Every function of the list is either left in the context list or in
      the list of its own code, and never both. */
  lemma {:induction false} TakenOrRejected(take: JSFunction -> bool, fs: seq<JSFunction>, f: JSFunction)
    ensures f in Rejected(take, fs) <==> f in fs && !take(f)
    ensures f in TakenWith(take, fs, f.code) <==> f in fs && take(f)
  {
    if |fs| > 0 {
      var init := fs[..|fs| - 1];
      TakenOrRejected(take, init, f);
      assert fs == init + [fs[|fs| - 1]];
    }
  }

  lemma {:induction false} ReverseContents<T>(s: seq<T>, x: T)
    ensures x in Reverse(s) <==> x in s
  {
    if |s| > 0 {
      ReverseContents(s[..|s| - 1], x);
      assert s == s[..|s| - 1] + [s[|s| - 1]];
    }
  }

  /** A taken function is on its code's deoptimizing list, and the code is
      among the partitions. */
  lemma PartitionPlacesTaken(take: JSFunction -> bool, fs: seq<JSFunction>, f: JSFunction)
    requires f in fs && take(f)
    ensures var p := PartitionOptimizedFunctions(take, fs);
            f.code in p.partitions && f.code in p.deoptimizing && f in p.deoptimizing[f.code] && f !in p.remainder
  {
    TakenOrRejected(take, fs, f);
    ReverseContents(TakenWith(take, fs, f.code), f);
  }

  // ---------------------------------------------------------------------
  // MaterializeHeapNumbersForDebuggerInspectableFrame

  /** Where the debugger's frame lives: the parameter area (parameters and,
      in the source, the receiver) and the expression area. */
  datatype InspectedFrame = InspectedFrame(parametersTop: int, parametersSize: int, parametersCount: int,
                                           expressionsTop: int, expressionCount: int)

  /** One heap number stored into the debugger's frame. */
  datatype Materialized = SetParameter(index: int, value: real) | SetExpression(index: int, value: real)

  /** Deoptimizer::DebuggerInspectableFrame's regions: the parameter area
      ends where the parameters frame ends and holds the parameters and the
      receiver; the expressions start at the top of the function's frame. */
  function InspectedFrameOf(a: Arch, parametersFrame: FrameDescription, expressionsFrame: FrameDescription,
                            parametersCount: nat, expressionCount: nat): (f: InspectedFrame)
    ensures f.parametersTop + f.parametersSize == parametersFrame.top + parametersFrame.frameSize
    ensures f.parametersSize == (f.parametersCount + 1) * PointerSize(a)
    ensures f.expressionsTop == expressionsFrame.top && f.expressionCount == expressionCount
  {
    var size := (parametersCount + 1) * PointerSize(a);
    InspectedFrame(parametersFrame.top + (parametersFrame.frameSize - size), size, parametersCount,
                   expressionsFrame.top, expressionCount)
  }

  /** The index a slot address gets counting down from the area's last
      slot. */
  function IndexFromTop(a: Arch, count: int, top: int, slot: int): int
    requires top <= slot
  {
    (count - 1) - (slot - top) / PointerSize(a)
  }

  /** Where the source puts one deferred heap number: into a parameter when
      its slot lies in the parameter area, else into an expression when it
      lies in the expression area, else nowhere. */
  function PlaceAsWritten(a: Arch, f: InspectedFrame, d: HeapNumberRecord): (m: Option<Materialized>)
    ensures m.Some? && m.value.SetParameter? ==>
              f.parametersTop <= d.slotAddress < f.parametersTop + f.parametersSize
  {
    var slot := d.slotAddress;
    if f.parametersTop <= slot < f.parametersTop + f.parametersSize then
      Some(SetParameter(IndexFromTop(a, f.parametersCount, f.parametersTop, slot), d.value))
    else if f.expressionsTop <= slot < f.expressionsTop + f.expressionCount * PointerSize(a) then
      Some(SetExpression(IndexFromTop(a, f.expressionCount, f.expressionsTop, slot), d.value))
    else None
  }

  /** The parameter area without the receiver slot, as the indexing of the
      parameters evidently intends. */
  function Place(a: Arch, f: InspectedFrame, d: HeapNumberRecord): (m: Option<Materialized>)
    ensures m.Some? ==> InBounds(f, m.value)
  {
    var slot := d.slotAddress;
    var ptr := PointerSize(a);
    if f.parametersTop <= slot < f.parametersTop + f.parametersCount * ptr then
      DivBelow(slot - f.parametersTop, ptr, f.parametersCount);
      Some(SetParameter(IndexFromTop(a, f.parametersCount, f.parametersTop, slot), d.value))
    else if f.expressionsTop <= slot < f.expressionsTop + f.expressionCount * ptr then
      DivBelow(slot - f.expressionsTop, ptr, f.expressionCount);
      Some(SetExpression(IndexFromTop(a, f.expressionCount, f.expressionsTop, slot), d.value))
    else None
  }

  lemma DivBelow(x: int, p: int, n: int)
    requires 0 <= x < n * p && p > 0
    ensures 0 <= x / p < n
  {
  }

  /** A write that stays within the parameters or expressions of the frame. */
  predicate InBounds(f: InspectedFrame, m: Materialized) {
    match m
    case SetParameter(i, _) => 0 <= i < f.parametersCount
    case SetExpression(i, _) => 0 <= i < f.expressionCount
  }

  /** The source's materialization loop: each deferred number placed as
      PlaceAsWritten says, in order, those placed nowhere dropped. */
  function MaterializeAsWritten(a: Arch, f: InspectedFrame, ds: seq<HeapNumberRecord>): (ms: seq<Materialized>)
    ensures |ms| <= |ds|
    ensures forall m :: m in ms ==> exists d :: d in ds && PlaceAsWritten(a, f, d) == Some(m)
    ensures forall d :: d in ds && PlaceAsWritten(a, f, d).Some? ==> PlaceAsWritten(a, f, d).value in ms
  {
    if |ds| == 0 then []
    else
      var rest := MaterializeAsWritten(a, f, ds[1..]);
      match PlaceAsWritten(a, f, ds[0])
      case None => rest
      case Some(m) => [m] + rest
  }

  function Materialize(a: Arch, f: InspectedFrame, ds: seq<HeapNumberRecord>): (ms: seq<Materialized>)
    ensures forall k :: 0 <= k < |ms| ==> InBounds(f, ms[k])
  {
    if |ds| == 0 then []
    else
      var rest := Materialize(a, f, ds[1..]);
      match Place(a, f, ds[0])
      case None => rest
      case Some(m) => [m] + rest
  }

  /** The address of parameter `i` counted from the parameter area's top. */
  function ParameterSlot(a: Arch, f: InspectedFrame, i: int): int {
    f.parametersTop + (f.parametersCount - 1 - i) * PointerSize(a)
  }

  function ExpressionSlot(a: Arch, f: InspectedFrame, i: int): int {
    f.expressionsTop + (f.expressionCount - 1 - i) * PointerSize(a)
  }

  /** A heap number deferred for parameter `i`'s slot is materialized into
      parameter `i`. */
  lemma PlaceParameter(a: Arch, f: InspectedFrame, i: int, v: real)
    requires 0 <= i < f.parametersCount
    ensures Place(a, f, HeapNumberRecord(ParameterSlot(a, f, i), v)) == Some(SetParameter(i, v))
  {
    SlotIndexRoundTrip(PointerSize(a), f.parametersCount, i);
  }

  /** A heap number deferred for expression `i`'s slot, outside the
      parameter area, is materialized into expression `i`. */
  lemma PlaceExpression(a: Arch, f: InspectedFrame, i: int, v: real)
    requires 0 <= i < f.expressionCount
    requires !(f.parametersTop <= ExpressionSlot(a, f, i) < f.parametersTop + f.parametersCount * PointerSize(a))
    ensures Place(a, f, HeapNumberRecord(ExpressionSlot(a, f, i), v)) == Some(SetExpression(i, v))
  {
    SlotIndexRoundTrip(PointerSize(a), f.expressionCount, i);
  }

  lemma SlotIndexRoundTrip(p: int, n: int, i: int)
    requires p > 0 && 0 <= i < n
    ensures 0 <= (n - 1 - i) * p < n * p
    ensures ((n - 1 - i) * p) / p == n - 1 - i
  {
    var k := n - 1 - i;
    assert k * p + p == n * p - i * p;
    assert 0 <= i * p;
    DivExact(k, p);
  }

  lemma DivExact(k: int, p: int)
    requires p > 0 && k >= 0
    ensures (k * p) / p == k
  {
    var q := (k * p) / p;
    var r := (k * p) % p;
    assert k * p == q * p + r;
    if q < k {
      MulStep(q + 1, k, p);
    } else if k < q {
      MulStep(k + 1, q, p);
    }
  }

  lemma MulStep(a: int, b: int, p: int)
    requires a <= b && p > 0
    ensures a * p <= b * p
  {
    assert b * p - a * p == (b - a) * p;
  }

  /** The written and the corrected placements differ only on the
      receiver's slot, the last of the written parameter area. */
  lemma PlaceAgreesOffReceiver(a: Arch, f: InspectedFrame, d: HeapNumberRecord)
    requires f.parametersSize == (f.parametersCount + 1) * PointerSize(a)
    requires !(f.parametersTop + f.parametersCount * PointerSize(a) <= d.slotAddress < f.parametersTop + f.parametersSize)
    ensures PlaceAsWritten(a, f, d) == Place(a, f, d)
  {
  }

  /** A frame with one parameter at 1000 (32-bit): the receiver's slot is
      1004, and a heap number deferred there is written to parameter -1. */
  function OneParameterFrame(): InspectedFrame {
    InspectedFrame(1000, 8, 1, 2000, 0)
  }

  lemma ReceiverHeapNumberIndex()
    ensures OneParameterFrame() == InspectedFrameOf(Arch32, FrameDescription(JAVA_SCRIPT, 0, 8, 1000, [], [], []),
                                                    FrameDescription(JAVA_SCRIPT, 0, 0, 2000, [], [], []), 1, 0)
    ensures MaterializeAsWritten(Arch32, OneParameterFrame(), [HeapNumberRecord(1004, 2.5)]) == [SetParameter(-1, 2.5)]
    ensures !InBounds(OneParameterFrame(), SetParameter(-1, 2.5))
    ensures Materialize(Arch32, OneParameterFrame(), [HeapNumberRecord(1004, 2.5)]) == []
  {
    var ds := [HeapNumberRecord(1004, 2.5)];
    assert ds[1..] == [];
    assert (1004 - 1000) / 4 == 1;
  }
}

=== FILE: deopt_osr.dfy ===
/** Deoptimizer::DoOsrTranslateCommand: on-stack replacement runs the
    translation backwards, moving one value of the unoptimized input frame
    (all tagged) into the register or stack slot that optimized code expects
    it in. Integer and double targets need the value converted first
    (ObjectToInt32, ObjectToUint32); a value that does not convert exactly
    aborts the replacement. */
module DeoptOsr {
  import opened Arch
  import opened Outcomes
  import opened Translation
  import opened Frames
  import opened DeoptTranslate

  /** Truncation toward zero, the in-range behaviour of a C++ cast from
      double to an integer type. */
  function Truncate(x: real): (t: int)
    ensures x >= 0.0 ==> t == x.Floor
    ensures x < 0.0 ==> t == -((-x).Floor)
  {
    if x >= 0.0 then x.Floor else -((-x).Floor)
  }

  /** The number has no fractional part. */
  predicate IsIntegral(x: real) {
    x.Floor as real == x
  }

  /** FastD2I: the value truncated to an int32; a value out of range gives
      the integer-indefinite value INT32_MIN. */
  function FastD2I(x: real): (r: int)
    ensures IsInt32(r)
  {
    var t := Truncate(x);
    if IsInt32(t) then t else -Two31
  }

  /** FastD2UI: the value truncated to a uint32; a value out of range gives
      the integer-indefinite value 0x80000000. */
  function FastD2UI(x: real): (r: int)
    ensures IsUint32(r)
  {
    var t := Truncate(x);
    if IsUint32(t) then t else Two31
  }

  /** Object::IsNumber: a small integer or a heap number. */
  predicate IsNumber(v: Value) {
    v.Smi? || v.HeapNumber?
  }

  /** Object::Number. */
  function NumberValue(v: Value): real
    requires IsNumber(v)
  {
    if v.Smi? then v.n as real else v.num
  }

  /** ObjectToInt32: a small integer as it is; a heap number only when
      converting it to int32 and back gives the same number. */
  function ObjectToInt32(v: Value): (r: Option<int>)
    ensures v.Smi? ==> r == Some(v.n)
    ensures !IsNumber(v) ==> r == None
    ensures v.HeapNumber? && r.Some? ==> IsInt32(r.value) && r.value as real == v.num
  {
    match v
    case Smi(n) => Some(n)
    case HeapNumber(x) =>
      var i := FastD2I(x);
      if i as real != x then None else Some(i)
    case _ => None
  }

  /** ObjectToUint32: a non-negative small integer as it is; a heap number
      only when it is not negative and converting it to uint32 and back
      gives the same number. */
  function ObjectToUint32(v: Value): (r: Option<int>)
    ensures v.Smi? ==> (r.Some? <==> v.n >= 0)
    ensures !IsNumber(v) ==> r == None
    ensures r.Some? ==> IsUint32(r.value)
    ensures v.HeapNumber? && r.Some? ==> r.value as real == v.num
  {
    match v
    case Smi(n) => if n < 0 then None else Some(Uint32Wrap(n))
    case HeapNumber(x) =>
      var u := FastD2UI(x);
      if x < 0.0 || u as real != x then None else Some(u)
    case _ => None
  }

  /** The truncation of an integral number is the number itself, and that
      of any other number differs from it. */
  lemma TruncateExact(x: real)
    ensures Truncate(x) as real == x <==> IsIntegral(x)
    ensures IsIntegral(x) ==> Truncate(x) == x.Floor
  {
    if x < 0.0 {
      var y := -x;
      if IsIntegral(x) {
        assert y.Floor as real == y by {
          assert (-(x.Floor)) as real == y;
        }
      }
    }
  }

  /** A heap number converts to an int32 exactly when it is an integer in
      the int32 range, and then to itself. */
  lemma HeapNumberToInt32(x: real)
    ensures ObjectToInt32(HeapNumber(x)).Some? <==> IsIntegral(x) && IsInt32(x.Floor)
    ensures ObjectToInt32(HeapNumber(x)).Some? ==> ObjectToInt32(HeapNumber(x)).value == x.Floor
  {
    TruncateExact(x);
  }

  /** A heap number converts to a uint32 exactly when it is an integer in
      the uint32 range, and then to itself. */
  lemma HeapNumberToUint32(x: real)
    ensures ObjectToUint32(HeapNumber(x)).Some? <==> IsIntegral(x) && IsUint32(x.Floor)
    ensures ObjectToUint32(HeapNumber(x)).Some? ==> ObjectToUint32(HeapNumber(x)).value == x.Floor
  {
    TruncateExact(x);
  }

  /** A valid non-negative small integer converts to a uint32 unchanged. */
  lemma SmiToUint32(a: Arch, n: int)
    requires SmiIsValid(a, n) && n >= 0
    ensures ObjectToUint32(Smi(n)) == Some(n)
  {
  }

  /** Why the replacement stops: the source returns false (a value that
      does not convert), or fails as DoTranslateCommand does. */
  datatype Stop = Aborted | Failed(error: Error)

  /** The frame keeps its type, size, top and the number of its slots and
      registers. */
  predicate SameShape(f: FrameDescription, g: FrameDescription) {
    && g.frameType == f.frameType && g.formalParameterCount == f.formalParameterCount
    && g.frameSize == f.frameSize && g.top == f.top
    && |g.slots| == |f.slots| && |g.registers| == |f.registers|
    && |g.doubleRegisters| == |f.doubleRegisters|
  }

  /** FrameDescription::SetRegister. */
  function SetRegister(f: FrameDescription, reg: int, c: Cell): (r: Result<FrameDescription, Stop>)
    ensures r.Ok? <==> 0 <= reg < |f.registers|
    ensures r.Ok? ==> SameShape(f, r.value) && r.value.registers[reg] == c
    ensures r.Ok? ==> r.value == f.(registers := r.value.registers)
    ensures r.Ok? ==> forall j :: 0 <= j < |f.registers| && j != reg ==> r.value.registers[j] == f.registers[j]
  {
    if 0 <= reg < |f.registers| then Ok(f.(registers := f.registers[reg := c])) else Err(Failed(Malformed))
  }

  /** FrameDescription::SetDoubleRegister. */
  function SetDoubleRegister(f: FrameDescription, reg: int, x: real): (r: Result<FrameDescription, Stop>)
    ensures r.Ok? <==> 0 <= reg < |f.doubleRegisters|
    ensures r.Ok? ==> SameShape(f, r.value) && r.value.doubleRegisters[reg] == x
    ensures r.Ok? ==> r.value == f.(doubleRegisters := r.value.doubleRegisters)
  {
    if 0 <= reg < |f.doubleRegisters| then Ok(f.(doubleRegisters := f.doubleRegisters[reg := x]))
    else Err(Failed(Malformed))
  }

  /** FrameDescription::SetFrameSlot at an offset that must name a word of
      the frame. */
  function SetSlot(a: Arch, f: FrameDescription, offset: int, c: Cell): (r: Result<FrameDescription, Stop>)
    ensures r.Ok? <==> FrameSlot(a, f, offset).Some?
    ensures r.Ok? ==> SameShape(f, r.value) && FrameSlot(a, r.value, offset) == Some(c)
    ensures r.Ok? ==> r.value.registers == f.registers && r.value.doubleRegisters == f.doubleRegisters
  {
    if FrameSlot(a, f, offset).Some? then Ok(SetFrameSlot(a, f, offset, c)) else Err(Failed(Malformed))
  }

  /** The output frame paired with the iterator after the operands. */
  function Continue(r: Result<FrameDescription, Stop>, it: Iterator): Result<(FrameDescription, Iterator), Stop> {
    match r
    case Err(s) => Err(s)
    case Ok(f) => Ok((f, it))
  }

  /** Reads the next operand. */
  function Operand(it: Iterator): (r: Result<(int, Iterator), Stop>)
    ensures r.Ok? <==> it.index < |it.words|
    ensures r.Ok? ==> r.value == (it.words[it.index], Iterator(it.words, it.index + 1))
  {
    match IteratorNext(it)
    case Err(e) => Err(Failed(e))
    case Ok(p) => Ok(p)
  }

  /** The output slot a slot index names. */
  function OutputOffset(a: Arch, output: FrameDescription, index: int): Result<int, Stop> {
    match GetOffsetFromSlotIndex(a, output, index)
    case None => Err(Failed(Unreachable))
    case Some(off) => Ok(off)
  }

  /** The input word as a tagged object; a cell that holds no tagged value
      (or an input offset outside the frame) is malformed input. */
  function InputObject(input: Option<Cell>): Result<Value, Stop> {
    match input
    case Some(Tagged(v)) => Ok(v)
    case _ => Err(Failed(Malformed))
  }

  /** The DOUBLE_REGISTER case: a number goes to the double register named
      by the next operand; anything else aborts. */
  function StoreDoubleRegister(input: Option<Cell>, output: FrameDescription, it: Iterator)
    : (r: Result<(FrameDescription, Iterator), Stop>)
    ensures r.Ok? ==> SameShape(output, r.value.0) && r.value.1 == Iterator(it.words, it.index + 1)
  {
    match InputObject(input)
    case Err(s) => Err(s)
    case Ok(v) =>
      if !IsNumber(v) then Err(Aborted)
      else
        match Operand(it)
        case Err(s) => Err(s)
        case Ok((reg, it1)) => Continue(SetDoubleRegister(output, reg, NumberValue(v)), it1)
  }

  /** The switch of DoOsrTranslateCommand. With `uint32FallsThrough` the
      UINT32_REGISTER case runs on into DOUBLE_REGISTER, as the code is
      written (it has no break); without it the case ends as its neighbours
      do. A number that names no opcode matches no case. */
  function OsrStore(a: Arch, input: Option<Cell>, output: FrameDescription, op: Option<Opcode>,
                    it: Iterator, uint32FallsThrough: bool)
    : (r: Result<(FrameDescription, Iterator), Stop>)
    requires it.index <= |it.words|
    ensures r.Ok? ==> SameShape(output, r.value.0)
    ensures r.Ok? ==> r.value.1.words == it.words && it.index <= r.value.1.index <= |it.words|
  {
    if op.None? then Ok((output, it))
    else
      match op.value
      case REGISTER =>
        (match input
         case None => Err(Failed(Malformed))
         case Some(c) =>
           match Operand(it)
           case Err(s) => Err(s)
           case Ok((reg, it1)) => Continue(SetRegister(output, reg, c), it1))
      case INT32_REGISTER =>
        (match InputObject(input)
         case Err(s) => Err(s)
         case Ok(v) =>
           match ObjectToInt32(v)
           case None => Err(Aborted)
           case Some(n) =>
             match Operand(it)
             case Err(s) => Err(s)
             case Ok((reg, it1)) => Continue(SetRegister(output, reg, Raw(n)), it1))
      case UINT32_REGISTER =>
        (match InputObject(input)
         case Err(s) => Err(s)
         case Ok(v) =>
           match ObjectToUint32(v)
           case None => Err(Aborted)
           case Some(u) =>
             match Operand(it)
             case Err(s) => Err(s)
             case Ok((reg, it1)) =>
               match SetRegister(output, reg, Raw(Int32Wrap(u)))
               case Err(s) => Err(s)
               case Ok(out1) =>
                 if uint32FallsThrough then StoreDoubleRegister(input, out1, it1) else Ok((out1, it1)))
      case DOUBLE_REGISTER => StoreDoubleRegister(input, output, it)
      case STACK_SLOT =>
        (match input
         case None => Err(Failed(Malformed))
         case Some(c) =>
           match Operand(it)
           case Err(s) => Err(s)
           case Ok((index, it1)) =>
             match OutputOffset(a, output, index)
             case Err(s) => Err(s)
             case Ok(off) => Continue(SetSlot(a, output, off, c), it1))
      case INT32_STACK_SLOT =>
        (match InputObject(input)
         case Err(s) => Err(s)
         case Ok(v) =>
           match ObjectToInt32(v)
           case None => Err(Aborted)
           case Some(n) =>
             match Operand(it)
             case Err(s) => Err(s)
             case Ok((index, it1)) =>
               match OutputOffset(a, output, index)
               case Err(s) => Err(s)
               case Ok(off) => Continue(SetSlot(a, output, off, Raw(n)), it1))
      case UINT32_STACK_SLOT =>
        (match InputObject(input)
         case Err(s) => Err(s)
         case Ok(v) =>
           match ObjectToUint32(v)
           case None => Err(Aborted)
           case Some(u) =>
             match Operand(it)
             case Err(s) => Err(s)
             case Ok((index, it1)) =>
               match OutputOffset(a, output, index)
               case Err(s) => Err(s)
               case Ok(off) => Continue(SetSlot(a, output, off, Raw(Int32Wrap(u))), it1))
      case DOUBLE_STACK_SLOT =>
        (match InputObject(input)
         case Err(s) => Err(s)
         case Ok(v) =>
           if !IsNumber(v) then Err(Aborted)
           else
             match Operand(it)
             case Err(s) => Err(s)
             case Ok((index, it1)) =>
               match OutputOffset(a, output, index)
               case Err(s) => Err(s)
               case Ok(off) =>
                 match SetSlot(a, output, off, LowerHalf(NumberValue(v)))
                 case Err(s) => Err(s)
                 case Ok(out1) => Continue(SetSlot(a, out1, off + PointerSize(a), UpperHalf(NumberValue(v))), it1))
      case LITERAL =>
        (match Operand(it)
         case Err(s) => Err(s)
         case Ok((_, it1)) => Ok((output, it1)))
      case _ => Err(Failed(Unreachable))
  }

  /** Deoptimizer::DoOsrTranslateCommand on output frame 0: reads the input
      word at `inputOffset`, then one command, preceded by at most one
      DUPLICATE marker; the duplicated command runs but the input offset
      moves down one word only when there was no marker. */
  function DoOsrTranslateCommand(a: Arch, input: FrameDescription, output: FrameDescription,
                                 it: Iterator, inputOffset: int, uint32FallsThrough: bool)
    : (r: Result<(FrameDescription, Iterator, int), Stop>)
    ensures r.Ok? ==> SameShape(output, r.value.0)
    ensures r.Ok? ==> r.value.1.words == it.words && it.index < r.value.1.index <= |it.words|
    ensures r.Ok? ==> r.value.2 == inputOffset || r.value.2 == inputOffset - PointerSize(a)
  {
    var inputValue := FrameSlot(a, input, inputOffset);
    match Operand(it)
    case Err(s) => Err(s)
    case Ok((n, it1)) =>
      var duplicate := n == OpcodeValue(DUPLICATE);
      var second := if duplicate then Operand(it1) else Ok((n, it1));
      match second
      case Err(s) => Err(s)
      case Ok((m, it2)) =>
        match OsrStore(a, inputValue, output, OpcodeOfValue(m), it2, uint32FallsThrough)
        case Err(s) => Err(s)
        case Ok((out, it3)) =>
          Ok((out, it3, if duplicate then inputOffset else inputOffset - PointerSize(a)))
  }
}

module DeoptOsrProperties {
  import opened Arch
  import opened Outcomes
  import opened TranslationCodec
  import opened Translation
  import opened Frames
  import opened DeoptTranslate
  import opened DeoptOsr

  /** After a DUPLICATE marker the OSR interpreter carries out the command
      that follows exactly as without the marker, but leaves the input
      offset where it was. */
  lemma OsrDuplicateKeepsOffset(a: Arch, input: FrameDescription, output: FrameDescription,
                                ws: seq<int>, i: nat, inputOffset: int, uint32FallsThrough: bool)
    requires i + 1 < |ws| && ws[i] == OpcodeValue(DUPLICATE) && ws[i + 1] != OpcodeValue(DUPLICATE)
    ensures var single := DoOsrTranslateCommand(a, input, output, Iterator(ws, i + 1), inputOffset, uint32FallsThrough);
            var dup := DoOsrTranslateCommand(a, input, output, Iterator(ws, i), inputOffset, uint32FallsThrough);
            && (single.Err? ==> dup == single)
            && (single.Ok? ==>
                  && single.value.2 == inputOffset - PointerSize(a)
                  && dup == Ok((single.value.0, single.value.1, inputOffset)))
  {
  }

  /** How many integers the switch consumes after the opcode: the operand
      count of the translation table, plus one for the UINT32_REGISTER case
      that runs on into DOUBLE_REGISTER. */
  lemma OsrStoreConsumes(a: Arch, input: Option<Cell>, output: FrameDescription, op: Opcode,
                         it: Iterator, uint32FallsThrough: bool)
    requires it.index <= |it.words|
    ensures var r := OsrStore(a, input, output, Some(op), it, uint32FallsThrough);
            r.Ok? ==> r.value.1.index
                      == it.index + OperandCount(op) + (if uint32FallsThrough && op == UINT32_REGISTER then 1 else 0)
  {
  }

  /** Corrected interpreter: a command written by a writer, when it
      succeeds, consumes exactly the integers that writer wrote and moves
      the input offset down one word. */
  lemma OsrCommandConsumesItsOperands(a: Arch, input: FrameDescription, output: FrameDescription,
                                      ws: seq<int>, i: nat, w: Writer, inputOffset: int)
    requires WrittenAt(ws, i, WriterWords(w)) && OpcodeOf(w) != DUPLICATE
    ensures var r := DoOsrTranslateCommand(a, input, output, Iterator(ws, i), inputOffset, false);
            r.Ok? ==> r.value.1 == Iterator(ws, i + |WriterWords(w)|) && r.value.2 == inputOffset - PointerSize(a)
  {
    OsrCommandStep(a, input, output, ws, i, w, inputOffset, false);
  }

  /** The interpreter as written: a successful UINT32_REGISTER command
      consumes one integer more than its writer wrote. */
  lemma OsrUint32RegisterOverreads(a: Arch, input: FrameDescription, output: FrameDescription,
                                   ws: seq<int>, i: nat, reg: int, inputOffset: int)
    requires WrittenAt(ws, i, WriterWords(StoreUint32Register(reg)))
    ensures var r := DoOsrTranslateCommand(a, input, output, Iterator(ws, i), inputOffset, true);
            r.Ok? ==> r.value.1 == Iterator(ws, i + |WriterWords(StoreUint32Register(reg))| + 1)
  {
    OsrCommandStep(a, input, output, ws, i, StoreUint32Register(reg), inputOffset, true);
  }

  /** One command read where its writer wrote it: the switch is entered
      with the writer's opcode just after it. */
  lemma OsrCommandStep(a: Arch, input: FrameDescription, output: FrameDescription,
                       ws: seq<int>, i: nat, w: Writer, inputOffset: int, uint32FallsThrough: bool)
    requires WrittenAt(ws, i, WriterWords(w)) && OpcodeOf(w) != DUPLICATE
    ensures var r := DoOsrTranslateCommand(a, input, output, Iterator(ws, i), inputOffset, uint32FallsThrough);
            r.Ok? ==>
              && r.value.1.index
                 == i + |WriterWords(w)| + (if uint32FallsThrough && OpcodeOf(w) == UINT32_REGISTER then 1 else 0)
              && r.value.1.words == ws
              && r.value.2 == inputOffset - PointerSize(a)
  {
    var op := OpcodeOf(w);
    var words := WriterWords(w);
    assert ws[i + 0] == words[0];
    OpcodeValueRoundTrip(op);
    OpcodeValueRoundTrip(DUPLICATE);
    assert ws[i] != OpcodeValue(DUPLICATE);
    WriterOperandCounts(w);
    OsrStoreConsumes(a, FrameSlot(a, input, inputOffset), output, op, Iterator(ws, i + 1), uint32FallsThrough);
  }

  /** INT32_REGISTER: an input value that converts to an int32 lands, as a
      raw integer, in the named register; nothing else of the output frame
      changes. */
  lemma OsrInt32Register(a: Arch, input: FrameDescription, output: FrameDescription,
                         ws: seq<int>, i: nat, reg: int, inputOffset: int, v: Value, n: int,
                         uint32FallsThrough: bool)
    requires WrittenAt(ws, i, WriterWords(StoreInt32Register(reg)))
    requires FrameSlot(a, input, inputOffset) == Some(Tagged(v)) && ObjectToInt32(v) == Some(n)
    requires 0 <= reg < |output.registers|
    ensures DoOsrTranslateCommand(a, input, output, Iterator(ws, i), inputOffset, uint32FallsThrough)
            == Ok((output.(registers := output.registers[reg := Raw(n)]), Iterator(ws, i + 2),
                   inputOffset - PointerSize(a)))
  {
    var words := WriterWords(StoreInt32Register(reg));
    assert ws[i] == words[0] && ws[i + 1] == words[1];
  }

  /** UINT32_REGISTER, corrected: an input value that converts to a uint32
      lands in the named register as the int32 with the same bits; the
      double registers are untouched. */
  lemma OsrUint32Register(a: Arch, input: FrameDescription, output: FrameDescription,
                          ws: seq<int>, i: nat, reg: int, inputOffset: int, v: Value, u: int)
    requires WrittenAt(ws, i, WriterWords(StoreUint32Register(reg)))
    requires FrameSlot(a, input, inputOffset) == Some(Tagged(v)) && ObjectToUint32(v) == Some(u)
    requires 0 <= reg < |output.registers|
    ensures DoOsrTranslateCommand(a, input, output, Iterator(ws, i), inputOffset, false)
            == Ok((output.(registers := output.registers[reg := Raw(Int32Wrap(u))]), Iterator(ws, i + 2),
                   inputOffset - PointerSize(a)))
  {
    var words := WriterWords(StoreUint32Register(reg));
    assert ws[i] == words[0] && ws[i + 1] == words[1];
  }

  /** An input frame whose word at offset 0 holds the small integer 5. */
  function SmiFiveFrame(): FrameDescription {
    FrameDescription(JAVA_SCRIPT, 0, 8, 0, [Tagged(Smi(5))], [], [])
  }

  /** An output frame with three registers and eight double registers, all
      zero. */
  function EmptyRegisterFrame(): FrameDescription {
    FrameDescription(JAVA_SCRIPT, 0, 8, 0, [Raw(0)], [Raw(0), Raw(0), Raw(0)],
                     [0.0, 0.0, 0.0, 0.0, 0.0, 0.0, 0.0, 0.0])
  }

  /** UINT32_REGISTER 2 followed by REGISTER 3, on a 64-bit target. The code
      as written stores 5 in register 2, then takes the next command's
      opcode (7) as a double register and stores 5.0 there, leaving the
      iterator on that command's operand; the corrected switch stops after
      register 2, on the next opcode. */
  lemma Uint32FallThroughMisreads()
    ensures var ws := WriterWords(StoreUint32Register(2)) + WriterWords(StoreRegister(3));
            var out := EmptyRegisterFrame();
            var stored := out.(registers := out.registers[2 := Raw(5)]);
            && ws == [9, 2, 7, 3]
            && DoOsrTranslateCommand(Arch64, SmiFiveFrame(), out, Iterator(ws, 0), 0, true)
               == Ok((stored.(doubleRegisters := out.doubleRegisters[7 := 5.0]), Iterator(ws, 3), -8))
            && DoOsrTranslateCommand(Arch64, SmiFiveFrame(), out, Iterator(ws, 0), 0, false)
               == Ok((stored, Iterator(ws, 2), -8))
  {
    var ws := WriterWords(StoreUint32Register(2)) + WriterWords(StoreRegister(3));
    assert ws == [9, 2, 7, 3];
    assert FrameSlot(Arch64, SmiFiveFrame(), 0) == Some(Tagged(Smi(5)));
    assert ObjectToUint32(Smi(5)) == Some(5);
  }
}

=== FILE: deopt_translate.dfy ===
/** Deoptimizer::DoTranslateCommand: one translation command moves one value
    from the optimized input frame (a register, a stack slot or a literal)
    into one slot of an unoptimized output frame. Integers that do not fit a
    small integer and all doubles are set aside as deferred heap-number
    records, with a placeholder in the slot; arguments objects are set aside
    as deferred records with their values. */
module DeoptTranslate {
  import opened Arch
  import opened Outcomes
  import opened TranslationCodec
  import opened Translation
  import opened Frames

  /** A double to be boxed later and stored at `slotAddress`. */
  datatype HeapNumberRecord = HeapNumberRecord(slotAddress: int, value: real)

  /** An arguments object of `length` values to be built later and stored at
      `slotAddress`. */
  datatype ArgumentsObjectRecord = ArgumentsObjectRecord(slotAddress: int, length: int)

  /** The part of the deoptimizer that translation commands read and write. */
  datatype Deoptimizer = Deoptimizer(
    arch: Arch,
    input: FrameDescription,
    output: seq<FrameDescription>,
    literals: seq<Value>,
    deferredHeapNumbers: seq<HeapNumberRecord>,
    deferredArgumentsObjects: seq<ArgumentsObjectRecord>,
    deferredArgumentValues: seq<Cell>)

  /** Unreachable: the source stops at UNREACHABLE (or at a CHECK).
      Malformed: the source would read outside the buffer, a register file,
      a frame or the literal array, or read a cell of the wrong kind. */
  datatype Error = Unreachable | Malformed

  /** A translation iterator over the integers of a translation buffer
      (their byte code is `TranslationCodec`'s business) and the position of
      the next one. */
  datatype Iterator = Iterator(words: seq<int>, index: nat)

  /** TranslationIterator::Next. */
  function IteratorNext(it: Iterator): (r: Result<(int, Iterator), Error>)
    ensures r.Ok? <==> it.index < |it.words|
    ensures r.Ok? ==> r.value == (it.words[it.index], Iterator(it.words, it.index + 1))
  {
    if it.index < |it.words| then Ok((it.words[it.index], Iterator(it.words, it.index + 1)))
    else Err(Malformed)
  }

  /** TranslationIterator::Skip: `n` calls of Next. */
  function IteratorSkip(it: Iterator, n: nat): (r: Result<Iterator, Error>)
    ensures r.Ok? <==> it.index + n <= |it.words|
    ensures r.Ok? ==> r.value == Iterator(it.words, it.index + n)
  {
    if it.index + n <= |it.words| then Ok(Iterator(it.words, it.index + n)) else Err(Malformed)
  }

  /** The loop at the head of DoTranslateCommand, with the operand table
      `count` it skips a duplicated command's operands by: a DUPLICATE
      marker consumes the command after it, operands included; the first
      opcode that is not a marker is returned (None when its number names no
      opcode) with the iterator just after it. The source passes
      NumberOfOperandsFor. */
  function SkipDuplicatesBy(count: Opcode -> nat, it: Iterator): (r: Result<(Option<Opcode>, Iterator), Error>)
    ensures r.Ok? ==> r.value.1.words == it.words && it.index < r.value.1.index <= |it.words|
    ensures r.Ok? ==> r.value.0 != Some(DUPLICATE)
    decreases |it.words| - it.index
  {
    match IteratorNext(it)
    case Err(e) => Err(e)
    case Ok((n, it1)) =>
      if n != OpcodeValue(DUPLICATE) then Ok((OpcodeOfValue(n), it1))
      else
        match IteratorNext(it1)
        case Err(e) => Err(e)
        case Ok((n2, it2)) =>
          match OpcodeOfValue(n2)
          case None => Err(Unreachable)
          case Some(skipped) =>
            match IteratorSkip(it2, count(skipped))
            case Err(e) => Err(e)
            case Ok(it3) => SkipDuplicatesBy(count, it3)
  }

  /** The duplicate-skipping loop with the operand table corrected to the
      writers' counts (`OperandCount`); the interpreter below uses it. */
  function SkipDuplicates(it: Iterator): (r: Result<(Option<Opcode>, Iterator), Error>)
    ensures r.Ok? ==> r.value.1.words == it.words && it.index < r.value.1.index <= |it.words|
    ensures r.Ok? ==> r.value.0 != Some(DUPLICATE)
  {
    SkipDuplicatesBy(OperandCount, it)
  }

  /** The output offset names a word of output frame `k`. */
  predicate ValidTarget(d: Deoptimizer, k: int, offset: int) {
    && 0 <= k < |d.output|
    && offset >= 0 && offset % PointerSize(d.arch) == 0
    && offset / PointerSize(d.arch) < |d.output[k].slots|
  }

  /** The slot the command writes, read through GetFrameSlot. */
  function TargetSlot(d: Deoptimizer, k: int, offset: int): Cell
    requires ValidTarget(d, k, offset)
  {
    FrameSlot(d.arch, d.output[k], offset).value
  }

  /** Output frames `after` differ from `before` at most in word `offset`
      of frame `k`. */
  ghost predicate OnlySlotChanged(a: Arch, before: seq<FrameDescription>, after: seq<FrameDescription>,
                            k: int, offset: int)
  {
    && |after| == |before|
    && (forall j :: 0 <= j < |before| && j != k ==> after[j] == before[j])
    && (0 <= k < |before| ==>
          && after[k] == before[k].(slots := after[k].slots)
          && |after[k].slots| == |before[k].slots|
          && (forall o :: o != offset ==> FrameSlot(a, after[k], o) == FrameSlot(a, before[k], o)))
  }

  /** SetFrameSlot on output frame `k`. */
  function WriteSlot(d: Deoptimizer, k: int, offset: int, c: Cell): (e: Deoptimizer)
    requires ValidTarget(d, k, offset)
    ensures ValidTarget(e, k, offset) && TargetSlot(e, k, offset) == c
    ensures OnlySlotChanged(d.arch, d.output, e.output, k, offset)
    ensures e == d.(output := e.output)
  {
    d.(output := d.output[k := SetFrameSlot(d.arch, d.output[k], offset, c)])
  }

  /** AddDoubleValue at the slot's address, then the placeholder in the slot. */
  function DeferNumber(d: Deoptimizer, k: int, offset: int, x: real): (e: Deoptimizer)
    requires ValidTarget(d, k, offset)
    ensures ValidTarget(e, k, offset) && TargetSlot(e, k, offset) == Tagged(Placeholder)
    ensures OnlySlotChanged(d.arch, d.output, e.output, k, offset)
    ensures e.deferredHeapNumbers
            == d.deferredHeapNumbers + [HeapNumberRecord(d.output[k].top + offset, x)]
    ensures e == d.(output := e.output, deferredHeapNumbers := e.deferredHeapNumbers)
  {
    var e := d.(deferredHeapNumbers :=
                  d.deferredHeapNumbers + [HeapNumberRecord(d.output[k].top + offset, x)]);
    WriteSlot(e, k, offset, Tagged(Placeholder))
  }

  /** The INT32_* commands: a raw signed word becomes a small integer when
      Smi::IsValid holds, otherwise a deferred double of its low 32 bits. */
  function StoreInt32(d: Deoptimizer, k: int, offset: int, v: int): (e: Deoptimizer)
    requires ValidTarget(d, k, offset)
    ensures CommandEffect(d, e, k, offset)
  {
    WriteSmiEffect(d, k, offset, v);
    DeferNumberEffect(d, k, offset, Int32Wrap(v) as real);
    if SmiIsValid(d.arch, v) then WriteSlot(d, k, offset, Tagged(Smi(v)))
    else DeferNumber(d, k, offset, Int32Wrap(v) as real)
  }

  /** The UINT32_* commands: the word read unsigned becomes a small integer
      when it is at most Smi::kMaxValue, otherwise a deferred double of its
      low 32 bits read unsigned. */
  function StoreUint32(d: Deoptimizer, k: int, offset: int, v: int): (e: Deoptimizer)
    requires ValidTarget(d, k, offset)
    ensures CommandEffect(d, e, k, offset)
  {
    var u := UintptrWrap(d.arch, v);
    WriteSmiEffect(d, k, offset, u);
    DeferNumberEffect(d, k, offset, Uint32Wrap(u) as real);
    if u <= SmiMaxValue(d.arch) then WriteSlot(d, k, offset, Tagged(Smi(u)))
    else DeferNumber(d, k, offset, Uint32Wrap(u) as real)
  }

  /** The cell an input stack slot index names. */
  function InputSlot(d: Deoptimizer, slotIndex: int): (r: Result<Cell, Error>)
    ensures r.Ok? && PlaceholderFree(d) ==> r.value != Tagged(Placeholder)
  {
    match GetOffsetFromSlotIndex(d.arch, d.input, slotIndex)
    case None => Err(Unreachable)
    case Some(off) =>
      match FrameSlot(d.arch, d.input, off)
      case None => Err(Malformed)
      case Some(c) =>
        assert c in d.input.slots;
        Ok(c)
  }

  /** An input register. */
  function InputRegister(d: Deoptimizer, r: int): (c: Result<Cell, Error>)
    ensures c.Ok? && PlaceholderFree(d) ==> c.value != Tagged(Placeholder)
  {
    if 0 <= r < |d.input.registers| then
      assert d.input.registers[r] in d.input.registers;
      Ok(d.input.registers[r])
    else Err(Malformed)
  }

  /** The raw integer in a cell that the code generator filled with one. */
  function RawWord(c: Result<Cell, Error>): Result<int, Error> {
    match c
    case Err(e) => Err(e)
    case Ok(Raw(n)) => Ok(n)
    case Ok(_) => Err(Malformed)
  }

  /** The values the arguments object will hold: `count` input slots from
      `index` on when the values are known, holes otherwise. The slot offset
      is computed in both cases, as in the source. */
  function ArgumentValues(d: Deoptimizer, known: bool, index: int, count: int): (r: Result<seq<Cell>, Error>)
    ensures r.Ok? ==> |r.value| == if count <= 0 then 0 else count
    ensures r.Ok? && !known ==> forall i :: 0 <= i < |r.value| ==> r.value[i] == Tagged(TheHole)
    decreases if count <= 0 then 0 else count
  {
    if count <= 0 then Ok([])
    else
      match GetOffsetFromSlotIndex(d.arch, d.input, index)
      case None => Err(Unreachable)
      case Some(off) =>
        var first := if known then FrameSlot(d.arch, d.input, off) else Some(Tagged(TheHole));
        match first
        case None => Err(Malformed)
        case Some(c) =>
          match ArgumentValues(d, known, index + 1, count - 1)
          case Err(e) => Err(e)
          case Ok(rest) => Ok([c] + rest)
  }

  /** The switch of DoTranslateCommand, entered with the first opcode that
      is not a DUPLICATE marker. A number that names no opcode matches no
      case and the command does nothing. */
  function Dispatch(d: Deoptimizer, op: Option<Opcode>, it: Iterator, k: int, offset: int)
    : (r: Result<(Deoptimizer, Iterator), Error>)
    requires ValidTarget(d, k, offset)
    requires op != Some(DUPLICATE)
    ensures r.Ok? ==> CommandEffect(d, r.value.0, k, offset)
  {
    if op.None? then Ok((d, it))
    else if IsFrameOpcode(op.value) then Err(Unreachable)
    else if op.value == ARGUMENTS_OBJECT then StoreArguments(d, it, k, offset)
    else
      match IteratorNext(it)
      case Err(e) => Err(e)
      case Ok((operand, it1)) => WithIterator(StoreValue(d, op.value, operand, k, offset), it1)
  }

  /** A command's outcome paired with the iterator after its operands. */
  function WithIterator(r: Result<Deoptimizer, Error>, it: Iterator): Result<(Deoptimizer, Iterator), Error> {
    match r
    case Err(e) => Err(e)
    case Ok(e) => Ok((e, it))
  }

  /** The single-operand commands, given their operand. */
  function StoreValue(d: Deoptimizer, op: Opcode, operand: int, k: int, offset: int)
    : (r: Result<Deoptimizer, Error>)
    requires ValidTarget(d, k, offset)
    ensures r.Ok? ==> CommandEffect(d, r.value, k, offset)
  {
    match op
    case REGISTER =>
      (match InputRegister(d, operand)
       case Err(e) => Err(e)
       case Ok(c) => WriteSlotEffect(d, k, offset, c); Ok(WriteSlot(d, k, offset, c)))
    case INT32_REGISTER =>
      (match RawWord(InputRegister(d, operand))
       case Err(e) => Err(e)
       case Ok(v) => Ok(StoreInt32(d, k, offset, v)))
    case UINT32_REGISTER =>
      (match RawWord(InputRegister(d, operand))
       case Err(e) => Err(e)
       case Ok(v) => Ok(StoreUint32(d, k, offset, v)))
    case DOUBLE_REGISTER =>
      if 0 <= operand < |d.input.doubleRegisters| then
        Ok(DeferNumber(d, k, offset, d.input.doubleRegisters[operand]))
      else Err(Malformed)
    case STACK_SLOT =>
      (match InputSlot(d, operand)
       case Err(e) => Err(e)
       case Ok(c) => WriteSlotEffect(d, k, offset, c); Ok(WriteSlot(d, k, offset, c)))
    case INT32_STACK_SLOT =>
      (match RawWord(InputSlot(d, operand))
       case Err(e) => Err(e)
       case Ok(v) => Ok(StoreInt32(d, k, offset, v)))
    case UINT32_STACK_SLOT =>
      (match RawWord(InputSlot(d, operand))
       case Err(e) => Err(e)
       case Ok(v) => Ok(StoreUint32(d, k, offset, v)))
    case DOUBLE_STACK_SLOT =>
      (match InputSlot(d, operand)
       case Err(e) => Err(e)
       case Ok(Float(x)) => Ok(DeferNumber(d, k, offset, x))
       case Ok(_) => Err(Malformed))
    case LITERAL =>
      if 0 <= operand < |d.literals| then
        assert d.literals[operand] in d.literals;
        WriteSlotEffect(d, k, offset, Tagged(d.literals[operand]));
        Ok(WriteSlot(d, k, offset, Tagged(d.literals[operand])))
      else Err(Malformed)
    case _ => Err(Unreachable)
  }

  /** ARGUMENTS_OBJECT: three operands (known flag, index, length, the last
      two counting the receiver), a deferred arguments-object record at the
      slot's address, the arguments marker in the slot, and the values set
      aside in order. */
  function StoreArguments(d: Deoptimizer, it: Iterator, k: int, offset: int)
    : (r: Result<(Deoptimizer, Iterator), Error>)
    requires ValidTarget(d, k, offset)
    ensures r.Ok? ==> CommandEffect(d, r.value.0, k, offset)
  {
    if it.index + 3 > |it.words| then Err(Malformed)
    else
      var i := it.index;
      var known := it.words[i] != 0;
      var index := it.words[i + 1] + 1;
      var length := it.words[i + 2] - 1;
      match ArgumentValues(d, known, index, length)
      case Err(e) => Err(e)
      case Ok(values) =>
        var e := d.(deferredArgumentsObjects := d.deferredArgumentsObjects
                      + [ArgumentsObjectRecord(d.output[k].top + offset, length)],
                    deferredArgumentValues := d.deferredArgumentValues + values);
        Ok((WriteSlot(e, k, offset, Tagged(ArgumentsMarker)), Iterator(it.words, i + 3)))
  }

  /** Neither the input frame nor the literals hold the placeholder: it only
      ever enters an output frame through a deferred heap number. */
  ghost predicate PlaceholderFree(d: Deoptimizer) {
    && (forall c :: c in d.input.slots ==> c != Tagged(Placeholder))
    && (forall c :: c in d.input.registers ==> c != Tagged(Placeholder))
    && (forall v :: v in d.literals ==> v != Placeholder)
  }

  /** What one command may do to the deoptimizer: only the addressed
      output slot changes, the input and literals are untouched, the
      deferred lists only grow, at most one heap-number record is added and
      it carries the slot's address; and when the inputs hold no placeholder
      and the slot held none, the slot receives a placeholder exactly when a
      heap-number record is added. */
  ghost predicate CommandEffect(d: Deoptimizer, e: Deoptimizer, k: int, offset: int)
    requires ValidTarget(d, k, offset)
  {
    && ValidTarget(e, k, offset)
    && e.arch == d.arch && e.input == d.input && e.literals == d.literals
    && OnlySlotChanged(d.arch, d.output, e.output, k, offset)
    && d.deferredHeapNumbers <= e.deferredHeapNumbers
    && |e.deferredHeapNumbers| <= |d.deferredHeapNumbers| + 1
    && (|e.deferredHeapNumbers| > |d.deferredHeapNumbers| ==>
          e.deferredHeapNumbers[|d.deferredHeapNumbers|].slotAddress == d.output[k].top + offset)
    && d.deferredArgumentsObjects <= e.deferredArgumentsObjects
    && d.deferredArgumentValues <= e.deferredArgumentValues
    && (PlaceholderFree(d) && TargetSlot(d, k, offset) != Tagged(Placeholder) ==>
          (TargetSlot(e, k, offset) == Tagged(Placeholder)
           <==> |e.deferredHeapNumbers| == |d.deferredHeapNumbers| + 1))
  }

  /** Writing a cell that is not the placeholder is a command effect. */
  lemma WriteSlotEffect(d: Deoptimizer, k: int, offset: int, c: Cell)
    requires ValidTarget(d, k, offset)
    requires PlaceholderFree(d) ==> c != Tagged(Placeholder)
    ensures CommandEffect(d, WriteSlot(d, k, offset, c), k, offset)
  {
  }

  lemma WriteSmiEffect(d: Deoptimizer, k: int, offset: int, v: int)
    requires ValidTarget(d, k, offset)
    ensures CommandEffect(d, WriteSlot(d, k, offset, Tagged(Smi(v))), k, offset)
  {
    WriteSlotEffect(d, k, offset, Tagged(Smi(v)));
  }

  /** Deferring a number is a command effect. */
  lemma DeferNumberEffect(d: Deoptimizer, k: int, offset: int, x: real)
    requires ValidTarget(d, k, offset)
    ensures CommandEffect(d, DeferNumber(d, k, offset, x), k, offset)
  {
  }

  /** Deoptimizer::DoTranslateCommand. On success only the addressed output
      slot changes, the input and literals are untouched, and the deferred
      lists only grow; the slot receives a fresh placeholder exactly when
      one heap-number record is added, and that record carries the slot's
      address. */
  function DoTranslateCommand(d: Deoptimizer, it: Iterator, k: int, offset: int)
    : (r: Result<(Deoptimizer, Iterator), Error>)
    requires ValidTarget(d, k, offset)
    ensures r.Ok? ==> CommandEffect(d, r.value.0, k, offset)
  {
    match SkipDuplicates(it)
    case Err(e) => Err(e)
    case Ok((op, it1)) => Dispatch(d, op, it1, k, offset)
  }
}

module DeoptTranslateProperties {
  import opened Arch
  import opened Outcomes
  import opened TranslationCodec
  import opened Translation
  import opened Frames
  import opened DeoptTranslate

  /** A DUPLICATE marker makes the command after it, operands included, go
      by without effect: the command is carried out by the one after that. */
  lemma DuplicateSkipsCommand(d: Deoptimizer, ws: seq<int>, i: nat, w: Writer, k: int, offset: int)
    requires ValidTarget(d, k, offset)
    requires WrittenAt(ws, i, WriterWords(MarkDuplicate) + WriterWords(w))
    ensures DoTranslateCommand(d, Iterator(ws, i), k, offset)
            == DoTranslateCommand(d, Iterator(ws, i + 1 + |WriterWords(w)|), k, offset)
  {
    SkipDuplicatesOverMarker(ws, i, w);
  }

  lemma SkipDuplicatesOverMarker(ws: seq<int>, i: nat, w: Writer)
    requires WrittenAt(ws, i, WriterWords(MarkDuplicate) + WriterWords(w))
    ensures SkipDuplicates(Iterator(ws, i)) == SkipDuplicates(Iterator(ws, i + 1 + |WriterWords(w)|))
  {
    var op := OpcodeOf(w);
    var marker := WriterWords(MarkDuplicate);
    var words := WriterWords(w);
    assert marker == [17];
    WrittenAtSplit(ws, i, marker, words);
    assert ws[i] == 17 by {
      assert ws[i + 0] == marker[0];
    }
    assert ws[i + 1] == OpcodeValue(op) by {
      assert ws[i + 1 + 0] == words[0];
    }
    OpcodeValueRoundTrip(op);
    WriterOperandCounts(w);
  }

  /** The switch of the command a writer wrote is entered with the writer's
      opcode and the iterator on the writer's first operand. */
  lemma CommandOpcodeAt(d: Deoptimizer, ws: seq<int>, i: nat, w: Writer, k: int, offset: int)
    requires ValidTarget(d, k, offset)
    requires WrittenAt(ws, i, WriterWords(w)) && OpcodeOf(w) != DUPLICATE
    ensures DoTranslateCommand(d, Iterator(ws, i), k, offset)
            == Dispatch(d, Some(OpcodeOf(w)), Iterator(ws, i + 1), k, offset)
  {
    var op := OpcodeOf(w);
    var words := WriterWords(w);
    assert ws[i + 0] == words[0];
    SkipDuplicatesStops(Iterator(ws, i), op);
  }

  /** The duplicate-skipping loop stops at the first opcode that is not a
      marker. */
  lemma SkipDuplicatesStops(it: Iterator, op: Opcode)
    requires op != DUPLICATE
    requires it.index < |it.words| && it.words[it.index] == OpcodeValue(op)
    ensures SkipDuplicates(it) == Ok((Some(op), Iterator(it.words, it.index + 1)))
  {
    var n := OpcodeValue(op);
    OpcodeValueRoundTrip(op);
    OpcodeValueRoundTrip(DUPLICATE);
    assert n != OpcodeValue(DUPLICATE);
    assert IteratorNext(it) == Ok((n, Iterator(it.words, it.index + 1)));
  }

  /** No DUPLICATE marker from `from` on is followed by the number of
      COMPILED_STUB_FRAME: the only place the source's operand table and the
      writers' counts part ways. */
  predicate NoDuplicatedStubFrame(ws: seq<int>, from: nat) {
    forall j :: from <= j < |ws| - 1 && ws[j] == OpcodeValue(DUPLICATE) ==> ws[j + 1] != OpcodeValue(COMPILED_STUB_FRAME)
  }

  /** Away from a duplicated compiled stub frame, the loop as written
      (skipping by NumberOfOperandsFor) and the corrected loop agree. */
  lemma {:induction false} SkipDuplicatesAgree(it: Iterator)
    requires NoDuplicatedStubFrame(it.words, it.index)
    ensures SkipDuplicatesBy(NumberOfOperandsFor, it) == SkipDuplicates(it)
    decreases |it.words| - it.index
  {
    if it.index + 1 < |it.words| && it.words[it.index] == OpcodeValue(DUPLICATE) {
      var n2 := it.words[it.index + 1];
      OpcodeValueRoundTrip(COMPILED_STUB_FRAME);
      match OpcodeOfValue(n2)
      case None =>
      case Some(skipped) =>
        OpcodeValueRoundTrip(skipped);
        assert skipped != COMPILED_STUB_FRAME;
        var it2 := Iterator(it.words, it.index + 2);
        if it2.index + NumberOfOperandsFor(skipped) <= |it.words| {
          SkipDuplicatesAgree(Iterator(it.words, it2.index + NumberOfOperandsFor(skipped)));
        }
    }
  }

  /** The words of MarkDuplicate, BeginCompiledStubFrame, StoreRegister(3):
      the loop as written skips the register command's opcode as the stub
      frame's operand and returns 3 (CONSTRUCT_STUB_FRAME) as the next
      opcode; the corrected loop returns REGISTER. */
  lemma DuplicatedStubFrameOverskips()
    ensures WriterWords(MarkDuplicate) + WriterWords(BeginCompiledStubFrame) + WriterWords(StoreRegister(3))
            == [17, 6, 7, 3]
    ensures SkipDuplicatesBy(NumberOfOperandsFor, Iterator([17, 6, 7, 3], 0))
            == Ok((Some(CONSTRUCT_STUB_FRAME), Iterator([17, 6, 7, 3], 4)))
    ensures SkipDuplicates(Iterator([17, 6, 7, 3], 0)) == Ok((Some(REGISTER), Iterator([17, 6, 7, 3], 3)))
  {
    var ws := [17, 6, 7, 3];
    assert OpcodeOfValue(6) == Some(COMPILED_STUB_FRAME);
    assert OpcodeOfValue(3) == Some(CONSTRUCT_STUB_FRAME);
    assert OpcodeOfValue(7) == Some(REGISTER);
    assert SkipDuplicatesBy(NumberOfOperandsFor, Iterator(ws, 0))
           == SkipDuplicatesBy(NumberOfOperandsFor, Iterator(ws, 3));
    assert SkipDuplicatesBy(OperandCount, Iterator(ws, 0)) == SkipDuplicatesBy(OperandCount, Iterator(ws, 2));
  }

  predicate IsStoreOpcode(op: Opcode) {
    op in {REGISTER, INT32_REGISTER, UINT32_REGISTER, DOUBLE_REGISTER, STACK_SLOT,
           INT32_STACK_SLOT, UINT32_STACK_SLOT, DOUBLE_STACK_SLOT, LITERAL}
  }

  /** A single-operand store command reads its one operand and stores the
      value it names; the iterator ends right after the command. */
  lemma StoreCommandReadsOperand(d: Deoptimizer, ws: seq<int>, i: nat, w: Writer, k: int, offset: int)
    requires ValidTarget(d, k, offset)
    requires IsStoreOpcode(OpcodeOf(w))
    requires WrittenAt(ws, i, WriterWords(w))
    ensures |Operands(w)| == 1
    ensures DoTranslateCommand(d, Iterator(ws, i), k, offset)
            == WithIterator(StoreValue(d, OpcodeOf(w), Operands(w)[0], k, offset),
                            Iterator(ws, i + |WriterWords(w)|))
  {
    var op := OpcodeOf(w);
    WriterOperandCounts(w);
    var words := WriterWords(w);
    var x := Operands(w)[0];
    assert ws[i + 1] == x by {
      assert ws[i + 1] == words[1];
    }
    CommandOpcodeAt(d, ws, i, w, k, offset);
    StoreDispatch(d, op, Iterator(ws, i + 1), k, offset);
  }

  /** The switch on a single-operand store reads the operand and stores. */
  lemma StoreDispatch(d: Deoptimizer, op: Opcode, it: Iterator, k: int, offset: int)
    requires ValidTarget(d, k, offset) && IsStoreOpcode(op)
    requires it.index < |it.words|
    ensures Dispatch(d, Some(op), it, k, offset)
            == WithIterator(StoreValue(d, op, it.words[it.index], k, offset),
                            Iterator(it.words, it.index + 1))
  {
  }

  /** StoreInt32 on an int32: a small integer when one holds it, otherwise
      the placeholder and one deferred heap number of the same value at the
      slot's address. */
  lemma StoreInt32Outcome(d: Deoptimizer, k: int, offset: int, v: int)
    requires ValidTarget(d, k, offset) && IsInt32(v)
    ensures var e := StoreInt32(d, k, offset, v);
            && (SmiIsValid(d.arch, v) ==>
                  TargetSlot(e, k, offset) == Tagged(Smi(v))
                  && e.deferredHeapNumbers == d.deferredHeapNumbers)
            && (!SmiIsValid(d.arch, v) ==>
                  TargetSlot(e, k, offset) == Tagged(Placeholder)
                  && e.deferredHeapNumbers
                     == d.deferredHeapNumbers + [HeapNumberRecord(d.output[k].top + offset, v as real)])
  {
  }

  /** StoreUint32 on a uint32: a small integer exactly when it is at most
      Smi::kMaxValue, otherwise a deferred heap number of the same value. */
  lemma StoreUint32Outcome(d: Deoptimizer, k: int, offset: int, v: int)
    requires ValidTarget(d, k, offset) && IsUint32(v)
    ensures var e := StoreUint32(d, k, offset, v);
            && (v <= SmiMaxValue(d.arch) ==>
                  TargetSlot(e, k, offset) == Tagged(Smi(v))
                  && e.deferredHeapNumbers == d.deferredHeapNumbers)
            && (v > SmiMaxValue(d.arch) ==>
                  TargetSlot(e, k, offset) == Tagged(Placeholder)
                  && e.deferredHeapNumbers
                     == d.deferredHeapNumbers + [HeapNumberRecord(d.output[k].top + offset, v as real)])
  {
    assert UintptrWrap(d.arch, v) == v;
  }

  /** INT32_REGISTER: an int32 in the register lands in the slot as a small
      integer when it fits one; otherwise the slot gets the placeholder and
      exactly one deferred heap number, at the slot's address, holding the
      same value. */
  lemma Int32RegisterCommand(d: Deoptimizer, ws: seq<int>, i: nat, r: int, k: int, offset: int, v: int)
    requires ValidTarget(d, k, offset)
    requires WrittenAt(ws, i, WriterWords(StoreInt32Register(r)))
    requires 0 <= r < |d.input.registers| && d.input.registers[r] == Raw(v) && IsInt32(v)
    ensures var res := DoTranslateCommand(d, Iterator(ws, i), k, offset);
            && res == Ok((StoreInt32(d, k, offset, v), Iterator(ws, i + 2)))
            && (SmiIsValid(d.arch, v) ==>
                  TargetSlot(res.value.0, k, offset) == Tagged(Smi(v))
                  && res.value.0.deferredHeapNumbers == d.deferredHeapNumbers)
            && (!SmiIsValid(d.arch, v) ==>
                  TargetSlot(res.value.0, k, offset) == Tagged(Placeholder)
                  && res.value.0.deferredHeapNumbers
                     == d.deferredHeapNumbers + [HeapNumberRecord(d.output[k].top + offset, v as real)])
  {
    StoreCommandReadsOperand(d, ws, i, StoreInt32Register(r), k, offset);
    StoreInt32Outcome(d, k, offset, v);
  }

  /** UINT32_REGISTER: a uint32 in the register lands in the slot as a small
      integer exactly when it is at most Smi::kMaxValue; otherwise as a
      deferred heap number of the same value behind the placeholder. */
  lemma Uint32RegisterCommand(d: Deoptimizer, ws: seq<int>, i: nat, r: int, k: int, offset: int, v: int)
    requires ValidTarget(d, k, offset)
    requires WrittenAt(ws, i, WriterWords(StoreUint32Register(r)))
    requires 0 <= r < |d.input.registers| && d.input.registers[r] == Raw(v) && IsUint32(v)
    ensures var res := DoTranslateCommand(d, Iterator(ws, i), k, offset);
            && res == Ok((StoreUint32(d, k, offset, v), Iterator(ws, i + 2)))
            && (v <= SmiMaxValue(d.arch) ==>
                  TargetSlot(res.value.0, k, offset) == Tagged(Smi(v))
                  && res.value.0.deferredHeapNumbers == d.deferredHeapNumbers)
            && (v > SmiMaxValue(d.arch) ==>
                  TargetSlot(res.value.0, k, offset) == Tagged(Placeholder)
                  && res.value.0.deferredHeapNumbers
                     == d.deferredHeapNumbers + [HeapNumberRecord(d.output[k].top + offset, v as real)])
  {
    StoreCommandReadsOperand(d, ws, i, StoreUint32Register(r), k, offset);
    StoreUint32Outcome(d, k, offset, v);
  }

  /** DOUBLE_REGISTER: always a deferred heap number behind the placeholder. */
  lemma DoubleRegisterCommand(d: Deoptimizer, ws: seq<int>, i: nat, r: int, k: int, offset: int)
    requires ValidTarget(d, k, offset)
    requires WrittenAt(ws, i, WriterWords(StoreDoubleRegister(r)))
    requires 0 <= r < |d.input.doubleRegisters|
    ensures var res := DoTranslateCommand(d, Iterator(ws, i), k, offset);
            && res.Ok?
            && TargetSlot(res.value.0, k, offset) == Tagged(Placeholder)
            && res.value.0.deferredHeapNumbers
               == d.deferredHeapNumbers + [HeapNumberRecord(d.output[k].top + offset, d.input.doubleRegisters[r])]
  {
    StoreCommandReadsOperand(d, ws, i, StoreDoubleRegister(r), k, offset);
  }

  /** ARGUMENTS_OBJECT with unknown values: the slot gets the arguments
      marker, one arguments-object record at the slot's address counts the
      arguments without the receiver, and that many holes are set aside. */
  lemma ArgumentsObjectCommand(d: Deoptimizer, ws: seq<int>, i: nat, index: int, length: int, k: int, offset: int)
    requires ValidTarget(d, k, offset)
    requires WrittenAt(ws, i, WriterWords(StoreArgumentsObject(false, index, length)))
    requires ComputeParametersCount(d.input).Some?
    ensures var res := DoTranslateCommand(d, Iterator(ws, i), k, offset);
            && res.Ok?
            && res.value.1 == Iterator(ws, i + 4)
            && TargetSlot(res.value.0, k, offset) == Tagged(ArgumentsMarker)
            && res.value.0.deferredArgumentsObjects
               == d.deferredArgumentsObjects + [ArgumentsObjectRecord(d.output[k].top + offset, length - 1)]
            && |res.value.0.deferredArgumentValues|
               == |d.deferredArgumentValues| + (if length <= 1 then 0 else length - 1)
  {
    var w := StoreArgumentsObject(false, index, length);
    var words := WriterWords(w);
    assert ws[i + 1] == words[1] && ws[i + 2] == words[2] && ws[i + 3] == words[3];
    CommandOpcodeAt(d, ws, i, w, k, offset);
    var it := Iterator(ws, i + 1);
    assert Dispatch(d, Some(ARGUMENTS_OBJECT), it, k, offset) == StoreArguments(d, it, k, offset);
    UnknownArguments(d, it, k, offset, index, length);
  }

  /** The arguments-object store, given operands that mark the values
      unknown. */
  lemma UnknownArguments(d: Deoptimizer, it: Iterator, k: int, offset: int, index: int, length: int)
    requires ValidTarget(d, k, offset)
    requires ComputeParametersCount(d.input).Some?
    requires it.index + 3 <= |it.words|
    requires it.words[it.index] == 0 && it.words[it.index + 1] == index && it.words[it.index + 2] == length
    ensures var res := StoreArguments(d, it, k, offset);
            && res.Ok?
            && res.value.1 == Iterator(it.words, it.index + 3)
            && TargetSlot(res.value.0, k, offset) == Tagged(ArgumentsMarker)
            && res.value.0.deferredArgumentsObjects
               == d.deferredArgumentsObjects + [ArgumentsObjectRecord(d.output[k].top + offset, length - 1)]
            && |res.value.0.deferredArgumentValues|
               == |d.deferredArgumentValues| + (if length <= 1 then 0 else length - 1)
  {
    HolesAvailable(d, index + 1, length - 1);
  }

  /** Unknown argument values are always available: one hole per argument,
      whenever the input frame's parameter count is known. */
  lemma {:induction false} HolesAvailable(d: Deoptimizer, index: int, count: int)
    requires ComputeParametersCount(d.input).Some?
    ensures ArgumentValues(d, false, index, count).Ok?
    decreases if count <= 0 then 0 else count
  {
    if count > 0 {
      HolesAvailable(d, index + 1, count - 1);
    }
  }

  /** A frame-describing record where a command is expected is unreachable. */
  lemma FrameRecordIsUnreachable(d: Deoptimizer, ws: seq<int>, i: nat, w: Writer, k: int, offset: int)
    requires ValidTarget(d, k, offset)
    requires IsFrameOpcode(OpcodeOf(w))
    requires WrittenAt(ws, i, WriterWords(w))
    ensures DoTranslateCommand(d, Iterator(ws, i), k, offset) == Err(Unreachable)
  {
    CommandOpcodeAt(d, ws, i, w, k, offset);
  }

  /** Number of deferred heap numbers bound for an address. */
  function CountAt(records: seq<HeapNumberRecord>, address: int): (n: nat)
    ensures n <= |records|
  {
    if |records| == 0 then 0
    else CountAt(records[..|records| - 1], address)
         + (if records[|records| - 1].slotAddress == address then 1 else 0)
  }

  /** The address of word `s` of output frame `k`. */
  function SlotAddress(d: Deoptimizer, k: int, s: int): int
    requires 0 <= k < |d.output|
  {
    d.output[k].top + s * PointerSize(d.arch)
  }

  /** No two words of the output frames share an address. */
  ghost predicate DistinctSlotAddresses(d: Deoptimizer) {
    forall k1, s1, k2, s2 ::
      (0 <= k1 < |d.output| && 0 <= s1 < |d.output[k1].slots| &&
       0 <= k2 < |d.output| && 0 <= s2 < |d.output[k2].slots| &&
       (k1 != k2 || s1 != s2)) ==> SlotAddress(d, k1, s1) != SlotAddress(d, k2, s2)
  }

  /** Every placeholder in an output frame has exactly one deferred heap
      number bound for its address, and every other word has none. */
  ghost predicate HeapNumbersAccounted(d: Deoptimizer) {
    forall k, s :: 0 <= k < |d.output| && 0 <= s < |d.output[k].slots| ==>
      CountAt(d.deferredHeapNumbers, SlotAddress(d, k, s))
      == if d.output[k].slots[s] == Tagged(Placeholder) then 1 else 0
  }

  lemma SlotOfOffset(a: Arch, f: FrameDescription, s: int)
    requires 0 <= s < |f.slots|
    ensures FrameSlot(a, f, s * PointerSize(a)) == Some(f.slots[s])
  {
    if a.Arch32? { assert (s * 4) / 4 == s; } else { assert (s * 8) / 8 == s; }
  }

  lemma OffsetOfSlot(a: Arch, offset: int)
    requires offset >= 0 && offset % PointerSize(a) == 0
    ensures offset / PointerSize(a) * PointerSize(a) == offset
  {
  }

  /** Appending one record adds one to the count at its address only. */
  lemma CountAtAppend(records: seq<HeapNumberRecord>, r: HeapNumberRecord, address: int)
    ensures CountAt(records + [r], address)
            == CountAt(records, address) + (if r.slotAddress == address then 1 else 0)
  {
    assert (records + [r])[..|records + [r]| - 1] == records;
  }

  /** What a command effect leaves of word `s` of frame `j`. */
  lemma EffectOnSlot(d: Deoptimizer, e: Deoptimizer, k: int, offset: int, j: int, s: int)
    requires ValidTarget(d, k, offset) && CommandEffect(d, e, k, offset)
    requires 0 <= j < |d.output| && 0 <= s < |d.output[j].slots|
    ensures |e.output| == |d.output| && |e.output[j].slots| == |d.output[j].slots|
    ensures SlotAddress(e, j, s) == SlotAddress(d, j, s)
    ensures SlotAddress(d, k, offset / PointerSize(d.arch)) == d.output[k].top + offset
    ensures (j != k || s != offset / PointerSize(d.arch)) ==> e.output[j].slots[s] == d.output[j].slots[s]
    ensures (j == k && s == offset / PointerSize(d.arch)) ==>
              e.output[j].slots[s] == TargetSlot(e, k, offset) && d.output[j].slots[s] == TargetSlot(d, k, offset)
  {
    var a := d.arch;
    OffsetOfSlot(a, offset);
    if j == k {
      SlotOfOffset(a, d.output[k], s);
      SlotOfOffset(a, e.output[k], s);
      if s != offset / PointerSize(a) {
        assert s * PointerSize(a) != offset by {
          if a.Arch32? { assert (s * 4) / 4 == s; } else { assert (s * 8) / 8 == s; }
        }
      }
    }
  }

  /** The bookkeeping for one word after a command, from the bookkeeping of
      that word before it and the distinctness of its address from the
      written slot's. */
  lemma SlotStaysAccounted(d: Deoptimizer, e: Deoptimizer, k: int, offset: int, j: int, s: int)
    requires ValidTarget(d, k, offset) && CommandEffect(d, e, k, offset)
    requires PlaceholderFree(d) && TargetSlot(d, k, offset) != Tagged(Placeholder)
    requires 0 <= j < |d.output| && 0 <= s < |d.output[j].slots|
    requires CountAt(d.deferredHeapNumbers, SlotAddress(d, j, s))
             == if d.output[j].slots[s] == Tagged(Placeholder) then 1 else 0
    requires (j != k || s != offset / PointerSize(d.arch)) ==>
               SlotAddress(d, k, offset / PointerSize(d.arch)) != SlotAddress(d, j, s)
    ensures |e.output| == |d.output| && |e.output[j].slots| == |d.output[j].slots|
    ensures CountAt(e.deferredHeapNumbers, SlotAddress(e, j, s))
            == if e.output[j].slots[s] == Tagged(Placeholder) then 1 else 0
  {
    EffectOnSlot(d, e, k, offset, j, s);
    var s0 := offset / PointerSize(d.arch);
    var addr := SlotAddress(d, j, s);
    var before := d.output[j].slots[s] == Tagged(Placeholder);
    var after := e.output[j].slots[s] == Tagged(Placeholder);
    assert addr == SlotAddress(d, k, s0) ==> j == k && s == s0;
    CountAfter(d.deferredHeapNumbers, e.deferredHeapNumbers, addr, d.output[k].top + offset, before, after);
  }

  /** The count at one address after at most one record is appended. */
  lemma CountAfter(hn: seq<HeapNumberRecord>, hn2: seq<HeapNumberRecord>, addr: int, addr0: int,
                   before: bool, after: bool)
    requires hn <= hn2 && |hn2| <= |hn| + 1
    requires |hn2| > |hn| ==> hn2[|hn|].slotAddress == addr0
    requires CountAt(hn, addr) == if before then 1 else 0
    requires addr != addr0 ==> after == before
    requires addr == addr0 ==> !before && (after <==> |hn2| == |hn| + 1)
    ensures CountAt(hn2, addr) == if after then 1 else 0
  {
    if |hn2| > |hn| {
      assert hn2 == hn + [hn2[|hn|]];
      CountAtAppend(hn, hn2[|hn|], addr);
    } else {
      assert hn2 == hn;
    }
  }

  /** A translation command keeps the bookkeeping of deferred heap numbers
      exact, provided the slot it writes does not yet hold a placeholder and
      the inputs hold none. */
  lemma DoTranslateCommandKeepsAccounting(d: Deoptimizer, it: Iterator, k: int, offset: int)
    requires ValidTarget(d, k, offset)
    requires PlaceholderFree(d) && DistinctSlotAddresses(d) && HeapNumbersAccounted(d)
    requires TargetSlot(d, k, offset) != Tagged(Placeholder)
    requires DoTranslateCommand(d, it, k, offset).Ok?
    ensures DistinctSlotAddresses(DoTranslateCommand(d, it, k, offset).value.0)
    ensures HeapNumbersAccounted(DoTranslateCommand(d, it, k, offset).value.0)
  {
    var e := DoTranslateCommand(d, it, k, offset).value.0;
    forall j, s | 0 <= j < |e.output| && 0 <= s < |e.output[j].slots|
      ensures CountAt(e.deferredHeapNumbers, SlotAddress(e, j, s))
              == if e.output[j].slots[s] == Tagged(Placeholder) then 1 else 0
    {
      var s0 := offset / PointerSize(d.arch);
      assert 0 <= s0 < |d.output[k].slots|;
      assert (j != k || s != s0) ==> SlotAddress(d, k, s0) != SlotAddress(d, j, s);
      SlotStaysAccounted(d, e, k, offset, j, s);
    }
    forall j1, s1, j2, s2 |
      0 <= j1 < |e.output| && 0 <= s1 < |e.output[j1].slots| &&
      0 <= j2 < |e.output| && 0 <= s2 < |e.output[j2].slots| && (j1 != j2 || s1 != s2)
      ensures SlotAddress(e, j1, s1) != SlotAddress(e, j2, s2)
    {
      EffectOnSlot(d, e, k, offset, j1, s1);
      EffectOnSlot(d, e, k, offset, j2, s2);
    }
  }
}

=== FILE: frame_tree.dfy ===
/** The frame tree of a page (frame_tree_node.cc): nodes with a parent
    link and an ordered list of children, ids from a counter, and the
    operations that attach, detach and reset children and that ask whether
    one node lies below another. Nodes live in a store keyed by id; a
    pointer is an id, and NULL is None. */
module FrameTreeNodes {
  import opened Outcomes

  type NodeId = int

  /** A FrameTreeNode: its parent (None for the root or a detached node),
      its children in order, the URL it has committed, the process of its
      current frame host, and its depth below the top of its tree. The
      source keeps no depth; here it records that parent links never form
      a cycle. */
  datatype Node = Node(parent: Option<NodeId>, children: seq<NodeId>, currentUrl: string, processId: int,
                       depth: nat)

  /** Every node by id, and the static counter the next id is taken from. */
  datatype Store = Store(nodes: map<NodeId, Node>, nextId: NodeId)

  /** A failed CHECK. */
  datatype Fault = CheckFailure

  predicate NoDuplicates(s: seq<NodeId>) {
    forall i, j :: 0 <= i < j < |s| ==> s[i] != s[j]
  }

  /** Every id in the store came from the counter. */
  predicate IdsIssued(t: Store) {
    1 <= t.nextId && forall id :: id in t.nodes ==> 1 <= id < t.nextId
  }

  /** A node's parent exists, sits strictly higher and lists the node
      among its children. */
  predicate ParentAbove(t: Store, id: NodeId)
    requires id in t.nodes
  {
    t.nodes[id].parent.Some? ==>
      && t.nodes[id].parent.value in t.nodes
      && t.nodes[t.nodes[id].parent.value].depth < t.nodes[id].depth
      && id in t.nodes[t.nodes[id].parent.value].children
  }

  /** A node's children exist and name it as their parent. */
  predicate ChildrenLinked(t: Store, id: NodeId)
    requires id in t.nodes
  {
    forall c :: c in t.nodes[id].children ==> c in t.nodes && t.nodes[c].parent == Some(id)
  }

  predicate NodeWellFormed(t: Store, id: NodeId)
    requires id in t.nodes
  {
    ParentAbove(t, id) && ChildrenLinked(t, id) && NoDuplicates(t.nodes[id].children)
  }

  /** The store's invariant: ids were handed out by the counter; parents
      and children link both ways (a parent exists, sits strictly higher
      and lists the node; a child exists and names its parent); no node
      lists a child twice. */
  predicate WellFormed(t: Store) {
    IdsIssued(t) && forall id :: id in t.nodes ==> NodeWellFormed(t, id)
  }

  /** The counter before any node exists. */
  const EmptyStore := Store(map[], 1)

  lemma EmptyStoreWellFormed()
    ensures WellFormed(EmptyStore)
  {
  }

  // ---------------------------------------------------------------------
  // Construction and the id counter

  /** The FrameTreeNode constructor: the node takes the counter's value,
      the counter moves on by one, and the node starts detached, childless
      and with an empty URL. */
  function CreateNode(t: Store, processId: int): (r: (Store, NodeId))
    ensures r.1 == t.nextId && r.0.nextId == r.1 + 1
    ensures r.1 in r.0.nodes && r.0.nodes[r.1].parent.None? && r.0.nodes[r.1].children == []
    ensures r.0.nodes[r.1].currentUrl == ""
    ensures r.0.nodes.Keys == t.nodes.Keys + {r.1}
    ensures forall id :: id in t.nodes && id != r.1 ==> r.0.nodes[id] == t.nodes[id]
    ensures IdsIssued(t) ==> r.1 !in t.nodes && IdsIssued(r.0)
  {
    (Store(t.nodes[t.nextId := Node(None, [], "", processId, 0)], t.nextId + 1), t.nextId)
  }

  lemma CreateNodeKeepsWellFormed(t: Store, processId: int)
    ensures WellFormed(t) ==> WellFormed(CreateNode(t, processId).0)
  {
    if WellFormed(t) {
      var t2 := CreateNode(t, processId).0;
      forall id | id in t2.nodes
        ensures NodeWellFormed(t2, id)
      {
        if id != t.nextId {
          assert NodeWellFormed(t, id);
          forall c | c in t.nodes[id].children
            ensures c in t2.nodes && t2.nodes[c].parent == Some(id)
          {
            assert t.nodes[c].parent == Some(id);
          }
        }
      }
    }
  }

  predicate StrictlyIncreasing(ids: seq<NodeId>) {
    forall i, j :: 0 <= i < j < |ids| ==> ids[i] < ids[j]
  }

  /** `n` nodes constructed one after another: their ids are strictly
      increasing, hence distinct, and none was in use before. */
  function CreateNodes(t: Store, n: nat, processId: int): (r: (Store, seq<NodeId>))
    ensures |r.1| == n && StrictlyIncreasing(r.1)
    ensures r.0.nextId == t.nextId + n && t.nodes.Keys <= r.0.nodes.Keys
    ensures forall i :: 0 <= i < n ==> t.nextId <= r.1[i] < r.0.nextId && r.1[i] in r.0.nodes
    ensures WellFormed(t) ==> WellFormed(r.0) && forall i :: 0 <= i < n ==> r.1[i] !in t.nodes
    decreases n
  {
    if n == 0 then (t, [])
    else
      CreateNodeKeepsWellFormed(t, processId);
      var (t1, id) := CreateNode(t, processId);
      var (t2, ids) := CreateNodes(t1, n - 1, processId);
      (t2, [id] + ids)
  }

  // ---------------------------------------------------------------------
  // AddChild, RemoveChild, ResetForNewProcess

  /** AddChild: CHECKs that the child is created in the parent's process,
      puts the child's frame host in that process, sets the child's parent
      and appends it to the children. */
  function AddChild(t: Store, n: NodeId, child: NodeId, processId: int): (r: Result<Store, Fault>)
    requires n in t.nodes && child in t.nodes
    ensures r.Err? <==> processId != t.nodes[n].processId
    ensures r.Ok? ==>
              && r.value.nodes.Keys == t.nodes.Keys && r.value.nextId == t.nextId
              && r.value.nodes[n].children == t.nodes[n].children + [child]
              && r.value.nodes[child].parent == Some(n)
              && r.value.nodes[child].processId == t.nodes[n].processId
              && forall id :: id in t.nodes && id != n && id != child ==> r.value.nodes[id] == t.nodes[id]
  {
    if processId != t.nodes[n].processId then Err(CheckFailure)
    else
      var attached := t.nodes[child].(parent := Some(n), processId := t.nodes[n].processId,
                                      depth := t.nodes[n].depth + 1);
      var nodes := t.nodes[child := attached];
      Ok(Store(nodes[n := nodes[n].(children := nodes[n].children + [child])], t.nextId))
  }

  /** A child that was just constructed: detached, childless, named as
      parent by no node, and not the parent itself. */
  predicate Fresh(t: Store, n: NodeId, child: NodeId)
    requires child in t.nodes
  {
    && child != n && t.nodes[child].parent.None? && t.nodes[child].children == []
    && forall id :: id in t.nodes ==> t.nodes[id].parent != Some(child)
  }

  lemma AddChildKeepsWellFormed(t: Store, n: NodeId, child: NodeId, processId: int)
    requires WellFormed(t) && n in t.nodes && child in t.nodes && Fresh(t, n, child)
    requires AddChild(t, n, child, processId).Ok?
    ensures WellFormed(AddChild(t, n, child, processId).value)
  {
    var t2 := AddChild(t, n, child, processId).value;
    forall id | id in t2.nodes
      ensures NodeWellFormed(t2, id)
    {
      if id == n {
        AddChildKeepsParent(t, t2, n, child);
      } else if id != child {
        AddChildKeepsOther(t, t2, n, child, id);
      }
    }
  }

  lemma AddChildKeepsParent(t: Store, t2: Store, n: NodeId, child: NodeId)
    requires WellFormed(t) && n in t.nodes && child in t.nodes && Fresh(t, n, child)
    requires t2 == AddChild(t, n, child, t.nodes[n].processId).value
    ensures NodeWellFormed(t2, n)
  {
    assert NodeWellFormed(t, n);
    var cs := t.nodes[n].children;
    forall c | c in cs
      ensures c != child && c in t2.nodes && t2.nodes[c].parent == Some(n)
    {
      assert t.nodes[c].parent == Some(n);
    }
    assert child !in cs;
  }

  lemma AddChildKeepsOther(t: Store, t2: Store, n: NodeId, child: NodeId, id: NodeId)
    requires WellFormed(t) && n in t.nodes && child in t.nodes && Fresh(t, n, child)
    requires t2 == AddChild(t, n, child, t.nodes[n].processId).value
    requires id in t.nodes && id != n && id != child
    ensures NodeWellFormed(t2, id)
  {
    assert NodeWellFormed(t, id);
    forall c | c in t.nodes[id].children
      ensures c != child && c in t2.nodes && t2.nodes[c].parent == Some(id)
    {
      assert t.nodes[c].parent == Some(id);
    }
  }

  /** The position of the first occurrence of `x`: the iterator the
      source's search loop stops at. */
  function FirstIndex(s: seq<NodeId>, x: NodeId): (i: nat)
    requires x in s
    ensures i < |s| && s[i] == x && x !in s[..i]
  {
    if s[0] == x then 0
    else
      var i := 1 + FirstIndex(s[1..], x);
      assert s[..i] == [s[0]] + s[1..][..i - 1];
      i
  }

  /** RemoveChild: when `child` is among the children, its first
      occurrence is erased and its parent is cleared; otherwise nothing
      changes. */
  function RemoveChild(t: Store, n: NodeId, child: NodeId): (r: Store)
    requires n in t.nodes
    ensures child !in t.nodes[n].children ==> r == t
    ensures r.nodes.Keys == t.nodes.Keys && r.nextId == t.nextId
    ensures child in t.nodes[n].children ==>
              && multiset(r.nodes[n].children) + multiset{child} == multiset(t.nodes[n].children)
              && (child in r.nodes ==> r.nodes[child].parent.None?)
    ensures forall id :: id in t.nodes && id != n && id != child ==> r.nodes[id] == t.nodes[id]
  {
    var cs := t.nodes[n].children;
    if child !in cs then t
    else
      var i := FirstIndex(cs, child);
      assert cs == cs[..i] + [child] + cs[i + 1..];
      var nodes := t.nodes[n := t.nodes[n].(children := cs[..i] + cs[i + 1..])];
      var nodes' := if child in nodes then nodes[child := nodes[child].(parent := None)] else nodes;
      Store(nodes', t.nextId)
  }

  /** The children that remain keep their order: they are the list with
      the first occurrence of `child` cut out. */
  lemma RemoveChildKeepsOrder(t: Store, n: NodeId, child: NodeId)
    requires n in t.nodes && child in t.nodes[n].children && n != child
    ensures var i := FirstIndex(t.nodes[n].children, child);
            RemoveChild(t, n, child).nodes[n].children == t.nodes[n].children[..i] + t.nodes[n].children[i + 1..]
  {
  }

  lemma RemoveChildKeepsWellFormed(t: Store, n: NodeId, child: NodeId)
    requires WellFormed(t) && n in t.nodes
    ensures WellFormed(RemoveChild(t, n, child))
    ensures child !in RemoveChild(t, n, child).nodes[n].children
  {
    var cs := t.nodes[n].children;
    if child in cs {
      var t2 := RemoveChild(t, n, child);
      assert NodeWellFormed(t, n);
      assert t.nodes[child].parent == Some(n);
      assert NodeWellFormed(t, child);
      RemoveChildLeavesRest(t, n, child);
      forall id | id in t2.nodes
        ensures NodeWellFormed(t2, id)
      {
        if id == child {
          RemoveChildKeepsChild(t, t2, n, child);
        } else if id != n {
          RemoveChildKeepsOther(t, t2, n, child, id);
        }
      }
    }
  }

  /** Cutting position `i` out of a list without duplicates removes that
      element and leaves a list without duplicates drawn from the old one. */
  lemma CutOut(cs: seq<NodeId>, i: nat)
    requires i < |cs| && NoDuplicates(cs)
    ensures NoDuplicates(cs[..i] + cs[i + 1..])
    ensures cs[i] !in cs[..i] + cs[i + 1..]
    ensures forall c :: c in cs[..i] + cs[i + 1..] ==> c in cs
  {
    var rest := cs[..i] + cs[i + 1..];
    forall j | 0 <= j < |rest|
      ensures rest[j] == cs[if j < i then j else j + 1]
    {
    }
    forall j, k | 0 <= j < k < |rest|
      ensures rest[j] != rest[k]
    {
      var j' := if j < i then j else j + 1;
      var k' := if k < i then k else k + 1;
      assert rest[j] == cs[j'] && rest[k] == cs[k'];
    }
  }

  /** What is left of the children after the cut: without `child`, without
      duplicates, and each linked back to the parent. */
  lemma RemoveChildLeavesRest(t: Store, n: NodeId, child: NodeId)
    requires WellFormed(t) && n in t.nodes && child in t.nodes[n].children
    ensures child != n
    ensures NodeWellFormed(RemoveChild(t, n, child), n)
    ensures child !in RemoveChild(t, n, child).nodes[n].children
  {
    assert NodeWellFormed(t, n);
    var cs := t.nodes[n].children;
    assert t.nodes[child].parent == Some(n);
    assert NodeWellFormed(t, child);
    var i := FirstIndex(cs, child);
    CutOut(cs, i);
    var rest := cs[..i] + cs[i + 1..];
    var t2 := RemoveChild(t, n, child);
    assert t2.nodes[n].children == rest;
    forall c | c in rest
      ensures c in t2.nodes && t2.nodes[c].parent == Some(n)
    {
      assert c in cs && c != child;
    }
  }

  lemma RemoveChildKeepsChild(t: Store, t2: Store, n: NodeId, child: NodeId)
    requires WellFormed(t) && n in t.nodes && child in t.nodes[n].children && child != n
    requires t2 == RemoveChild(t, n, child)
    ensures NodeWellFormed(t2, child)
  {
    assert NodeWellFormed(t, child);
    assert t.nodes[child].parent == Some(n);
    forall c | c in t.nodes[child].children
      ensures c != n && c != child && c in t2.nodes && t2.nodes[c].parent == Some(child)
    {
      assert t.nodes[c].parent == Some(child);
      assert NodeWellFormed(t, c);
    }
  }

  lemma RemoveChildKeepsOther(t: Store, t2: Store, n: NodeId, child: NodeId, id: NodeId)
    requires WellFormed(t) && n in t.nodes && child in t.nodes[n].children && child != n
    requires t2 == RemoveChild(t, n, child)
    requires id in t.nodes && id != n && id != child
    ensures NodeWellFormed(t2, id)
  {
    assert NodeWellFormed(t, id);
    assert t.nodes[child].parent == Some(n);
    forall c | c in t.nodes[id].children
      ensures c != child && c in t2.nodes && t2.nodes[c].parent == Some(id)
    {
      assert t.nodes[c].parent == Some(id);
    }
  }

  /** ResetForNewProcess: the committed URL becomes empty and the list of
      children is emptied. The source destroys the old children; here each
      old child loses its parent link and, with its own subtree, is no
      longer part of this node's tree. */
  function ResetForNewProcess(t: Store, n: NodeId): (r: Store)
    requires n in t.nodes
    ensures r.nodes.Keys == t.nodes.Keys && r.nextId == t.nextId
    ensures r.nodes[n].children == [] && r.nodes[n].currentUrl == ""
    ensures r.nodes[n].parent == t.nodes[n].parent && r.nodes[n].processId == t.nodes[n].processId
    ensures forall c :: c in t.nodes && c != n && c in t.nodes[n].children ==>
              r.nodes[c] == t.nodes[c].(parent := None)
    ensures forall id :: id in t.nodes && id != n && id !in t.nodes[n].children ==> r.nodes[id] == t.nodes[id]
  {
    var olds := t.nodes[n].children;
    var nodes := map id | id in t.nodes ::
      if id == n then t.nodes[n].(currentUrl := "", children := [])
      else if id in olds then t.nodes[id].(parent := None)
      else t.nodes[id];
    Store(nodes, t.nextId)
  }

  /** Resetting keeps the two-way links: no node is left naming `n` as its
      parent, and every old child heads a tree of its own. */
  lemma ResetKeepsWellFormed(t: Store, n: NodeId)
    requires WellFormed(t) && n in t.nodes
    ensures WellFormed(ResetForNewProcess(t, n))
    ensures forall id :: id in t.nodes ==> ResetForNewProcess(t, n).nodes[id].parent != Some(n)
  {
    var t2 := ResetForNewProcess(t, n);
    forall id | id in t2.nodes
      ensures NodeWellFormed(t2, id)
    {
      ResetKeepsNode(t, t2, n, id);
    }
    forall id | id in t.nodes
      ensures t2.nodes[id].parent != Some(n)
    {
      assert NodeWellFormed(t, id);
    }
  }

  lemma ResetKeepsNode(t: Store, t2: Store, n: NodeId, id: NodeId)
    requires WellFormed(t) && n in t.nodes && t2 == ResetForNewProcess(t, n) && id in t.nodes
    ensures NodeWellFormed(t2, id)
  {
    var olds := t.nodes[n].children;
    assert NodeWellFormed(t, id);
    assert NodeWellFormed(t, n);
    if t.nodes[id].parent.Some? {
      var p := t.nodes[id].parent.value;
      assert NodeWellFormed(t, p);
      if p in olds {
        assert t.nodes[p].parent == Some(n);
      }
    }
    forall c | c in t2.nodes[id].children
      ensures c in t2.nodes && t2.nodes[c].parent == Some(id)
    {
      assert t.nodes[c].parent == Some(id);
      assert NodeWellFormed(t, c);
    }
  }

  /** After a reset no old child lies below any node, so attaching new
      children to `n` later never brings an old child back under it. */
  lemma ResetDetachesOldChildren(t: Store, n: NodeId, c: NodeId, other: Option<NodeId>)
    requires WellFormed(t) && n in t.nodes && c in t.nodes[n].children
    requires other.Some? ==> other.value in t.nodes
    ensures WellFormed(ResetForNewProcess(t, n))
    ensures !DescendantOf(ResetForNewProcess(t, n), c, other)
  {
    ResetKeepsWellFormed(t, n);
    var t2 := ResetForNewProcess(t, n);
    assert NodeWellFormed(t, n);
    assert NodeWellFormed(t, c);
    assert Ancestor(t2, c, 1).None?;
    forall k: nat | 1 <= k
      ensures Ancestor(t2, c, k).None?
    {
      AncestorEnded(t2, c, 1, k);
    }
  }

  // ---------------------------------------------------------------------
  // IsDescendantOf

  /** The node `k` parent links above `id` (None once the chain ends). */
  function Ancestor(t: Store, id: NodeId, k: nat): (a: Option<NodeId>)
    requires WellFormed(t) && id in t.nodes
    ensures a.Some? ==> a.value in t.nodes && t.nodes[a.value].depth + k <= t.nodes[id].depth
  {
    if k == 0 then Some(id)
    else
      match Ancestor(t, id, k - 1)
      case None => None
      case Some(m) => t.nodes[m].parent
  }

  /** Once the parent chain has ended it stays ended. */
  lemma {:induction false} AncestorEnded(t: Store, id: NodeId, k: nat, j: nat)
    requires WellFormed(t) && id in t.nodes && k <= j && Ancestor(t, id, k).None?
    ensures Ancestor(t, id, j).None?
    decreases j - k
  {
    if k < j {
      AncestorEnded(t, id, k, j - 1);
    }
  }

  /** The reference meaning of IsDescendantOf: `other` is a node with
      children and appears on the parent chain strictly above `id`. */
  ghost predicate DescendantOf(t: Store, id: NodeId, other: Option<NodeId>)
    requires WellFormed(t) && id in t.nodes
    requires other.Some? ==> other.value in t.nodes
  {
    && other.Some? && |t.nodes[other.value].children| > 0
    && exists k: nat :: 1 <= k && Ancestor(t, id, k) == other
  }

  /** IsDescendantOf: false for NULL or a node without children, otherwise
      a walk up the parent chain from the node's parent. */
  method IsDescendantOf(t: Store, id: NodeId, other: Option<NodeId>) returns (r: bool)
    requires WellFormed(t) && id in t.nodes
    requires other.Some? ==> other.value in t.nodes
    ensures r <==> DescendantOf(t, id, other)
  {
    if other.None? || |t.nodes[other.value].children| == 0 {
      return false;
    }
    var node := t.nodes[id].parent;
    var k: nat := 1;
    while node.Some?
      invariant 1 <= k && node == Ancestor(t, id, k)
      invariant forall j: nat :: 1 <= j < k ==> Ancestor(t, id, j) != other
      decreases if node.Some? then t.nodes[node.value].depth + 1 else 0
    {
      if node == other {
        return true;
      }
      assert NodeWellFormed(t, node.value);
      node := t.nodes[node.value].parent;
      k := k + 1;
    }
    forall j: nat | k <= j
      ensures Ancestor(t, id, j) != other
    {
      AncestorEnded(t, id, k, j);
    }
    return false;
  }

  /** In a well-formed store no node is its own descendant. */
  lemma NeverOwnDescendant(t: Store, id: NodeId)
    requires WellFormed(t) && id in t.nodes
    ensures !DescendantOf(t, id, Some(id))
  {
  }

  /** A child just attached lies below its new parent. */
  lemma AddedChildIsDescendant(t: Store, n: NodeId, child: NodeId, processId: int)
    requires WellFormed(t) && n in t.nodes && child in t.nodes && Fresh(t, n, child)
    requires AddChild(t, n, child, processId).Ok?
    ensures WellFormed(AddChild(t, n, child, processId).value)
    ensures DescendantOf(AddChild(t, n, child, processId).value, child, Some(n))
  {
    AddChildKeepsWellFormed(t, n, child, processId);
    var t2 := AddChild(t, n, child, processId).value;
    assert Ancestor(t2, child, 1) == Some(n);
  }

  /** A removed child is below no node. */
  lemma RemovedChildIsDetached(t: Store, n: NodeId, child: NodeId, other: Option<NodeId>)
    requires WellFormed(t) && n in t.nodes && child in t.nodes[n].children
    requires other.Some? ==> other.value in t.nodes
    ensures WellFormed(RemoveChild(t, n, child))
    ensures !DescendantOf(RemoveChild(t, n, child), child, other)
  {
    RemoveChildKeepsWellFormed(t, n, child);
    var t2 := RemoveChild(t, n, child);
    assert Ancestor(t2, child, 1).None?;
    forall k: nat | 1 <= k
      ensures Ancestor(t2, child, k).None?
    {
      AncestorEnded(t2, child, 1, k);
    }
  }

  /** Attaching a fresh child and removing it again gives back the
      parent's children. */
  lemma AddRemoveRoundTrip(t: Store, n: NodeId, child: NodeId, processId: int)
    requires WellFormed(t) && n in t.nodes && child in t.nodes && Fresh(t, n, child)
    requires AddChild(t, n, child, processId).Ok?
    ensures RemoveChild(AddChild(t, n, child, processId).value, n, child).nodes[n].children
            == t.nodes[n].children
  {
    var cs := t.nodes[n].children;
    var t2 := AddChild(t, n, child, processId).value;
    assert NodeWellFormed(t, n);
    assert child !in cs;
    var i := FirstIndex(cs + [child], child);
    assert i == |cs|;
    assert (cs + [child])[..i] == cs;
  }
}

=== FILE: frames.dfy ===
/** Frame descriptions: the deoptimizer's picture of one stack frame, its
    fixed part, its incoming parameters and the byte offsets of its slots
    (FrameDescription and the frame-size arithmetic of Deoptimizer). */
module Frames {
  import opened Arch
  import opened Outcomes

  /** A tagged value. `Placeholder` is the small integer 0 that the
      deoptimizer writes where a heap number will be materialized later; the
      model keeps it apart from `Smi(0)` so that the bookkeeping of deferred
      heap numbers can be stated. */
  datatype Value =
    | Smi(n: int)
    | HeapNumber(num: real)
    | Object(id: nat)
    | Placeholder
    | ArgumentsMarker
    | TheHole

  /** The content of one stack slot or register: a tagged value, a raw
      machine integer, an unboxed double, or the low or high 32 bits of a
      double's bit pattern held in a word of their own. */
  datatype Cell =
    | Tagged(v: Value)
    | Raw(n: int)
    | Float(d: real)
    | LowerHalf(lower: real)
    | UpperHalf(upper: real)

  datatype FrameType = JAVA_SCRIPT | ARGUMENTS_ADAPTOR | STUB | CONSTRUCT | INTERNAL

  /** FrameDescription: the frame's type, the formal parameter count of its
      function, its size in bytes, its top address, its slots (one cell per
      pointer-sized word, offset 0 first) and its registers. */
  datatype FrameDescription = FrameDescription(
    frameType: FrameType,
    formalParameterCount: int,
    frameSize: int,
    top: int,
    slots: seq<Cell>,
    registers: seq<Cell>,
    doubleRegisters: seq<real>)

  /** StandardFrameConstants::kFixedFrameSize: return address, frame
      pointer, context and function. */
  function FixedFrameSize(a: Arch): nat {
    4 * PointerSize(a)
  }

  /** FrameDescription::ComputeParametersCount; None where the source has
      UNREACHABLE or the adaptor frame's count slot holds no small integer. */
  function ComputeParametersCount(f: FrameDescription): (r: Option<int>)
    ensures f.frameType == STUB ==> r == Some(-1)
    ensures f.frameType == JAVA_SCRIPT ==> r == Some(f.formalParameterCount)
    ensures f.frameType in {CONSTRUCT, INTERNAL} ==> r == None
    ensures f.frameType == ARGUMENTS_ADAPTOR ==>
              (r.Some? <==> |f.slots| > 0 && f.slots[0].Tagged? && f.slots[0].v.Smi?)
    ensures f.frameType == ARGUMENTS_ADAPTOR && r.Some? ==> r.value == f.slots[0].v.n
  {
    match f.frameType
    case JAVA_SCRIPT => Some(f.formalParameterCount)
    case ARGUMENTS_ADAPTOR =>
      if |f.slots| > 0 && f.slots[0].Tagged? && f.slots[0].v.Smi? then Some(f.slots[0].v.n)
      else None
    case STUB => Some(-1)
    case _ => None
  }

  /** The bytes taken by the receiver and `parameters` incoming arguments. */
  function ArgumentsSize(a: Arch, parameters: int): int {
    (parameters + 1) * PointerSize(a)
  }

  /** FrameDescription::ComputeFixedSize. */
  function FrameFixedSize(a: Arch, f: FrameDescription): (r: Option<int>)
    ensures r.Some? <==> ComputeParametersCount(f).Some?
  {
    match ComputeParametersCount(f)
    case None => None
    case Some(p) => Some(FixedFrameSize(a) + ArgumentsSize(a, p))
  }

  /** FrameDescription::GetOffsetFromSlotIndex: non-negative indexes name
      local and spill slots below the fixed part, negative indexes name
      incoming parameters. The arithmetic is unsigned 32-bit. */
  function GetOffsetFromSlotIndex(a: Arch, f: FrameDescription, slotIndex: int): (r: Option<int>)
    ensures r.Some? <==> ComputeParametersCount(f).Some?
    ensures r.Some? ==> IsUint32(r.value)
  {
    match ComputeParametersCount(f)
    case None => None
    case Some(p) =>
      var ptr := PointerSize(a);
      if slotIndex >= 0 then
        var base := Uint32Wrap(f.frameSize - (FixedFrameSize(a) + ArgumentsSize(a, p)));
        Some(Uint32Wrap(base - (slotIndex + 1) * ptr))
      else
        var base := Uint32Wrap(f.frameSize - ArgumentsSize(a, p));
        Some(Uint32Wrap(base - (slotIndex + 1) * ptr))
  }

  /** The frame is laid out sensibly: its parameter count is known, its
      size covers the fixed part and fits 32 bits, and it is a whole number
      of words. */
  predicate WellSized(a: Arch, f: FrameDescription) {
    && ComputeParametersCount(f).Some?
    && ComputeParametersCount(f).value >= -1
    && FixedFrameSize(a) + ArgumentsSize(a, ComputeParametersCount(f).value) <= f.frameSize < Two32
    && f.frameSize % PointerSize(a) == 0
  }

  /** Number of local and spill slots below the fixed part. */
  function LocalSlotCount(a: Arch, f: FrameDescription): int
    requires WellSized(a, f)
  {
    (f.frameSize - FixedFrameSize(a) - ArgumentsSize(a, ComputeParametersCount(f).value)) / PointerSize(a)
  }

  /** Slot indexes the frame actually has: the receiver and parameters
      (-p-1 .. -1) and the locals (0 .. LocalSlotCount-1). */
  predicate ValidSlotIndex(a: Arch, f: FrameDescription, slotIndex: int)
    requires WellSized(a, f)
  {
    -(ComputeParametersCount(f).value + 1) <= slotIndex < LocalSlotCount(a, f)
  }

  /** Where a valid slot lives: locals count down from just below the fixed
      part, parameters occupy the top `ArgumentsSize` bytes with the receiver
      highest; every offset is word aligned and inside the frame. */
  lemma SlotOffsetLayout(a: Arch, f: FrameDescription, slotIndex: int)
    requires WellSized(a, f) && ValidSlotIndex(a, f, slotIndex)
    ensures var p := ComputeParametersCount(f).value;
            var off := GetOffsetFromSlotIndex(a, f, slotIndex).value;
            && 0 <= off < f.frameSize
            && off % PointerSize(a) == 0
            && (slotIndex >= 0 ==>
                  off == f.frameSize - FixedFrameSize(a) - ArgumentsSize(a, p) - (slotIndex + 1) * PointerSize(a))
            && (slotIndex < 0 ==>
                  off == f.frameSize - ArgumentsSize(a, p) - (slotIndex + 1) * PointerSize(a)
                  && f.frameSize - ArgumentsSize(a, p) <= off)
  {
    if slotIndex >= 0 {
      LocalSlotOffset(a, f, slotIndex);
    } else {
      ParameterSlotOffset(a, f, slotIndex);
    }
  }

  lemma LocalSlotOffset(a: Arch, f: FrameDescription, slotIndex: int)
    requires WellSized(a, f) && 0 <= slotIndex < LocalSlotCount(a, f)
    ensures var p := ComputeParametersCount(f).value;
            var off := f.frameSize - FixedFrameSize(a) - ArgumentsSize(a, p) - (slotIndex + 1) * PointerSize(a);
            && GetOffsetFromSlotIndex(a, f, slotIndex) == Some(off)
            && 0 <= off < f.frameSize && off % PointerSize(a) == 0
  {
    var p := ComputeParametersCount(f).value;
    var ptr := PointerSize(a);
    AlignedMultiple(p + 1, ptr);
    AlignedMultiple(4, ptr);
    var fixedAll := FixedFrameSize(a) + ArgumentsSize(a, p);
    LocalOffset(f.frameSize, fixedAll, ptr, slotIndex);
  }

  lemma ParameterSlotOffset(a: Arch, f: FrameDescription, slotIndex: int)
    requires WellSized(a, f) && -(ComputeParametersCount(f).value + 1) <= slotIndex < 0
    ensures var p := ComputeParametersCount(f).value;
            var off := f.frameSize - ArgumentsSize(a, p) - (slotIndex + 1) * PointerSize(a);
            && GetOffsetFromSlotIndex(a, f, slotIndex) == Some(off)
            && f.frameSize - ArgumentsSize(a, p) <= off < f.frameSize && off % PointerSize(a) == 0
  {
    var p := ComputeParametersCount(f).value;
    var ptr := PointerSize(a);
    var q := -(slotIndex + 1);
    ParameterOffset(f.frameSize, p, ptr, q);
    assert q * ptr == -((slotIndex + 1) * ptr);
  }

  /** Local slot `s` sits `s + 1` words below the fixed part. */
  lemma LocalOffset(size: int, fixedAll: int, ptr: int, s: int)
    requires ptr == 4 || ptr == 8
    requires size % ptr == 0 && fixedAll % ptr == 0 && 0 <= fixedAll <= size < Two32
    requires 0 <= s < (size - fixedAll) / ptr
    ensures var off := size - fixedAll - (s + 1) * ptr;
            && Uint32Wrap(Uint32Wrap(size - fixedAll) - (s + 1) * ptr) == off
            && 0 <= off < size && off % ptr == 0
  {
    var base := size - fixedAll;
    AlignedDifference(size, fixedAll, ptr);
    MultipleBelow(s + 1, base / ptr, ptr, base);
    AlignedMultiple(s + 1, ptr);
    AlignedDifference(base, (s + 1) * ptr, ptr);
  }

  /** Parameter slot `-(q + 1)` sits `q` words above the bottom of the
      parameter area, which holds `p + 1` words. */
  lemma ParameterOffset(size: int, p: int, ptr: int, q: int)
    requires ptr == 4 || ptr == 8
    requires size % ptr == 0 && 0 <= (p + 1) * ptr <= size < Two32
    requires 0 <= q <= p
    ensures var off := size - (p + 1) * ptr + q * ptr;
            && Uint32Wrap(Uint32Wrap(size - (p + 1) * ptr) + q * ptr) == off
            && size - (p + 1) * ptr <= off < size && off % ptr == 0
  {
    var argSize := (p + 1) * ptr;
    AlignedMultiple(p + 1, ptr);
    AlignedDifference(size, argSize, ptr);
    AlignedMultiple(q, ptr);
    MulMonotone(q, p, ptr);
    assert q * ptr < argSize;
    AlignedSum(size - argSize, q * ptr, ptr);
  }

  lemma AlignedMultiple(m: int, d: int)
    requires d == 4 || d == 8
    ensures (m * d) % d == 0
  {
    if d == 4 { assert m * d == 4 * m; } else { assert m * d == 8 * m; }
  }

  lemma AlignedDifference(x: int, y: int, d: int)
    requires d == 4 || d == 8
    requires x % d == 0 && y % d == 0
    ensures (x - y) % d == 0
  {
  }

  lemma AlignedSum(x: int, y: int, d: int)
    requires d == 4 || d == 8
    requires x % d == 0 && y % d == 0
    ensures (x + y) % d == 0
  {
  }

  lemma MulMonotone(x: int, y: int, k: int)
    requires x <= y && k >= 0
    ensures x * k <= y * k
  {
  }

  /** A multiple of `d` that counts no more than `base / d` words stays
      within `base`. */
  lemma MultipleBelow(m: int, n: int, d: int, base: int)
    requires (d == 4 || d == 8) && base >= 0 && n == base / d && 0 <= m <= n
    ensures m * d <= base
  {
    MulMonotone(m, n, d);
  }

  /** Distinct slot indexes of a frame name distinct offsets. */
  lemma SlotOffsetsDistinct(a: Arch, f: FrameDescription, i: int, j: int)
    requires WellSized(a, f) && ValidSlotIndex(a, f, i) && ValidSlotIndex(a, f, j)
    requires i != j
    ensures GetOffsetFromSlotIndex(a, f, i) != GetOffsetFromSlotIndex(a, f, j)
  {
    SlotOffsetLayout(a, f, i);
    SlotOffsetLayout(a, f, j);
    var ptr := PointerSize(a);
    if i >= 0 && j >= 0 {
      assert (i + 1) * ptr != (j + 1) * ptr;
    } else if i < 0 && j < 0 {
      assert (i + 1) * ptr != (j + 1) * ptr;
    }
  }

  /** GetFrameSlot: the cell at a byte offset, if it is a word boundary
      inside the frame. */
  function FrameSlot(a: Arch, f: FrameDescription, offset: int): (r: Option<Cell>)
    ensures r.Some? <==> offset >= 0 && offset % PointerSize(a) == 0 && offset / PointerSize(a) < |f.slots|
  {
    if offset >= 0 && offset % PointerSize(a) == 0 && offset / PointerSize(a) < |f.slots| then
      Some(f.slots[offset / PointerSize(a)])
    else None
  }

  /** SetFrameSlot: only the addressed cell changes. */
  function SetFrameSlot(a: Arch, f: FrameDescription, offset: int, c: Cell): (g: FrameDescription)
    requires offset >= 0 && offset % PointerSize(a) == 0 && offset / PointerSize(a) < |f.slots|
    ensures FrameSlot(a, g, offset) == Some(c)
    ensures forall o :: o != offset ==> FrameSlot(a, g, o) == FrameSlot(a, f, o)
    ensures g.frameType == f.frameType && g.frameSize == f.frameSize && g.top == f.top
    ensures g.registers == f.registers && g.doubleRegisters == f.doubleRegisters
    ensures g.formalParameterCount == f.formalParameterCount && |g.slots| == |f.slots|
  {
    var g := f.(slots := f.slots[offset / PointerSize(a) := c]);
    forall o | o != offset
      ensures FrameSlot(a, g, o) == FrameSlot(a, f, o)
    {
      if o >= 0 && o % PointerSize(a) == 0 && offset % PointerSize(a) == 0 {
        DivInjective(o, offset, PointerSize(a));
      }
    }
    g
  }

  lemma DivInjective(x: int, y: int, d: int)
    requires d > 0 && x >= 0 && y >= 0 && x % d == 0 && y % d == 0 && x != y
    ensures x / d != y / d
  {
    assert x == d * (x / d);
    assert y == d * (y / d);
  }

  /** The function whose frame is being deoptimized: a real function with a
      formal parameter count, or the small-integer marker of a stub frame. */
  datatype FunctionRef = StubMarker | Function(formalParameterCount: int)

  /** Deoptimizer::ComputeIncomingArgumentSize. */
  function ComputeIncomingArgumentSize(a: Arch, fn: FunctionRef): (r: int)
    ensures IsUint32(r)
    ensures fn.StubMarker? ==> r == 0
  {
    match fn
    case StubMarker => 0
    case Function(n) => Uint32Wrap(ArgumentsSize(a, n))
  }

  /** Deoptimizer::ComputeFixedSize. */
  function ComputeFixedSize(a: Arch, fn: FunctionRef): (r: int)
    ensures IsUint32(r)
    ensures fn.StubMarker? ==> r == FixedFrameSize(a)
    ensures fn.Function? && 0 <= fn.formalParameterCount < 0x100_0000 ==>
              r == ArgumentsSize(a, fn.formalParameterCount) + FixedFrameSize(a)
  {
    Uint32Wrap(ComputeIncomingArgumentSize(a, fn) + FixedFrameSize(a))
  }

  /** Deoptimizer::ComputeInputFrameSize: the fixed part plus the distance
      from frame pointer to stack pointer, less the context and function
      already counted in that distance. */
  function ComputeInputFrameSize(a: Arch, fn: FunctionRef, fpToSpDelta: int): (r: int)
    ensures IsUint32(r)
  {
    Uint32Wrap(ComputeFixedSize(a, fn) + fpToSpDelta - 2 * PointerSize(a))
  }

  /** The deoptimizer's fixed size for a function agrees with the fixed size
      of a frame description of that function: a JavaScript frame with its
      formal parameter count, or a stub frame for the stub marker. */
  lemma FixedSizesAgree(a: Arch, fn: FunctionRef, f: FrameDescription)
    requires fn.Function? ==> f.frameType == JAVA_SCRIPT && f.formalParameterCount == fn.formalParameterCount
    requires fn.StubMarker? ==> f.frameType == STUB
    requires fn.Function? ==> 0 <= fn.formalParameterCount < 0x100_0000
    ensures FrameFixedSize(a, f) == Some(ComputeFixedSize(a, fn))
  {
  }

  /** For a function whose argument area fits, the input frame is exactly
      the incoming arguments, the fixed part and the fp-to-sp distance
      minus two words. */
  lemma InputFrameSizeBreakdown(a: Arch, fn: FunctionRef, fpToSpDelta: int)
    requires fn.Function? ==> 0 <= fn.formalParameterCount < 0x100_0000
    requires 2 * PointerSize(a) <= fpToSpDelta < 0x1000_0000
    ensures ComputeInputFrameSize(a, fn, fpToSpDelta)
            == (if fn.Function? then ArgumentsSize(a, fn.formalParameterCount) else 0)
               + FixedFrameSize(a) + fpToSpDelta - 2 * PointerSize(a)
  {
  }
}

=== FILE: ic_feedback.dfy ===
/** Type feedback of the operator ICs (ic.cc): the CompareIC states of each
    input and of the comparison, UnaryOpIC's operand type, and BinaryOpIC's
    input and result types. Each moves only upward in its lattice. */
module IcFeedback {
  import opened Arch

  // ---------------------------------------------------------------------
  // CompareIC

  /** CompareIC::State. */
  datatype CompareState = UNINITIALIZED | SMI | NUMBER | SYMBOL | STRING | OBJECT | KNOWN_OBJECT | GENERIC

  /** A compared value: its class, and a JSObject's map. */
  datatype CompareValue = CmpSmi | CmpHeapNumber | CmpSymbol | CmpString | CmpObject(mapId: int) | CmpUndefined
                        | CmpOther

  predicate IsNumber(v: CompareValue) { v == CmpSmi || v == CmpHeapNumber }

  /** Symbols are strings too. */
  predicate IsString(v: CompareValue) { v == CmpSymbol || v == CmpString }

  /** The comparison operators a CompareIC serves. */
  datatype CompareOp = EQ | EQ_STRICT | LT | GT | LTE | GTE

  predicate IsEqualityOp(op: CompareOp) { op == EQ || op == EQ_STRICT }

  predicate IsOrderedRelationalCompareOp(op: CompareOp) { !IsEqualityOp(op) }

  /** The partial order of compare states: UNINITIALIZED below everything,
      GENERIC above everything, and the chains SMI < NUMBER, SYMBOL <
      STRING, KNOWN_OBJECT < OBJECT. */
  predicate CompareAtMost(a: CompareState, b: CompareState) {
    || a == b || a == UNINITIALIZED || b == GENERIC
    || (a == SMI && b == NUMBER) || (a == SYMBOL && b == STRING) || (a == KNOWN_OBJECT && b == OBJECT)
  }

  lemma CompareAtMostTransitive(a: CompareState, b: CompareState, c: CompareState)
    requires CompareAtMost(a, b) && CompareAtMost(b, c)
    ensures CompareAtMost(a, c)
  {
  }

  /** The input state after seeing `v` (InputState for CompareIC). Its
      previous state is never KNOWN_OBJECT, which only the comparison as a
      whole takes. */
  function CompareInputState(previous: CompareState, v: CompareValue): (s: CompareState)
    requires previous != KNOWN_OBJECT
    ensures s != UNINITIALIZED && s != KNOWN_OBJECT
    ensures CompareAtMost(previous, s)
  {
    match previous
    case UNINITIALIZED =>
      if v == CmpSmi then SMI
      else if v == CmpHeapNumber then NUMBER
      else if v == CmpSymbol then SYMBOL
      else if v == CmpString then STRING
      else if v.CmpObject? then OBJECT
      else GENERIC
    case SMI => if v == CmpSmi then SMI else if v == CmpHeapNumber then NUMBER else GENERIC
    case NUMBER => if IsNumber(v) then NUMBER else GENERIC
    case SYMBOL => if v == CmpSymbol then SYMBOL else if v == CmpString then STRING else GENERIC
    case STRING => if IsString(v) then STRING else GENERIC
    case OBJECT => if v.CmpObject? then OBJECT else GENERIC
    case GENERIC => GENERIC
  }

  /** Seeing the same input again leaves its state where it is. */
  lemma CompareInputStateStable(previous: CompareState, v: CompareValue)
    requires previous != KNOWN_OBJECT
    ensures CompareInputState(CompareInputState(previous, v), v) == CompareInputState(previous, v)
  {
  }

  /** Whether a comparison state can be reached for `op`: only equality
      comparisons use SYMBOL, OBJECT and KNOWN_OBJECT. */
  predicate ReachableFor(op: CompareOp, s: CompareState) {
    IsEqualityOp(op) || s !in {SYMBOL, OBJECT, KNOWN_OBJECT}
  }

  /** CompareIC::TargetState. The source asserts that a SYMBOL or
      KNOWN_OBJECT comparison is an equality. A state reachable for `op`
      leads to another such state. */
  function TargetState(op: CompareOp, previous: CompareState, oldLeft: CompareState, oldRight: CompareState,
                       x: CompareValue, y: CompareValue): (s: CompareState)
    requires previous in {SYMBOL, KNOWN_OBJECT} ==> IsEqualityOp(op)
    ensures previous in {STRING, OBJECT, GENERIC} ==> s == GENERIC
    ensures previous == SMI ==> s in {NUMBER, GENERIC}
    ensures ReachableFor(op, previous) ==> ReachableFor(op, s)
    ensures CompareAtMost(previous, s)
  {
    match previous
    case UNINITIALIZED =>
      if x == CmpSmi && y == CmpSmi then SMI
      else if IsNumber(x) && IsNumber(y) then NUMBER
      else if IsOrderedRelationalCompareOp(op) && ((IsNumber(x) && y == CmpUndefined) || (IsNumber(y) && x == CmpUndefined))
      then NUMBER
      else if x == CmpSymbol && y == CmpSymbol then (if IsEqualityOp(op) then SYMBOL else STRING)
      else if IsString(x) && IsString(y) then STRING
      else if !IsEqualityOp(op) then GENERIC
      else if x.CmpObject? && y.CmpObject? then (if x.mapId == y.mapId then KNOWN_OBJECT else OBJECT)
      else GENERIC
    case SMI => if IsNumber(x) && IsNumber(y) then NUMBER else GENERIC
    case SYMBOL => if IsString(x) && IsString(y) then STRING else GENERIC
    case NUMBER =>
      if oldLeft == SMI && x == CmpHeapNumber then NUMBER
      else if oldRight == SMI && y == CmpHeapNumber then NUMBER
      else GENERIC
    case KNOWN_OBJECT => if x.CmpObject? && y.CmpObject? then OBJECT else GENERIC
    case STRING => GENERIC
    case OBJECT => GENERIC
    case GENERIC => GENERIC
  }

  /** From UNINITIALIZED, an ordered comparison never reaches SYMBOL,
      OBJECT or KNOWN_OBJECT; an equality comparison of two objects with
      the same map reaches KNOWN_OBJECT. */
  lemma OrderedCompareFromUninitialized(op: CompareOp, x: CompareValue, y: CompareValue)
    ensures !IsEqualityOp(op) ==> TargetState(op, UNINITIALIZED, UNINITIALIZED, UNINITIALIZED, x, y)
                                  !in {SYMBOL, OBJECT, KNOWN_OBJECT}
    ensures IsEqualityOp(op) && x.CmpObject? && y.CmpObject? && x.mapId == y.mapId ==>
              TargetState(op, UNINITIALIZED, UNINITIALIZED, UNINITIALIZED, x, y) == KNOWN_OBJECT
  {
  }

  /** A run of comparison misses, each starting where the last ended,
      never moves down and never leaves the states reachable for `op`. */
  function CompareRun(op: CompareOp, start: CompareState, left: CompareState, right: CompareState,
                      xs: seq<CompareValue>, ys: seq<CompareValue>): (s: (CompareState, CompareState, CompareState))
    requires |xs| == |ys| && ReachableFor(op, start) && left != KNOWN_OBJECT && right != KNOWN_OBJECT
    ensures CompareAtMost(start, s.0) && CompareAtMost(left, s.1) && CompareAtMost(right, s.2)
    ensures ReachableFor(op, s.0) && s.1 != KNOWN_OBJECT && s.2 != KNOWN_OBJECT
    decreases |xs|
  {
    if |xs| == 0 then (start, left, right)
    else
      var next := TargetState(op, start, left, right, xs[0], ys[0]);
      var r := CompareRun(op, next, CompareInputState(left, xs[0]), CompareInputState(right, ys[0]),
                          xs[1..], ys[1..]);
      CompareAtMostTransitive(start, next, r.0);
      CompareAtMostTransitive(left, CompareInputState(left, xs[0]), r.1);
      CompareAtMostTransitive(right, CompareInputState(right, ys[0]), r.2);
      r
  }

  // ---------------------------------------------------------------------
  // UnaryOpIC

  /** UnaryOpIC::TypeInfo, in its order. */
  datatype UnaryType = U_UNINITIALIZED | U_SMI | U_NUMBER | U_GENERIC

  function UnaryRank(t: UnaryType): nat {
    match t
    case U_UNINITIALIZED => 0
    case U_SMI => 1
    case U_NUMBER => 2
    case U_GENERIC => 3
  }

  /** The classes TypeInfo::TypeFromValue distinguishes for an operand. */
  datatype OperandClass = OperandSmi | OperandNumber | OperandOther

  /** UnaryOpIC::GetTypeInfo. */
  function UnaryGetTypeInfo(c: OperandClass): (t: UnaryType)
    ensures t != U_UNINITIALIZED
  {
    match c
    case OperandSmi => U_SMI
    case OperandNumber => U_NUMBER
    case OperandOther => U_GENERIC
  }

  /** UnaryOpIC::ComputeNewType: the first observation is taken as it is;
      after that the type strictly rises. The source never patches a
      GENERIC site. */
  function ComputeNewType(current: UnaryType, previous: UnaryType): (t: UnaryType)
    requires previous != U_GENERIC
    ensures previous == U_UNINITIALIZED ==> t == current
    ensures previous != U_UNINITIALIZED ==> UnaryRank(t) > UnaryRank(previous)
    ensures previous != U_UNINITIALIZED ==> UnaryRank(t) >= UnaryRank(current)
  {
    match previous
    case U_UNINITIALIZED => current
    case U_SMI => if current == U_GENERIC then U_GENERIC else U_NUMBER
    case U_NUMBER => U_GENERIC
  }

  /** The IC states the unary and binary feedback maps onto. */
  datatype IcState = IC_UNINITIALIZED | IC_MONOMORPHIC | IC_GENERIC

  /** UnaryOpIC::ToState. */
  function UnaryToState(t: UnaryType): (s: IcState)
    ensures s == IC_UNINITIALIZED <==> t == U_UNINITIALIZED
    ensures s == IC_GENERIC <==> t == U_GENERIC
  {
    match t
    case U_UNINITIALIZED => IC_UNINITIALIZED
    case U_SMI => IC_MONOMORPHIC
    case U_NUMBER => IC_MONOMORPHIC
    case U_GENERIC => IC_GENERIC
  }

  // ---------------------------------------------------------------------
  // BinaryOpIC

  /** BinaryOpIC::TypeInfo, in its order. */
  datatype BinaryType = B_UNINITIALIZED | B_SMI | B_INT32 | B_NUMBER | B_ODDBALL | B_STRING | B_GENERIC

  function BinaryRank(t: BinaryType): nat {
    match t
    case B_UNINITIALIZED => 0
    case B_SMI => 1
    case B_INT32 => 2
    case B_NUMBER => 3
    case B_ODDBALL => 4
    case B_STRING => 5
    case B_GENERIC => 6
  }

  function BinaryMax(a: BinaryType, b: BinaryType): (m: BinaryType)
    ensures BinaryRank(m) >= BinaryRank(a) && BinaryRank(m) >= BinaryRank(b)
    ensures m == a || m == b
  {
    if BinaryRank(a) >= BinaryRank(b) then a else b
  }

  /** The binary operators. */
  datatype BinaryOp = ADD | SUB | MUL | DIV | MOD | BIT_AND | BIT_OR | BIT_XOR | SAR | SHL | SHR

  predicate IsBitOp(op: BinaryOp) { op in {BIT_AND, BIT_OR, BIT_XOR, SAR, SHL, SHR} }

  /** The classes TypeInfo::TypeFromValue distinguishes for a binary
      operand: a Smi, a heap number holding an int32, another number, a
      string, undefined, anything else. */
  datatype BinaryValue = BinSmi | BinInt32 | BinNumber | BinString | BinUndefined | BinOther

  /** TypeInfoFromValue: with 32-bit Smis an int32 counts as a Smi;
      undefined counts as an int32 for bit operations and as an oddball
      otherwise. */
  function TypeInfoFromValue(a: Arch, v: BinaryValue, op: BinaryOp): (t: BinaryType)
    ensures t != B_UNINITIALIZED
    ensures t == B_STRING <==> v == BinString
  {
    match v
    case BinSmi => B_SMI
    case BinInt32 => if SmiValueSize(a) == 32 then B_SMI else B_INT32
    case BinNumber => B_NUMBER
    case BinString => B_STRING
    case BinUndefined =>
      if IsBitOp(op) then (if SmiValueSize(a) == 32 then B_SMI else B_INT32) else B_ODDBALL
    case BinOther => B_GENERIC
  }

  /** InputState for BinaryOpIC: a STRING input stays STRING only when the
      new input is a string, and goes GENERIC otherwise; any other type
      rises to the new one if that is higher. */
  function BinaryInputState(a: Arch, previous: BinaryType, v: BinaryValue, op: BinaryOp): (t: BinaryType)
    ensures BinaryRank(t) >= BinaryRank(previous)
    ensures previous == B_STRING ==> (t == B_STRING <==> v == BinString) && (t != B_STRING ==> t == B_GENERIC)
    ensures previous != B_STRING ==> t == BinaryMax(previous, TypeInfoFromValue(a, v, op))
  {
    var newType := TypeInfoFromValue(a, v, op);
    if previous == B_STRING then (if newType == B_STRING then newType else B_GENERIC)
    else BinaryMax(previous, newType)
  }

  /** BinaryOpIC::ToState. */
  function BinaryToState(t: BinaryType): (s: IcState)
    ensures s == IC_UNINITIALIZED <==> t == B_UNINITIALIZED
    ensures s == IC_GENERIC <==> t == B_GENERIC
  {
    match t
    case B_UNINITIALIZED => IC_UNINITIALIZED
    case B_GENERIC => IC_GENERIC
    case _ => IC_MONOMORPHIC
  }

  /** The new left, right and result types BinaryOp_Patch computes. */
  datatype BinaryFeedback = BinaryFeedback(left: BinaryType, right: BinaryType, result: BinaryType)

  /** BinaryOp_Patch's decision: each input's new type; STRING inputs go
      GENERIC except for ADD; two Smi inputs that missed overflowed (to a
      number for DIV, MUL, SHR or with 32-bit Smis, else to an int32); two
      unchanged int32 inputs that missed produced a number. */
  function BinaryOpPatch(a: Arch, op: BinaryOp, previousLeft: BinaryType, previousRight: BinaryType,
                         left: BinaryValue, right: BinaryValue): (f: BinaryFeedback)
    ensures BinaryRank(f.left) >= BinaryRank(previousLeft) && BinaryRank(f.right) >= BinaryRank(previousRight)
    ensures op != ADD ==> f.left != B_STRING && f.right != B_STRING
    ensures f.result in {B_UNINITIALIZED, B_INT32, B_NUMBER}
  {
    var newLeft0 := BinaryInputState(a, previousLeft, left, op);
    var newRight0 := BinaryInputState(a, previousRight, right, op);
    var (newLeft, newRight) :=
      if (newLeft0 == B_STRING || newRight0 == B_STRING) && op != ADD then (B_GENERIC, B_GENERIC)
      else (newLeft0, newRight0);
    var newOverall := BinaryMax(newLeft, newRight);
    var previousOverall := BinaryMax(previousLeft, previousRight);
    var result :=
      if newOverall == B_INT32 && previousOverall == B_INT32
         && newLeft == previousLeft && newRight == previousRight then B_NUMBER
      else if newOverall == B_SMI && previousOverall == B_SMI then
        (if op in {DIV, MUL, SHR} || SmiValueSize(a) == 32 then B_NUMBER else B_INT32)
      else B_UNINITIALIZED;
    BinaryFeedback(newLeft, newRight, result)
  }

  /** Seeing the same input again leaves its type where it is. */
  lemma BinaryInputStateStable(a: Arch, previous: BinaryType, v: BinaryValue, op: BinaryOp)
    ensures BinaryInputState(a, BinaryInputState(a, previous, v, op), v, op) == BinaryInputState(a, previous, v, op)
  {
  }

  /** With 32-bit Smis the int32 type is never produced from a value. */
  lemma NoInt32With32BitSmis(v: BinaryValue, op: BinaryOp)
    ensures TypeInfoFromValue(Arch64, v, op) != B_INT32
  {
  }
}

=== FILE: ic_keyed.dfy ===
/** Keyed element-stub selection (ic.cc): the list of receiver maps a call
    site has seen, and the choice between a monomorphic, a polymorphic and
    the generic stub for keyed loads (KeyedLoadIC::LoadElementStub) and
    keyed stores (KeyedStoreIC::StoreElementStub). The stub cache's
    Compute* generators are not modelled: a stub is named by what it was
    computed from. */
module IcKeyed {
  import opened Outcomes
  import opened IcTypes

  /** Facts defined outside ic.cc: the elements-kind lattice
      (IsMoreGeneralElementsKindTransition), kMaxKeyedPolymorphism, the
      factory's string map, and the maps GetElementsTransitionMap returns. */
  datatype Env = Env(moreGeneral: (ElementsKind, ElementsKind) -> bool, maxKeyedPolymorphism: nat,
                     stringMap: Map, transitionMapId: (int, ElementsKind) -> int)

  /** The call site's current target: its IC state, whether its code type
      is NORMAL, the maps embedded in it, whether it is the string stub, and
      whether its extra state allows JSArray growth. */
  datatype Target = Target(state: State, normalType: bool, embeddedMaps: seq<Map>, isStringStub: bool,
                           allowGrowth: bool)

  datatype LoadStub = LoadGeneric | LoadMonomorphic(elementMap: Map) | LoadPolymorphic(maps: seq<Map>)

  datatype StoreStub =
    | StoreGeneric(strict: bool)
    | StoreMonomorphic(elementMap: Map, kind: StubKind, strict: bool, grow: bool)
    | StorePolymorphic(maps: seq<Map>, grow: bool, strict: bool)

  /** UNREACHABLE() in the source. */
  datatype IcError = Unreachable

  predicate NoDuplicates<T(==)>(s: seq<T>) {
    forall i, j :: 0 <= i < j < |s| ==> s[i] != s[j]
  }

  /** AddOneReceiverMapIfMissing: reports false and keeps the list when the
      map is already in it; otherwise appends exactly that map. */
  function AddOneReceiverMapIfMissing(maps: seq<Map>, m: Map): (r: (bool, seq<Map>))
    ensures r.0 <==> m !in maps
    ensures !r.0 ==> r.1 == maps
    ensures r.0 ==> r.1 == maps + [m]
    ensures NoDuplicates(maps) ==> NoDuplicates(r.1)
  {
    if m in maps then (false, maps) else (true, maps + [m])
  }

  /** The embedded maps, each once, in first-seen order. */
  function DistinctMaps(ms: seq<Map>): (r: seq<Map>)
    ensures NoDuplicates(r)
    ensures forall m :: m in r <==> m in ms
  {
    if |ms| == 0 then []
    else
      var init := ms[..|ms| - 1];
      assert ms == init + [ms[|ms| - 1]];
      AddOneReceiverMapIfMissing(DistinctMaps(init), ms[|ms| - 1]).1
  }

  /** GetReceiverMapsForStub: a monomorphic stub's first map, a polymorphic
      stub's distinct maps, nothing for a megamorphic stub; the source
      does not expect any other state. */
  function GetReceiverMapsForStub(t: Target): (r: Result<seq<Map>, IcError>)
    ensures r.Ok? <==> t.state in {MONOMORPHIC, POLYMORPHIC, MEGAMORPHIC}
    ensures r.Ok? ==> NoDuplicates(r.value) && forall m :: m in r.value ==> m in t.embeddedMaps
    ensures r.Ok? && t.state == MONOMORPHIC ==> |r.value| <= 1
  {
    match t.state
    case MONOMORPHIC => Ok(if |t.embeddedMaps| > 0 then [t.embeddedMaps[0]] else [])
    case POLYMORPHIC => Ok(DistinctMaps(t.embeddedMaps))
    case MEGAMORPHIC => Ok([])
    case _ => Err(Unreachable)
  }

  /** The maps the site has seen before this miss: the string map for the
      string stub, else the maps harvested from the target. */
  function SeenMaps(env: Env, t: Target): Result<seq<Map>, IcError> {
    if t.isStringStub then Ok([env.stringMap]) else GetReceiverMapsForStub(t)
  }

  predicate Uninitialized(t: Target) {
    t.state == UNINITIALIZED || t.state == PREMONOMORPHIC
  }

  /** KeyedLoadIC::LoadElementStub. */
  function LoadElementStub(env: Env, t: Target, receiverMap: Map): (r: Result<LoadStub, IcError>)
    ensures !t.normalType ==> r == Ok(LoadGeneric)
    ensures t.normalType && Uninitialized(t) ==> r == Ok(LoadMonomorphic(receiverMap))
    ensures r.Ok? && r.value.LoadMonomorphic? ==> r.value.elementMap == receiverMap
    ensures r.Ok? && r.value.LoadPolymorphic? ==>
              && NoDuplicates(r.value.maps) && 2 <= |r.value.maps| <= env.maxKeyedPolymorphism
              && r.value.maps[|r.value.maps| - 1] == receiverMap
              && SeenMaps(env, t) == Ok(r.value.maps[..|r.value.maps| - 1])
  {
    if !t.normalType then Ok(LoadGeneric)
    else if Uninitialized(t) then Ok(LoadMonomorphic(receiverMap))
    else
      match SeenMaps(env, t)
      case Err(e) => Err(e)
      case Ok(seen) =>
        if !t.isStringStub && |seen| == 0 then Ok(LoadMonomorphic(receiverMap))
        else if t.state == MONOMORPHIC && env.moreGeneral(seen[0].kind, receiverMap.kind) then
          Ok(LoadMonomorphic(receiverMap))
        else if t.state == GENERIC then Err(Unreachable)
        else
          var (added, maps) := AddOneReceiverMapIfMissing(seen, receiverMap);
          if !added then Ok(LoadGeneric)
          else if |maps| > env.maxKeyedPolymorphism then Ok(LoadGeneric)
          else Ok(LoadPolymorphic(maps))
  }

  /** A site that has seen maps goes generic exactly when the receiver's
      map is among them or one more map would exceed the bound (outside the
      transitioned-receiver shortcut). */
  lemma LoadGoesGeneric(env: Env, t: Target, receiverMap: Map, seen: seq<Map>)
    requires t.normalType && t.state in {MONOMORPHIC, POLYMORPHIC, MEGAMORPHIC} && !t.isStringStub
    requires GetReceiverMapsForStub(t) == Ok(seen) && |seen| > 0
    requires t.state == MONOMORPHIC ==> !env.moreGeneral(seen[0].kind, receiverMap.kind)
    ensures LoadElementStub(env, t, receiverMap) == Ok(LoadGeneric)
            <==> receiverMap in seen || |seen| + 1 > env.maxKeyedPolymorphism
    ensures LoadElementStub(env, t, receiverMap) != Ok(LoadGeneric)
            ==> LoadElementStub(env, t, receiverMap) == Ok(LoadPolymorphic(seen + [receiverMap]))
  {
  }

  /** KeyedStoreIC::StoreElementStub. */
  function StoreElementStub(env: Env, t: Target, r: Receiver, stubKind: StubKind, strict: bool)
    : (s: Result<StoreStub, IcError>)
    ensures !t.normalType ==> s == Ok(StoreGeneric(strict))
    ensures s.Ok? && s.value.StoreMonomorphic? ==>
              !IsTransitionStubKind(s.value.kind) && s.value.kind.grow == stubKind.grow
              && s.value.grow == stubKind.grow && s.value.strict == strict
    ensures s.Ok? && s.value.StorePolymorphic? ==>
              && NoDuplicates(s.value.maps) && |s.value.maps| <= env.maxKeyedPolymorphism
              && r.receiverMap in s.value.maps
              && (s.value.grow <==> stubKind.grow || t.allowGrowth)
              && s.value.strict == strict
    ensures s.Ok? && s.value.StoreGeneric? ==> s.value.strict == strict
    ensures && t.normalType && t.state == MONOMORPHIC && IsTransitionStubKind(stubKind)
            && GetReceiverMapsForStub(t).Ok? && |GetReceiverMapsForStub(t).value| > 0
            && env.moreGeneral(GetReceiverMapsForStub(t).value[0].kind, r.receiverMap.kind)
            ==> (s.Err? <==> ComputeTransitionedMap(env.transitionMapId, r, stubKind) == r.receiverMap)
  {
    var growMode := IsGrowStubKind(stubKind);
    if !t.normalType then Ok(StoreGeneric(strict))
    else if Uninitialized(t) then
      var monomorphicMap := ComputeTransitionedMap(env.transitionMapId, r, stubKind);
      Ok(StoreMonomorphic(monomorphicMap, GetNoTransitionStubKind(stubKind), strict, growMode))
    else
      match GetReceiverMapsForStub(t)
      case Err(e) => Err(e)
      case Ok(seen) =>
        if |seen| == 0 then
          Ok(StoreMonomorphic(r.receiverMap, GetNoTransitionStubKind(stubKind), strict, growMode))
        else if t.state == MONOMORPHIC && IsTransitionStubKind(stubKind)
                && env.moreGeneral(seen[0].kind, r.receiverMap.kind) then
          var monomorphicMap := ComputeTransitionedMap(env.transitionMapId, r, stubKind);
          if monomorphicMap == r.receiverMap then Err(Unreachable)
          else Ok(StoreMonomorphic(monomorphicMap, GetNoTransitionStubKind(stubKind), strict, growMode))
        else if t.state == GENERIC then Err(Unreachable)
        else
          var (added1, maps1) := AddOneReceiverMapIfMissing(seen, r.receiverMap);
          var (added, maps) :=
            if IsTransitionStubKind(stubKind) then
              var (added2, maps2) :=
                AddOneReceiverMapIfMissing(maps1, ComputeTransitionedMap(env.transitionMapId, r, stubKind));
              (added1 || added2, maps2)
            else (added1, maps1);
          if !added then Ok(StoreGeneric(strict))
          else if |maps| > env.maxKeyedPolymorphism then Ok(StoreGeneric(strict))
          else Ok(StorePolymorphic(maps, growMode || t.allowGrowth, strict))
  }

  /** A transitioning store into a polymorphic site adds both the receiver's
      map and the map it transitions to. */
  lemma StorePolymorphicHoldsTransitionedMap(env: Env, t: Target, r: Receiver, stubKind: StubKind,
                                             strict: bool)
    requires IsTransitionStubKind(stubKind)
    requires StoreElementStub(env, t, r, stubKind, strict).Ok?
    requires StoreElementStub(env, t, r, stubKind, strict).value.StorePolymorphic?
    ensures ComputeTransitionedMap(env.transitionMapId, r, stubKind)
            in StoreElementStub(env, t, r, stubKind, strict).value.maps
  {
  }

  /** A store site that has seen maps goes generic when neither the
      receiver's map nor its transitioned map is new (outside the
      transitioned-receiver shortcut of a monomorphic site). */
  lemma StoreSameMapsGoGeneric(env: Env, t: Target, r: Receiver, stubKind: StubKind, strict: bool,
                               seen: seq<Map>)
    requires t.normalType && t.state in {MONOMORPHIC, POLYMORPHIC}
    requires GetReceiverMapsForStub(t) == Ok(seen) && |seen| > 0
    requires t.state == MONOMORPHIC && IsTransitionStubKind(stubKind)
             ==> !env.moreGeneral(seen[0].kind, r.receiverMap.kind)
    requires r.receiverMap in seen
    requires IsTransitionStubKind(stubKind) ==> ComputeTransitionedMap(env.transitionMapId, r, stubKind) in seen
    ensures StoreElementStub(env, t, r, stubKind, strict) == Ok(StoreGeneric(strict))
  {
  }

  /** A non-transitioning store into a site that has seen maps goes generic
      exactly when the receiver's map is among them or one more map would
      exceed the bound; otherwise the stub is polymorphic over the seen maps
      plus the receiver's map. */
  lemma StoreGoesGeneric(env: Env, t: Target, r: Receiver, stubKind: StubKind, strict: bool,
                         seen: seq<Map>)
    requires t.normalType && t.state in {MONOMORPHIC, POLYMORPHIC} && !IsTransitionStubKind(stubKind)
    requires GetReceiverMapsForStub(t) == Ok(seen) && |seen| > 0
    ensures StoreElementStub(env, t, r, stubKind, strict) == Ok(StoreGeneric(strict))
            <==> r.receiverMap in seen || |seen| + 1 > env.maxKeyedPolymorphism
    ensures StoreElementStub(env, t, r, stubKind, strict) != Ok(StoreGeneric(strict))
            ==> StoreElementStub(env, t, r, stubKind, strict)
                == Ok(StorePolymorphic(seen + [r.receiverMap], IsGrowStubKind(stubKind) || t.allowGrowth, strict))
  {
  }

  /** The maps a transitioning store adds to those already seen: the
      receiver's map and then the transitioned map, each only when new. */
  function NewStoreMaps(seen: seq<Map>, receiverMap: Map, transitioned: Map): (r: seq<Map>)
    ensures forall m :: m in r <==> (m in [receiverMap, transitioned] && m !in seen)
    ensures NoDuplicates(r)
  {
    var first := if receiverMap in seen then [] else [receiverMap];
    if transitioned in seen || transitioned == receiverMap then first else first + [transitioned]
  }

  /** A transitioning store into a site that has seen maps (outside the
      transitioned-receiver shortcut) goes generic exactly when neither the
      receiver's map nor its transitioned map is new, or the new maps would
      push the list past the bound; otherwise the stub is polymorphic over
      the seen maps followed by the new ones. */
  lemma TransitioningStoreGoesGeneric(env: Env, t: Target, r: Receiver, stubKind: StubKind,
                                      strict: bool, seen: seq<Map>)
    requires t.normalType && t.state in {MONOMORPHIC, POLYMORPHIC} && IsTransitionStubKind(stubKind)
    requires GetReceiverMapsForStub(t) == Ok(seen) && |seen| > 0
    requires t.state == MONOMORPHIC ==> !env.moreGeneral(seen[0].kind, r.receiverMap.kind)
    ensures var added := NewStoreMaps(seen, r.receiverMap, ComputeTransitionedMap(env.transitionMapId, r, stubKind));
            && (StoreElementStub(env, t, r, stubKind, strict) == Ok(StoreGeneric(strict))
                <==> |added| == 0 || |seen| + |added| > env.maxKeyedPolymorphism)
            && (StoreElementStub(env, t, r, stubKind, strict) != Ok(StoreGeneric(strict))
                ==> StoreElementStub(env, t, r, stubKind, strict)
                    == Ok(StorePolymorphic(seen + added, IsGrowStubKind(stubKind) || t.allowGrowth, strict)))
  {
    var tm := ComputeTransitionedMap(env.transitionMapId, r, stubKind);
    var maps1 := AddOneReceiverMapIfMissing(seen, r.receiverMap).1;
    var maps2 := AddOneReceiverMapIfMissing(maps1, tm).1;
    if r.receiverMap in seen {
      assert maps1 == seen;
    } else if tm in seen || tm == r.receiverMap {
      assert tm in maps1;
    } else {
      assert tm !in maps1;
      assert maps2 == seen + [r.receiverMap] + [tm];
    }
    assert maps2 == seen + NewStoreMaps(seen, r.receiverMap, tm);
  }
}

=== FILE: ic_patch.dfy ===
/** Call-site state and patching (ic.cc): the state an IC miss starts from
    (IC::StateFrom), how the call site's target and the global stub cache
    change on a miss (IC::PatchCache), the change in a function's count of
    ICs with type information (ComputeTypeInfoCountDelta), and which
    targets clearing resets (IC::Clear and the per-kind Clear functions). */
module IcPatch {
  import opened Outcomes
  import opened IcTypes

  /** Code::Kind, for the IC kinds. */
  datatype CodeKind =
    | LOAD_IC | KEYED_LOAD_IC | STORE_IC | KEYED_STORE_IC | CALL_IC | KEYED_CALL_IC
    | COMPARE_IC | UNARY_OP_IC | BINARY_OP_IC | TO_BOOLEAN_IC | FUNCTION

  /** A code object: its identity, IC state and kind, and the first map
      embedded in it (Code::FindFirstMap). */
  datatype Code = Code(id: int, state: State, kind: CodeKind, firstMap: Option<int>)

  /** What StateFrom learns about the receiver. */
  datatype ReceiverFacts = Undefined | Null | BuiltinsObject | OtherReceiver

  /** IC::StateFrom. `prototypeStubInvalid` is the answer of
      TryRemoveInvalidPrototypeDependentStub, which inspects the heap. */
  function StateFrom(target: Code, receiver: ReceiverFacts, nameIsString: bool,
                     prototypeStubInvalid: bool): (s: State)
    ensures target.state != MONOMORPHIC ==> s == target.state
    ensures target.state == MONOMORPHIC ==> s in {MONOMORPHIC, MONOMORPHIC_PROTOTYPE_FAILURE, UNINITIALIZED}
    ensures target.state == MONOMORPHIC && s == MONOMORPHIC_PROTOTYPE_FAILURE ==>
              target.kind !in {KEYED_LOAD_IC, KEYED_STORE_IC, KEYED_CALL_IC, CALL_IC}
              && prototypeStubInvalid
    ensures target.state == MONOMORPHIC && s == UNINITIALIZED ==> receiver == BuiltinsObject
  {
    var state := target.state;
    if state != MONOMORPHIC || !nameIsString then state
    else if receiver == Undefined || receiver == Null then state
    else if target.kind in {KEYED_LOAD_IC, KEYED_STORE_IC, KEYED_CALL_IC} then MONOMORPHIC
    else if target.kind != CALL_IC && prototypeStubInvalid then MONOMORPHIC_PROTOTYPE_FAILURE
    else if receiver == BuiltinsObject then UNINITIALIZED
    else MONOMORPHIC
  }

  // ---------------------------------------------------------------------
  // PatchCache

  /** A property name. */
  type Name = seq<char>

  /** The megamorphic stub cache: (name, map id) to code id. */
  type StubCache = map<(Name, int), int>

  /** The call site's target and the stub cache shared by all sites. */
  datatype Site = Site(target: Code, cache: StubCache)

  /** The megamorphic and generic stubs, in their sloppy and strict forms. */
  datatype SharedStubs = SharedStubs(megamorphic: Code, megamorphicStrict: Code, generic: Code, genericStrict: Code)

  /** IC::UpdateMegamorphicCache. */
  function UpdateMegamorphicCache(cache: StubCache, mapId: int, name: Name, code: Code): (c: StubCache)
    ensures (name, mapId) in c && c[(name, mapId)] == code.id
    ensures forall k :: k != (name, mapId) ==> (k in c <==> k in cache)
    ensures forall k :: k != (name, mapId) && k in cache ==> c[k] == cache[k]
  {
    cache[(name, mapId) := code.id]
  }

  /** IC::PatchCache for a miss in `state` on a receiver whose map is
      `receiverMap`, with `code` the stub compiled for it. */
  function PatchCache(stubs: SharedStubs, site: Site, state: State, strict: bool, receiverMap: int, name: Name,
                      code: Code): (r: Result<Site, IcError>)
    ensures r.Err? <==> state == GENERIC
    ensures state in {UNINITIALIZED, PREMONOMORPHIC, MONOMORPHIC_PROTOTYPE_FAILURE} ==>
              r == Ok(Site(code, site.cache))
    ensures state == MONOMORPHIC && site.target == code ==> r == Ok(site)
    ensures state == MEGAMORPHIC ==> r.Ok? && r.value.target == site.target
    ensures state == POLYMORPHIC ==>
              r == Ok(Site(if strict then stubs.genericStrict else stubs.generic, site.cache))
    ensures state == DEBUG_STUB ==> r == Ok(site)
    ensures state in {MONOMORPHIC, MEGAMORPHIC} && r.Ok? && r.value != site ==>
              (name, receiverMap) in r.value.cache && r.value.cache[(name, receiverMap)] == code.id
  {
    match state
    case UNINITIALIZED => Ok(Site(code, site.cache))
    case PREMONOMORPHIC => Ok(Site(code, site.cache))
    case MONOMORPHIC_PROTOTYPE_FAILURE => Ok(Site(code, site.cache))
    case MONOMORPHIC =>
      if site.target == code then Ok(site)
      else
        var cache1 := match site.target.firstMap
          case None => site.cache
          case Some(m) => UpdateMegamorphicCache(site.cache, m, name, site.target);
        var cache2 := UpdateMegamorphicCache(cache1, receiverMap, name, code);
        Ok(Site(if strict then stubs.megamorphicStrict else stubs.megamorphic, cache2))
    case MEGAMORPHIC => Ok(Site(site.target, UpdateMegamorphicCache(site.cache, receiverMap, name, code)))
    case POLYMORPHIC => Ok(Site(if strict then stubs.genericStrict else stubs.generic, site.cache))
    case DEBUG_STUB => Ok(site)
    case GENERIC => Err(Unreachable)
  }

  /** UNREACHABLE() in the source. */
  datatype IcError = Unreachable

  /** Looking a name and map up in the stub cache. */
  function Probe(cache: StubCache, name: Name, mapId: int): Option<int> {
    if (name, mapId) in cache then Some(cache[(name, mapId)]) else None
  }

  /** Leaving the monomorphic state: the old target stays reachable through
      the stub cache under its first map (unless that is the receiver's
      map), the new code under the receiver's map, the site goes
      megamorphic, and no other cache entry changes. */
  lemma MonomorphicToMegamorphic(stubs: SharedStubs, site: Site, strict: bool, receiverMap: int, name: Name,
                                 code: Code, otherName: Name, otherMap: int)
    requires site.target != code
    requires (otherName, otherMap) != (name, receiverMap)
    requires site.target.firstMap.Some? ==> (otherName, otherMap) != (name, site.target.firstMap.value)
    ensures var r := PatchCache(stubs, site, MONOMORPHIC, strict, receiverMap, name, code);
            && r.Ok?
            && r.value.target == (if strict then stubs.megamorphicStrict else stubs.megamorphic)
            && Probe(r.value.cache, name, receiverMap) == Some(code.id)
            && (site.target.firstMap.Some? && site.target.firstMap.value != receiverMap ==>
                  Probe(r.value.cache, name, site.target.firstMap.value) == Some(site.target.id))
            && Probe(r.value.cache, otherName, otherMap) == Probe(site.cache, otherName, otherMap)
  {
  }

  /** In the megamorphic state only the stub cache changes, and only at the
      receiver's map under this name. */
  lemma MegamorphicOnlyUpdatesCache(stubs: SharedStubs, site: Site, strict: bool, receiverMap: int, name: Name,
                                    code: Code, otherName: Name, otherMap: int)
    requires (otherName, otherMap) != (name, receiverMap)
    ensures var r := PatchCache(stubs, site, MEGAMORPHIC, strict, receiverMap, name, code);
            && r.Ok? && r.value.target == site.target
            && Probe(r.value.cache, name, receiverMap) == Some(code.id)
            && Probe(r.value.cache, otherName, otherMap) == Probe(site.cache, otherName, otherMap)
  {
  }

  // ---------------------------------------------------------------------
  // Type-information count

  /** Whether an IC in this state counts as carrying type information. */
  predicate HasTypeInfo(s: State) {
    s != UNINITIALIZED && s != PREMONOMORPHIC
  }

  function Indicator(s: State): int {
    if HasTypeInfo(s) then 1 else 0
  }

  /** ComputeTypeInfoCountDelta: +1 when an IC gains type information, -1
      when it loses it, 0 otherwise. */
  function ComputeTypeInfoCountDelta(oldState: State, newState: State): (d: int)
    ensures d == Indicator(newState) - Indicator(oldState)
  {
    var wasUninitialized := oldState == UNINITIALIZED || oldState == PREMONOMORPHIC;
    var isUninitialized := newState == UNINITIALIZED || newState == PREMONOMORPHIC;
    if wasUninitialized && !isUninitialized then 1
    else if !wasUninitialized && isUninitialized then -1
    else 0
  }

  /** The deltas of one IC's successive patches. */
  function DeltaSum(states: seq<State>): int
    requires |states| > 0
  {
    if |states| == 1 then 0
    else DeltaSum(states[..|states| - 1]) + ComputeTypeInfoCountDelta(states[|states| - 2], states[|states| - 1])
  }

  /** Over any sequence of patches the deltas add up to whether the IC
      carries type information at the end less whether it did at the start:
      the count PostPatching keeps is exact and never goes negative. */
  lemma {:induction false} DeltaSumTelescopes(states: seq<State>)
    requires |states| > 0
    ensures DeltaSum(states) == Indicator(states[|states| - 1]) - Indicator(states[0])
    ensures Indicator(states[0]) + DeltaSum(states) >= 0
  {
    if |states| > 1 {
      DeltaSumTelescopes(states[..|states| - 1]);
    }
  }

  // ---------------------------------------------------------------------
  // Clear

  /** The stub a cleared site is reset to. */
  datatype InitialStub = Initialize | InitializeStrict | CallInitialize | CompareUninitialized

  /** What IC::Clear does to a site. */
  datatype ClearOutcome = Unchanged | ResetTo(stub: InitialStub)

  /** IC::Clear and the per-kind Clear functions: debug-break targets and
      uninitialized targets are kept, compare ICs are reset only when their
      handler holds a known map, unary, binary and to-boolean ICs are never
      reset; other kinds are not expected. `knownObjectHandler` tells
      whether a compare IC's handler state is KNOWN_OBJECT. */
  function Clear(target: Code, isDebugBreak: bool, strict: bool, knownObjectHandler: bool)
    : (r: Result<ClearOutcome, IcError>)
    ensures isDebugBreak ==> r == Ok(Unchanged)
    ensures target.state == UNINITIALIZED && target.kind != COMPARE_IC && r.Ok? ==> r.value == Unchanged
    ensures target.kind in {UNARY_OP_IC, BINARY_OP_IC, TO_BOOLEAN_IC} ==> r == Ok(Unchanged)
    ensures target.kind == COMPARE_IC && !isDebugBreak ==>
              r == Ok(if knownObjectHandler then ResetTo(CompareUninitialized) else Unchanged)
    ensures r.Err? <==> !isDebugBreak && target.kind == FUNCTION
  {
    if isDebugBreak then Ok(Unchanged)
    else
      match target.kind
      case LOAD_IC => Ok(if target.state == UNINITIALIZED then Unchanged else ResetTo(Initialize))
      case KEYED_LOAD_IC => Ok(if target.state == UNINITIALIZED then Unchanged else ResetTo(Initialize))
      case STORE_IC =>
        Ok(if target.state == UNINITIALIZED then Unchanged
           else ResetTo(if strict then InitializeStrict else Initialize))
      case KEYED_STORE_IC =>
        Ok(if target.state == UNINITIALIZED then Unchanged
           else ResetTo(if strict then InitializeStrict else Initialize))
      case CALL_IC => Ok(if target.state == UNINITIALIZED then Unchanged else ResetTo(CallInitialize))
      case KEYED_CALL_IC => Ok(if target.state == UNINITIALIZED then Unchanged else ResetTo(CallInitialize))
      case COMPARE_IC => Ok(if knownObjectHandler then ResetTo(CompareUninitialized) else Unchanged)
      case UNARY_OP_IC => Ok(Unchanged)
      case BINARY_OP_IC => Ok(Unchanged)
      case TO_BOOLEAN_IC => Ok(Unchanged)
      case FUNCTION => Err(Unreachable)
  }

  /** The code a reset installs: an uninitialized stub of the same kind
      (a compare IC's raw uninitialized stub has no known map). */
  function InitialCode(target: Code, id: int): Code {
    Code(id, UNINITIALIZED, target.kind, None)
  }

  /** Clearing is idempotent: clearing a site again right after a clear
      leaves it as it is. */
  lemma ClearIdempotent(target: Code, strict: bool, knownObjectHandler: bool, id: int)
    requires Clear(target, false, strict, knownObjectHandler).Ok?
    requires Clear(target, false, strict, knownObjectHandler).value.ResetTo?
    ensures Clear(InitialCode(target, id), false, strict, false) == Ok(Unchanged)
  {
  }
}

=== FILE: ic_types.dfy ===
/** Shared vocabulary of the inline caches (ic.cc): IC states, elements
    kinds, maps, and the keyed-store stub kinds with the decision that picks
    one (KeyedStoreIC::GetStubKind) and the map it transitions the receiver
    to (KeyedStoreIC::ComputeTransitionedMap). The heap is opaque: a
    receiver, key or value is the handful of facts these functions test. */
module IcTypes {
  import opened Outcomes

  /** InlineCacheState. */
  datatype State =
    | UNINITIALIZED | PREMONOMORPHIC | MONOMORPHIC | MONOMORPHIC_PROTOTYPE_FAILURE
    | POLYMORPHIC | MEGAMORPHIC | GENERIC | DEBUG_STUB

  /** The elements kinds: the six fast kinds, and the rest (dictionary and
      external-array kinds) which the keyed-store decision treats alike. */
  datatype ElementsKind =
    | FAST_SMI_ELEMENTS | FAST_HOLEY_SMI_ELEMENTS
    | FAST_ELEMENTS | FAST_HOLEY_ELEMENTS
    | FAST_DOUBLE_ELEMENTS | FAST_HOLEY_DOUBLE_ELEMENTS
    | DICTIONARY_ELEMENTS | EXTERNAL_ELEMENTS

  predicate HasFastSmiElements(k: ElementsKind) {
    k == FAST_SMI_ELEMENTS || k == FAST_HOLEY_SMI_ELEMENTS
  }

  predicate HasFastDoubleElements(k: ElementsKind) {
    k == FAST_DOUBLE_ELEMENTS || k == FAST_HOLEY_DOUBLE_ELEMENTS
  }

  predicate HasFastObjectElements(k: ElementsKind) {
    k == FAST_ELEMENTS || k == FAST_HOLEY_ELEMENTS
  }

  predicate HasFastHoleyElements(k: ElementsKind) {
    k == FAST_HOLEY_SMI_ELEMENTS || k == FAST_HOLEY_ELEMENTS || k == FAST_HOLEY_DOUBLE_ELEMENTS
  }

  predicate IsFastElementsKind(k: ElementsKind) {
    HasFastSmiElements(k) || HasFastDoubleElements(k) || HasFastObjectElements(k)
  }

  /** A hidden class: its identity and the elements kind it describes. */
  datatype Map = Map(id: int, kind: ElementsKind)

  /** The receiver of a keyed store: its map, whether it is a JSArray, and
      its length when that is a Smi (None when the length is a heap
      number). */
  datatype Receiver = Receiver(receiverMap: Map, isJSArray: bool, smiLength: Option<int>)

  /** The stored value, as far as the stub-kind decision looks at it. */
  datatype StoredValue = SmiValue | HeapNumberValue | OtherHeapObject

  /** The elements-kind transition a keyed-store stub performs. */
  datatype Transition =
    | NO_TRANSITION
    | SMI_TO_OBJECT | SMI_TO_DOUBLE | DOUBLE_TO_OBJECT
    | HOLEY_SMI_TO_OBJECT | HOLEY_SMI_TO_DOUBLE | HOLEY_DOUBLE_TO_OBJECT

  /** KeyedStoreIC::StubKind: STORE_<transition> or
      STORE_AND_GROW_<transition>. */
  datatype StubKind = StubKind(grow: bool, transition: Transition)

  predicate IsGrowStubKind(k: StubKind) { k.grow }

  predicate IsTransitionStubKind(k: StubKind) { k.transition != NO_TRANSITION }

  function GetNoTransitionStubKind(k: StubKind): (r: StubKind)
    ensures r.grow == k.grow && !IsTransitionStubKind(r)
  {
    StubKind(k.grow, NO_TRANSITION)
  }

  predicate IsHoleyTransition(t: Transition) {
    t == HOLEY_SMI_TO_OBJECT || t == HOLEY_SMI_TO_DOUBLE || t == HOLEY_DOUBLE_TO_OBJECT
  }

  predicate IsSmiTransition(t: Transition) {
    t == SMI_TO_OBJECT || t == SMI_TO_DOUBLE || t == HOLEY_SMI_TO_OBJECT || t == HOLEY_SMI_TO_DOUBLE
  }

  /** Whether the store may grow the array: a JSArray with a Smi length and
      an index at or past it. */
  predicate AllowGrowth(r: Receiver, index: int) {
    r.isJSArray && r.smiLength.Some? && index >= r.smiLength.value
  }

  /** The transition a store needs, the same whether or not it grows. */
  function TransitionFor(kind: ElementsKind, value: StoredValue): Transition {
    if HasFastSmiElements(kind) then
      if value == HeapNumberValue then
        if HasFastHoleyElements(kind) then HOLEY_SMI_TO_DOUBLE else SMI_TO_DOUBLE
      else if value == OtherHeapObject then
        if HasFastHoleyElements(kind) then HOLEY_SMI_TO_OBJECT else SMI_TO_OBJECT
      else NO_TRANSITION
    else if HasFastDoubleElements(kind) then
      if value == OtherHeapObject then
        if HasFastHoleyElements(kind) then HOLEY_DOUBLE_TO_OBJECT else DOUBLE_TO_OBJECT
      else NO_TRANSITION
    else NO_TRANSITION
  }

  /** KeyedStoreIC::GetStubKind for a Smi key `index`. The grow flag is
      set exactly when growth is allowed; a Smi value never transitions, a
      double receiver never gets a SMI_TO_* kind, an object (or non-fast)
      receiver never transitions, and holey transitions are for holey
      receivers only. */
  function GetStubKind(r: Receiver, index: int, value: StoredValue): (k: StubKind)
    ensures k.grow <==> AllowGrowth(r, index)
    ensures value == SmiValue ==> k.transition == NO_TRANSITION
    ensures HasFastDoubleElements(r.receiverMap.kind) ==> !IsSmiTransition(k.transition)
    ensures !HasFastSmiElements(r.receiverMap.kind) && !HasFastDoubleElements(r.receiverMap.kind) ==> k.transition == NO_TRANSITION
    ensures IsHoleyTransition(k.transition) ==> HasFastHoleyElements(r.receiverMap.kind)
    ensures IsTransitionStubKind(k) && !IsHoleyTransition(k.transition) ==> !HasFastHoleyElements(r.receiverMap.kind)
  {
    StubKind(AllowGrowth(r, index), TransitionFor(r.receiverMap.kind, value))
  }

  /** JSObject::GetElementsTransitionMap is not part of this model: the map
      it returns is named by `transitionMapId` and has the requested kind. */
  function ElementsTransitionMap(transitionMapId: (int, ElementsKind) -> int, m: Map, kind: ElementsKind): (r: Map)
    ensures r.kind == kind
  {
    Map(transitionMapId(m.id, kind), kind)
  }

  /** KeyedStoreIC::ComputeTransitionedMap: *_TO_OBJECT gives object
      elements, *_TO_DOUBLE double elements, keeping the holeyness the stub
      kind names; a NO_TRANSITION kind keeps the receiver's own map. */
  function ComputeTransitionedMap(transitionMapId: (int, ElementsKind) -> int, r: Receiver, k: StubKind)
    : (m: Map)
    ensures !IsTransitionStubKind(k) ==> m == r.receiverMap
    ensures k.transition in {SMI_TO_OBJECT, DOUBLE_TO_OBJECT} ==> m.kind == FAST_ELEMENTS
    ensures k.transition in {HOLEY_SMI_TO_OBJECT, HOLEY_DOUBLE_TO_OBJECT} ==> m.kind == FAST_HOLEY_ELEMENTS
    ensures k.transition == SMI_TO_DOUBLE ==> m.kind == FAST_DOUBLE_ELEMENTS
    ensures k.transition == HOLEY_SMI_TO_DOUBLE ==> m.kind == FAST_HOLEY_DOUBLE_ELEMENTS
  {
    match k.transition
    case SMI_TO_OBJECT => ElementsTransitionMap(transitionMapId, r.receiverMap, FAST_ELEMENTS)
    case DOUBLE_TO_OBJECT => ElementsTransitionMap(transitionMapId, r.receiverMap, FAST_ELEMENTS)
    case SMI_TO_DOUBLE => ElementsTransitionMap(transitionMapId, r.receiverMap, FAST_DOUBLE_ELEMENTS)
    case HOLEY_SMI_TO_OBJECT => ElementsTransitionMap(transitionMapId, r.receiverMap, FAST_HOLEY_ELEMENTS)
    case HOLEY_DOUBLE_TO_OBJECT => ElementsTransitionMap(transitionMapId, r.receiverMap, FAST_HOLEY_ELEMENTS)
    case HOLEY_SMI_TO_DOUBLE => ElementsTransitionMap(transitionMapId, r.receiverMap, FAST_HOLEY_DOUBLE_ELEMENTS)
    case NO_TRANSITION => r.receiverMap
  }

  // ---------------------------------------------------------------------
  // Reference definition: the most specific fast kind that holds both the
  // receiver's elements and the stored value.

  /** What a fast kind's elements may hold: Smis, numbers, or anything. */
  datatype Contents = SMIS | DOUBLES | OBJECTS

  function ContentsRank(c: Contents): nat {
    match c
    case SMIS => 0
    case DOUBLES => 1
    case OBJECTS => 2
  }

  function KindContents(k: ElementsKind): Contents
    requires IsFastElementsKind(k)
  {
    if HasFastSmiElements(k) then SMIS else if HasFastDoubleElements(k) then DOUBLES else OBJECTS
  }

  function ValueContents(v: StoredValue): Contents {
    match v
    case SmiValue => SMIS
    case HeapNumberValue => DOUBLES
    case OtherHeapObject => OBJECTS
  }

  function FastKind(c: Contents, holey: bool): (k: ElementsKind)
    ensures IsFastElementsKind(k) && KindContents(k) == c && (HasFastHoleyElements(k) <==> holey)
  {
    match c
    case SMIS => if holey then FAST_HOLEY_SMI_ELEMENTS else FAST_SMI_ELEMENTS
    case DOUBLES => if holey then FAST_HOLEY_DOUBLE_ELEMENTS else FAST_DOUBLE_ELEMENTS
    case OBJECTS => if holey then FAST_HOLEY_ELEMENTS else FAST_ELEMENTS
  }

  /** The kind a fast receiver must have after storing `v`: the more general
      of its contents and the value's, with its holeyness. */
  function GeneralizedKind(k: ElementsKind, v: StoredValue): ElementsKind
    requires IsFastElementsKind(k)
  {
    var c := if ContentsRank(ValueContents(v)) > ContentsRank(KindContents(k)) then ValueContents(v)
             else KindContents(k);
    FastKind(c, HasFastHoleyElements(k))
  }

  lemma FastKindOfOwn(k: ElementsKind)
    requires IsFastElementsKind(k)
    ensures FastKind(KindContents(k), HasFastHoleyElements(k)) == k
  {
  }

  /** Together, GetStubKind and ComputeTransitionedMap move a fast receiver
      to exactly the generalized kind, whether or not the store grows the
      array. */
  lemma StoreReachesGeneralizedKind(transitionMapId: (int, ElementsKind) -> int, r: Receiver, index: int,
                                    v: StoredValue)
    requires IsFastElementsKind(r.receiverMap.kind)
    ensures ComputeTransitionedMap(transitionMapId, r, GetStubKind(r, index, v)).kind
            == GeneralizedKind(r.receiverMap.kind, v)
  {
    FastKindOfOwn(r.receiverMap.kind);
  }

  /** A store into a non-fast receiver never changes its map. */
  lemma NonFastStoreKeepsMap(transitionMapId: (int, ElementsKind) -> int, r: Receiver, index: int,
                             v: StoredValue)
    requires !IsFastElementsKind(r.receiverMap.kind)
    ensures ComputeTransitionedMap(transitionMapId, r, GetStubKind(r, index, v)) == r.receiverMap
  {
  }

  /** The stub transitions exactly when the generalized kind differs from
      the receiver's. */
  lemma TransitionIffKindChanges(r: Receiver, index: int, v: StoredValue)
    requires IsFastElementsKind(r.receiverMap.kind)
    ensures IsTransitionStubKind(GetStubKind(r, index, v)) <==> GeneralizedKind(r.receiverMap.kind, v) != r.receiverMap.kind
  {
    FastKindOfOwn(r.receiverMap.kind);
  }
}

=== FILE: outcomes.dfy ===
/** Optional values and results with a failure description, used by every
    module of the model to represent the error paths of the modelled code. */
module Outcomes {

  /** A value that may be missing: the model's stand-in for a NULL pointer
      or an absent entry. */
  datatype Option<+T> = None | Some(value: T)

  /** The outcome of an operation that can stop with a fatal error
      (a failed CHECK, an UNREACHABLE, or a malformed input). */
  datatype Result<+T, +E> = Ok(value: T) | Err(error: E)
}

=== FILE: translation.dfy ===
/** Translations: the opcode-and-operand records that describe how to rebuild
    unoptimized frames from an optimized one (the Translation writers and
    Translation::NumberOfOperandsFor), laid out in the integer code of
    `TranslationCodec`. */
module Translation {
  import opened Outcomes
  import opened TranslationCodec

  datatype Opcode =
    | BEGIN
    | JS_FRAME
    | ARGUMENTS_ADAPTOR_FRAME
    | CONSTRUCT_STUB_FRAME
    | GETTER_STUB_FRAME
    | SETTER_STUB_FRAME
    | COMPILED_STUB_FRAME
    | REGISTER
    | INT32_REGISTER
    | UINT32_REGISTER
    | DOUBLE_REGISTER
    | STACK_SLOT
    | INT32_STACK_SLOT
    | UINT32_STACK_SLOT
    | DOUBLE_STACK_SLOT
    | LITERAL
    | ARGUMENTS_OBJECT
    | DUPLICATE

  /** Number of opcodes; an opcode is written as its position in the
      enumeration, 0 to OpcodeCount - 1. */
  const OpcodeCount := 18

  function OpcodeValue(op: Opcode): (n: nat)
    ensures n < OpcodeCount
  {
    match op
    case BEGIN => 0
    case JS_FRAME => 1
    case ARGUMENTS_ADAPTOR_FRAME => 2
    case CONSTRUCT_STUB_FRAME => 3
    case GETTER_STUB_FRAME => 4
    case SETTER_STUB_FRAME => 5
    case COMPILED_STUB_FRAME => 6
    case REGISTER => 7
    case INT32_REGISTER => 8
    case UINT32_REGISTER => 9
    case DOUBLE_REGISTER => 10
    case STACK_SLOT => 11
    case INT32_STACK_SLOT => 12
    case UINT32_STACK_SLOT => 13
    case DOUBLE_STACK_SLOT => 14
    case LITERAL => 15
    case ARGUMENTS_OBJECT => 16
    case DUPLICATE => 17
  }

  /** The cast of a read integer back to an opcode; numbers outside the
      enumeration name no opcode. */
  function OpcodeOfValue(n: int): (r: Option<Opcode>)
    ensures r.Some? <==> 0 <= n < OpcodeCount
    ensures r.Some? ==> OpcodeValue(r.value) == n
  {
    if n == 0 then Some(BEGIN)
    else if n == 1 then Some(JS_FRAME)
    else if n == 2 then Some(ARGUMENTS_ADAPTOR_FRAME)
    else if n == 3 then Some(CONSTRUCT_STUB_FRAME)
    else if n == 4 then Some(GETTER_STUB_FRAME)
    else if n == 5 then Some(SETTER_STUB_FRAME)
    else if n == 6 then Some(COMPILED_STUB_FRAME)
    else if n == 7 then Some(REGISTER)
    else if n == 8 then Some(INT32_REGISTER)
    else if n == 9 then Some(UINT32_REGISTER)
    else if n == 10 then Some(DOUBLE_REGISTER)
    else if n == 11 then Some(STACK_SLOT)
    else if n == 12 then Some(INT32_STACK_SLOT)
    else if n == 13 then Some(UINT32_STACK_SLOT)
    else if n == 14 then Some(DOUBLE_STACK_SLOT)
    else if n == 15 then Some(LITERAL)
    else if n == 16 then Some(ARGUMENTS_OBJECT)
    else if n == 17 then Some(DUPLICATE)
    else None
  }

  /** The written value names the opcode again. */
  lemma OpcodeValueRoundTrip(op: Opcode)
    ensures OpcodeOfValue(OpcodeValue(op)) == Some(op)
  {
  }

  /** Whether the opcode starts a frame description (the cases that the
      command interpreters treat as unreachable). */
  predicate IsFrameOpcode(op: Opcode) {
    op in {BEGIN, JS_FRAME, ARGUMENTS_ADAPTOR_FRAME, CONSTRUCT_STUB_FRAME,
           GETTER_STUB_FRAME, SETTER_STUB_FRAME, COMPILED_STUB_FRAME}
  }

  /** Translation::NumberOfOperandsFor as written. */
  function NumberOfOperandsFor(op: Opcode): (n: nat)
    ensures n <= 3
    ensures n == 0 <==> op == DUPLICATE
  {
    match op
    case DUPLICATE => 0
    case GETTER_STUB_FRAME | SETTER_STUB_FRAME | REGISTER | INT32_REGISTER
       | UINT32_REGISTER | DOUBLE_REGISTER | STACK_SLOT | INT32_STACK_SLOT
       | UINT32_STACK_SLOT | DOUBLE_STACK_SLOT | LITERAL | COMPILED_STUB_FRAME => 1
    case BEGIN | ARGUMENTS_ADAPTOR_FRAME | CONSTRUCT_STUB_FRAME => 2
    case JS_FRAME | ARGUMENTS_OBJECT => 3
  }

  /** The operand table corrected to agree with the writers: a compiled stub
      frame carries no operand. */
  function OperandCount(op: Opcode): (n: nat)
    ensures n <= 3
    ensures op != COMPILED_STUB_FRAME ==> n == NumberOfOperandsFor(op)
    ensures op == COMPILED_STUB_FRAME ==> n == 0
  {
    if op == COMPILED_STUB_FRAME then 0 else NumberOfOperandsFor(op)
  }

  /** One call of a Translation writer, with the arguments it was given. */
  datatype Writer =
    | Begin(frameCount: int, jsFrameCount: int)
    | BeginJSFrame(nodeId: int, literalId: int, height: int)
    | BeginArgumentsAdaptorFrame(literalId: int, height: int)
    | BeginConstructStubFrame(literalId: int, height: int)
    | BeginGetterStubFrame(literalId: int)
    | BeginSetterStubFrame(literalId: int)
    | BeginCompiledStubFrame
    | StoreRegister(reg: int)
    | StoreInt32Register(reg: int)
    | StoreUint32Register(reg: int)
    | StoreDoubleRegister(reg: int)
    | StoreStackSlot(index: int)
    | StoreInt32StackSlot(index: int)
    | StoreUint32StackSlot(index: int)
    | StoreDoubleStackSlot(index: int)
    | StoreLiteral(literalId: int)
    | StoreArgumentsObject(argsKnown: bool, argsIndex: int, argsLength: int)
    | MarkDuplicate

  /** The opcode a writer emits first. */
  function OpcodeOf(w: Writer): Opcode {
    match w
    case Begin(_, _) => BEGIN
    case BeginJSFrame(_, _, _) => JS_FRAME
    case BeginArgumentsAdaptorFrame(_, _) => ARGUMENTS_ADAPTOR_FRAME
    case BeginConstructStubFrame(_, _) => CONSTRUCT_STUB_FRAME
    case BeginGetterStubFrame(_) => GETTER_STUB_FRAME
    case BeginSetterStubFrame(_) => SETTER_STUB_FRAME
    case BeginCompiledStubFrame => COMPILED_STUB_FRAME
    case StoreRegister(_) => REGISTER
    case StoreInt32Register(_) => INT32_REGISTER
    case StoreUint32Register(_) => UINT32_REGISTER
    case StoreDoubleRegister(_) => DOUBLE_REGISTER
    case StoreStackSlot(_) => STACK_SLOT
    case StoreInt32StackSlot(_) => INT32_STACK_SLOT
    case StoreUint32StackSlot(_) => UINT32_STACK_SLOT
    case StoreDoubleStackSlot(_) => DOUBLE_STACK_SLOT
    case StoreLiteral(_) => LITERAL
    case StoreArgumentsObject(_, _, _) => ARGUMENTS_OBJECT
    case MarkDuplicate => DUPLICATE
  }

  /** The integers a writer adds after its opcode, in order. */
  function Operands(w: Writer): seq<int> {
    match w
    case Begin(f, j) => [f, j]
    case BeginJSFrame(node, lit, h) => [node, lit, h]
    case BeginArgumentsAdaptorFrame(lit, h) => [lit, h]
    case BeginConstructStubFrame(lit, h) => [lit, h]
    case BeginGetterStubFrame(lit) => [lit]
    case BeginSetterStubFrame(lit) => [lit]
    case BeginCompiledStubFrame => []
    case StoreRegister(r) => [r]
    case StoreInt32Register(r) => [r]
    case StoreUint32Register(r) => [r]
    case StoreDoubleRegister(r) => [r]
    case StoreStackSlot(i) => [i]
    case StoreInt32StackSlot(i) => [i]
    case StoreUint32StackSlot(i) => [i]
    case StoreDoubleStackSlot(i) => [i]
    case StoreLiteral(lit) => [lit]
    case StoreArgumentsObject(known, idx, len) => [if known then 1 else 0, idx, len]
    case MarkDuplicate => []
  }

  /** A decoded record: an opcode and the operands read after it. */
  datatype Record = Record(opcode: Opcode, operands: seq<int>)

  function RecordOf(w: Writer): Record {
    Record(OpcodeOf(w), Operands(w))
  }

  /** Every writer agrees with the corrected table, and every writer but
      BeginCompiledStubFrame agrees with the table as written. */
  lemma WriterOperandCounts(w: Writer)
    ensures |Operands(w)| == OperandCount(OpcodeOf(w))
    ensures w != BeginCompiledStubFrame ==> |Operands(w)| == NumberOfOperandsFor(OpcodeOf(w))
    ensures w == BeginCompiledStubFrame ==> |Operands(w)| + 1 == NumberOfOperandsFor(OpcodeOf(w))
  {
  }

  /** The integers one writer call adds: its opcode, then its operands. */
  function WriterWords(w: Writer): (ws: seq<int>)
    ensures |ws| == 1 + |Operands(w)|
  {
    [OpcodeValue(OpcodeOf(w))] + Operands(w)
  }

  /** The integers a sequence of writer calls adds, in order. */
  function Words(writers: seq<Writer>): seq<int> {
    if |writers| == 0 then [] else WriterWords(writers[0]) + Words(writers[1..])
  }

  /** The bytes one writer call adds. */
  function WriterBytes(w: Writer): seq<Byte> {
    EncodeWords(WriterWords(w))
  }

  /** The buffer contents after a sequence of writer calls. */
  function Serialize(writers: seq<Writer>): seq<Byte> {
    if |writers| == 0 then [] else WriterBytes(writers[0]) + Serialize(writers[1..])
  }

  /** The buffer holds the integer code of the writers' words. */
  lemma {:induction false} SerializeIsEncodeWords(writers: seq<Writer>)
    ensures Serialize(writers) == EncodeWords(Words(writers))
    decreases |writers|
  {
    if |writers| > 0 {
      SerializeIsEncodeWords(writers[1..]);
      EncodeWordsAppend(WriterWords(writers[0]), Words(writers[1..]));
    }
  }

  /** Reads one record from the front of `ws`, taking the operand count of
      its opcode from `table`; yields the record and the number of integers
      it took, or None when the words end early or the first names no
      opcode. */
  function ReadRecord(table: Opcode -> nat, ws: seq<int>): (r: Option<(Record, nat)>)
    ensures r.Some? ==> 0 < r.value.1 <= |ws|
    ensures r.Some? ==> r.value.1 == 1 + |r.value.0.operands|
    ensures r.Some? ==> |r.value.0.operands| == table(r.value.0.opcode)
  {
    if |ws| == 0 then None
    else
      match OpcodeOfValue(ws[0])
      case None => None
      case Some(op) =>
        var n := table(op);
        if 1 + n <= |ws| then Some((Record(op, ws[1..1 + n]), 1 + n)) else None
  }

  /** Reads records until the words run out. */
  function ReadRecords(table: Opcode -> nat, ws: seq<int>): Option<seq<Record>>
    decreases |ws|
  {
    if |ws| == 0 then Some([])
    else
      match ReadRecord(table, ws)
      case None => None
      case Some((rec, n)) =>
        match ReadRecords(table, ws[n..])
        case None => None
        case Some(recs) => Some([rec] + recs)
  }

  /** The records in a translation buffer: its integers, read as records. */
  function DecodeTranslation(table: Opcode -> nat, buf: seq<Byte>): Option<seq<Record>> {
    match DecodeWords(buf, 0)
    case None => None
    case Some(ws) => ReadRecords(table, ws)
  }

  function RecordsOf(writers: seq<Writer>): (recs: seq<Record>)
    ensures |recs| == |writers|
    ensures forall k :: 0 <= k < |writers| ==> recs[k] == RecordOf(writers[k])
  {
    if |writers| == 0 then [] else [RecordOf(writers[0])] + RecordsOf(writers[1..])
  }

  /** The words of a writer, followed by anything, read with the corrected
      table, give the writer's record first. */
  lemma ReadRecordOfWriter(w: Writer, tail: seq<int>)
    ensures ReadRecord(OperandCount, WriterWords(w) + tail) == Some((RecordOf(w), |WriterWords(w)|))
  {
    var ws := WriterWords(w) + tail;
    var ops := Operands(w);
    WriterOperandCounts(w);
    OpcodeValueRoundTrip(OpcodeOf(w));
    assert ws[0] == OpcodeValue(OpcodeOf(w));
    assert ws[1..1 + |ops|] == ops;
  }

  /** Reading the writers' words with the corrected table gives back exactly
      the records the writers wrote, in order. */
  lemma {:induction false} ReadRecordsOfWords(writers: seq<Writer>)
    ensures ReadRecords(OperandCount, Words(writers)) == Some(RecordsOf(writers))
    decreases |writers|
  {
    if |writers| > 0 {
      var w := writers[0];
      var rest := writers[1..];
      var ws := Words(writers);
      var head := WriterWords(w);
      var tail := Words(rest);
      assert ws == head + tail;
      ReadRecordOfWriter(w, tail);
      assert ws[|head|..] == tail;
      ReadRecordsOfWords(rest);
      assert RecordsOf(writers) == [RecordOf(w)] + RecordsOf(rest);
    }
  }

  /** Round trip of a whole translation: decoding the bytes the writers
      produced, with the corrected table, gives back their records. */
  lemma DecodeTranslationOfSerialize(writers: seq<Writer>)
    ensures DecodeWords(Serialize(writers), 0) == Some(Words(writers))
    ensures DecodeTranslation(OperandCount, Serialize(writers)) == Some(RecordsOf(writers))
  {
    SerializeIsEncodeWords(writers);
    DecodeEncodeWords(Words(writers));
    ReadRecordsOfWords(writers);
  }

  /** A compiled stub frame followed by a store of register 3: the bytes and
      the integers they hold. */
  lemma StubThenRegisterWords()
    ensures Serialize([BeginCompiledStubFrame, StoreRegister(3)]) == [24, 28, 12]
    ensures DecodeWords([24, 28, 12], 0) == Some([6, 7, 3])
  {
    var ws := [BeginCompiledStubFrame, StoreRegister(3)];
    var words := [6, 7, 3];
    StubThenRegisterIntegers();
    EncodeStubThenRegister();
    SerializeIsEncodeWords(ws);
    DecodeEncodeWords(words);
  }

  lemma StubThenRegisterIntegers()
    ensures Words([BeginCompiledStubFrame, StoreRegister(3)]) == [6, 7, 3]
  {
    var ws := [BeginCompiledStubFrame, StoreRegister(3)];
    assert ws[1..] == [StoreRegister(3)];
    assert ws[1..][1..] == [];
  }

  lemma EncodeStubThenRegister()
    ensures EncodeWords([6, 7, 3]) == [24, 28, 12]
  {
    assert Add(6) == [24] && Add(7) == [28] && Add(3) == [12];
    assert [6, 7, 3][1..] == [7, 3];
    assert [7, 3][1..] == [3];
    assert [3][1..] == [];
  }

  /** With the table as written, a compiled stub frame followed by a register
      store does not decode: the register opcode is taken as the frame's
      operand and the register number as a construct-stub opcode whose
      operands are missing. The corrected table decodes both records. */
  lemma CompiledStubFrameMisread()
    ensures Serialize([BeginCompiledStubFrame, StoreRegister(3)]) == [24, 28, 12]
    ensures DecodeTranslation(NumberOfOperandsFor, [24, 28, 12]) == None
    ensures DecodeTranslation(OperandCount, [24, 28, 12])
            == Some([Record(COMPILED_STUB_FRAME, []), Record(REGISTER, [3])])
  {
    StubThenRegisterWords();
    MisreadWords();
    CorrectedWords();
  }

  lemma MisreadWords()
    ensures ReadRecords(NumberOfOperandsFor, [6, 7, 3]) == None
  {
    var ws := [6, 7, 3];
    assert OpcodeOfValue(6) == Some(COMPILED_STUB_FRAME);
    assert ws[1..2] == [7];
    assert ReadRecord(NumberOfOperandsFor, ws) == Some((Record(COMPILED_STUB_FRAME, [7]), 2));
    assert ws[2..] == [3];
    assert ReadRecord(NumberOfOperandsFor, [3]) == None;
  }

  lemma CorrectedWords()
    ensures ReadRecords(OperandCount, [6, 7, 3])
            == Some([Record(COMPILED_STUB_FRAME, []), Record(REGISTER, [3])])
  {
    var ws := [6, 7, 3];
    assert OpcodeOfValue(6) == Some(COMPILED_STUB_FRAME);
    assert ws[1..1] == [];
    assert ReadRecord(OperandCount, ws) == Some((Record(COMPILED_STUB_FRAME, []), 1));
    assert ws[1..] == [7, 3];
    assert OpcodeOfValue(7) == Some(REGISTER);
    assert [7, 3][1..2] == [3];
    assert ReadRecord(OperandCount, [7, 3]) == Some((Record(REGISTER, [3]), 2));
    var none: seq<int> := [];
    assert [7, 3][2..] == none;
    assert ReadRecords(OperandCount, none) == Some([]);
    assert [Record(REGISTER, [3])] + [] == [Record(REGISTER, [3])];
    assert ReadRecords(OperandCount, [7, 3]) == Some([Record(REGISTER, [3])]);
    assert [Record(COMPILED_STUB_FRAME, [])] + [Record(REGISTER, [3])]
           == [Record(COMPILED_STUB_FRAME, []), Record(REGISTER, [3])];
  }
}

=== FILE: translation_codec.dfy ===
/** The variable-length integer code of the deoptimizer's translation buffer
    (TranslationBuffer::Add and TranslationIterator::Next).

    A signed value is turned into an unsigned payload holding the magnitude
    shifted left by one with the sign in bit 0; the payload is then written
    seven bits per byte, least significant group first, each byte carrying
    its seven bits above a continuation flag in bit 0.

    The code as written computes the payload in 32-bit arithmetic, which
    loses the most negative int32; `AddAsWritten` and `NextAsWritten` keep
    that behaviour, while `Add` and `Next` are the corrected pair that the
    rest of the model reads translations with. */
module TranslationCodec {
  import opened Arch
  import opened Outcomes

  type Byte = x: int | 0 <= x < 256

  /** Seven-bit groups of `bits`, least significant first, each shifted
      left by one with the continuation flag in bit 0. */
  function Chunks(bits: nat): (out: seq<Byte>)
    ensures 1 <= |out|
    decreases bits
  {
    var next := bits / 128;
    var b := (bits % 128) * 2 + (if next != 0 then 1 else 0);
    if next == 0 then [b] else [b] + Chunks(next)
  }

  /** Reads seven-bit groups from position `i` until a byte whose bit 0 is
      clear; yields the unbounded payload and the position after that byte,
      or None when the buffer ends inside a number. */
  function ReadChunks(buf: seq<Byte>, i: nat): (r: Option<(nat, nat)>)
    ensures r.Some? ==> i < r.value.1 <= |buf|
    decreases |buf| - i
  {
    if i >= |buf| then None
    else if buf[i] % 2 == 0 then Some((buf[i] / 2, i + 1))
    else
      match ReadChunks(buf, i + 1)
      case None => None
      case Some((rest, j)) => Some((buf[i] / 2 + 128 * rest, j))
  }

  /** Sign-and-magnitude payload: magnitude times two, plus one when negative. */
  function Payload(v: int): (bits: nat)
  {
    (if v < 0 then -v else v) * 2 + (if v < 0 then 1 else 0)
  }

  /** Reads a payload back as a signed value: a set bit 0 negates. */
  function FromPayload(bits: nat): (v: int)
  {
    var result := bits / 2;
    if bits % 2 == 1 then -result else result
  }

  /** The payload keeps the sign in bit 0 and reads back as the value it was
      made from. */
  lemma PayloadRoundTrip(v: int)
    ensures Payload(v) % 2 == 1 <==> v < 0
    ensures Payload(v) / 2 == if v < 0 then -v else v
    ensures FromPayload(Payload(v)) == v
  {
  }

  /** TranslationBuffer::Add as written: the magnitude is negated and shifted
      in 32-bit arithmetic, so both operations wrap. */
  function AddAsWritten(v: int): (out: seq<Byte>)
    requires IsInt32(v)
    ensures 1 <= |out| <= 5
  {
    var isNegative := v < 0;
    var magnitude := Int32Wrap(if isNegative then -v else v);
    var bits := Uint32Wrap(magnitude * 2 + (if isNegative then 1 else 0));
    ChunksLength(bits, 5);
    Chunks(bits)
  }

  /** TranslationIterator::Next as written: the payload lives in a 32-bit
      unsigned accumulator, so groups beyond bit 31 are lost. */
  function NextAsWritten(buf: seq<Byte>, i: nat): (r: Option<(int, nat)>)
    ensures r.Some? ==> IsInt32(r.value.0) && r.value.0 != -Two31
    ensures r.Some? <==> ReadChunks(buf, i).Some?
    ensures r.Some? ==> i < r.value.1 <= |buf|
  {
    match ReadChunks(buf, i)
    case None => None
    case Some((payload, j)) => Some((FromPayload(Uint32Wrap(payload)), j))
  }

  /** The corrected writer: the payload is computed without wrapping. */
  function Add(v: int): (out: seq<Byte>)
    ensures 1 <= |out|
    ensures Next(out, 0) == Some((v, |out|))
  {
    var out := Chunks(Payload(v));
    PayloadRoundTrip(v);
    ReadChunksOfChunks(out, 0, Payload(v));
    out
  }

  /** Every int32, the most negative included, fits in five bytes. */
  lemma AddLength(v: int)
    requires IsInt32(v)
    ensures |Add(v)| <= 5
  {
    ChunksLength(Payload(v), 5);
  }

  /** The corrected reader: the payload is accumulated without truncation. */
  function Next(buf: seq<Byte>, i: nat): (r: Option<(int, nat)>)
    ensures r.Some? <==> ReadChunks(buf, i).Some?
    ensures r.Some? ==> i < r.value.1 <= |buf|
  {
    match ReadChunks(buf, i)
    case None => None
    case Some((payload, j)) => Some((FromPayload(payload), j))
  }

  /** A payload below 128^k needs at most k bytes. */
  lemma {:induction false} ChunksLength(bits: nat, k: nat)
    requires 1 <= k && bits < Pow128(k)
    ensures |Chunks(bits)| <= k
    decreases bits
  {
    if bits / 128 != 0 {
      assert Pow128(1) == 128;
      assert k >= 2;
      assert bits / 128 < Pow128(k - 1);
      ChunksLength(bits / 128, k - 1);
    }
  }

  /** Every byte of a written number but the last carries the continuation
      flag, and the last does not: the reader knows where a number ends. */
  lemma {:induction false} ChunksFlags(bits: nat)
    ensures forall k :: 0 <= k < |Chunks(bits)| - 1 ==> Chunks(bits)[k] % 2 == 1
    ensures Chunks(bits)[|Chunks(bits)| - 1] % 2 == 0
    decreases bits
  {
    if bits / 128 != 0 {
      ChunksFlags(bits / 128);
      var c := Chunks(bits);
      assert c == [c[0]] + Chunks(bits / 128);
    }
  }

  function Pow128(k: nat): (r: nat)
    ensures r >= 1
  {
    if k == 0 then 1 else 128 * Pow128(k - 1)
  }

  /** `part` occurs in `s` from position `i` on. */
  predicate WrittenAt<T(==)>(s: seq<T>, i: nat, part: seq<T>) {
    i + |part| <= |s| && forall k :: 0 <= k < |part| ==> s[i + k] == part[k]
  }

  /** A sequence is written at its own start. */
  lemma WrittenWhole<T>(s: seq<T>)
    ensures WrittenAt(s, 0, s)
  {
  }

  /** Parts written one after the other can be found one after the other. */
  lemma WrittenAtSplit<T>(s: seq<T>, i: nat, a: seq<T>, b: seq<T>)
    requires WrittenAt(s, i, a + b)
    ensures WrittenAt(s, i, a) && WrittenAt(s, i + |a|, b)
  {
    forall k | 0 <= k < |a| ensures s[i + k] == a[k] {
      assert (a + b)[k] == a[k];
    }
    forall k | 0 <= k < |b| ensures s[i + |a| + k] == b[k] {
      assert s[i + (|a| + k)] == (a + b)[|a| + k];
    }
  }

  /** Reading the groups written for `bits`, wherever they sit in a buffer,
      gives back `bits` and stops right after them. */
  lemma {:induction false} ReadChunksOfChunks(buf: seq<Byte>, i: nat, bits: nat)
    requires WrittenAt(buf, i, Chunks(bits))
    ensures ReadChunks(buf, i) == Some((bits, i + |Chunks(bits)|))
    decreases bits
  {
    var c := Chunks(bits);
    assert buf[i + 0] == c[0];
    if bits / 128 != 0 {
      var tail := Chunks(bits / 128);
      assert c == [c[0]] + tail;
      forall k | 0 <= k < |tail| ensures buf[i + 1 + k] == tail[k] {
        assert buf[i + (k + 1)] == c[k + 1];
      }
      ReadChunksOfChunks(buf, i + 1, bits / 128);
    }
  }

  /** Round trip of the corrected pair: every integer, written anywhere in a
      buffer, is read back exactly, and the reader stops after its bytes. */
  lemma NextOfAdd(buf: seq<Byte>, i: nat, v: int)
    requires WrittenAt(buf, i, Add(v))
    ensures Next(buf, i) == Some((v, i + |Add(v)|))
  {
    PayloadRoundTrip(v);
    ReadChunksOfChunks(buf, i, Payload(v));
  }

  /** The code as written round-trips every int32 except the most negative. */
  lemma NextAsWrittenOfAddAsWritten(buf: seq<Byte>, i: nat, v: int)
    requires IsInt32(v) && v != -Two31
    requires WrittenAt(buf, i, AddAsWritten(v))
    ensures NextAsWritten(buf, i) == Some((v, i + |AddAsWritten(v)|))
  {
    AddAsWrittenAgrees(v);
    PayloadRoundTrip(v);
    ReadChunksOfChunks(buf, i, Payload(v));
  }

  /** Away from the most negative int32 the written and corrected encoders
      emit the same bytes. */
  lemma AddAsWrittenAgrees(v: int)
    requires IsInt32(v) && v != -Two31
    ensures AddAsWritten(v) == Add(v)
    ensures Payload(v) < Two32
  {
  }

  /** The most negative int32 is written as the single byte 2 and read back
      as 0. */
  lemma AddAsWrittenLosesInt32Min()
    ensures AddAsWritten(-Two31) == [2]
    ensures NextAsWritten([2], 0) == Some((0, 1))
    ensures Next(Add(-Two31), 0) == Some((-Two31, |Add(-Two31)|))
  {
    assert Uint32Wrap(Int32Wrap(Two31) * 2 + 1) == 1;
    WrittenWhole(Add(-Two31));
    NextOfAdd(Add(-Two31), 0, -Two31);
  }
  /** The bytes of a sequence of integers, each written with `Add`. */
  function EncodeWords(ws: seq<int>): (out: seq<Byte>)
    ensures |ws| == 0 <==> |out| == 0
  {
    if |ws| == 0 then [] else Add(ws[0]) + EncodeWords(ws[1..])
  }

  /** The integers TranslationIterator::Next yields from position `i` while
      TranslationIterator::HasNext holds; None when the buffer ends inside a
      number. */
  function DecodeWords(buf: seq<Byte>, i: nat): Option<seq<int>>
    decreases |buf| - i
  {
    if i >= |buf| then Some([])
    else
      match Next(buf, i)
      case None => None
      case Some((v, j)) =>
        match DecodeWords(buf, j)
        case None => None
        case Some(vs) => Some([v] + vs)
  }

  /** Writing two runs of integers one after the other writes their
      concatenation. */
  lemma {:induction false} EncodeWordsAppend(a: seq<int>, b: seq<int>)
    ensures EncodeWords(a + b) == EncodeWords(a) + EncodeWords(b)
    decreases |a|
  {
    if |a| > 0 {
      assert (a + b)[1..] == a[1..] + b;
      EncodeWordsAppend(a[1..], b);
    } else {
      assert a + b == b;
    }
  }

  lemma DecodeWordsStep(buf: seq<Byte>, i: nat, v: int, j: nat, vs: seq<int>)
    requires i < |buf|
    requires Next(buf, i) == Some((v, j))
    requires DecodeWords(buf, j) == Some(vs)
    ensures DecodeWords(buf, i) == Some([v] + vs)
  {
  }

  /** Decoding the tail of a buffer that holds the bytes of `ws` gives back
      exactly `ws`. */
  lemma {:induction false} DecodeWordsAt(buf: seq<Byte>, i: nat, ws: seq<int>)
    requires WrittenAt(buf, i, EncodeWords(ws))
    requires i + |EncodeWords(ws)| == |buf|
    ensures DecodeWords(buf, i) == Some(ws)
    decreases |ws|
  {
    if |ws| > 0 {
      var v := ws[0];
      var rest := ws[1..];
      var a := Add(v);
      var e := EncodeWords(rest);
      assert EncodeWords(ws) == a + e;
      WrittenAtSplit(buf, i, a, e);
      NextOfAdd(buf, i, v);
      DecodeWordsAt(buf, i + |a|, rest);
      DecodeWordsStep(buf, i, v, i + |a|, rest);
      assert [v] + rest == ws;
    }
  }

  /** Round trip of a whole buffer: the integers written are the integers
      read, in order. */
  lemma DecodeEncodeWords(ws: seq<int>)
    ensures DecodeWords(EncodeWords(ws), 0) == Some(ws)
  {
    var buf := EncodeWords(ws);
    WrittenWhole(buf);
    DecodeWordsAt(buf, 0, ws);
  }
}
